=== FILE: README.md ===
# bombas — a Dafny model of the visibility core

bombas reads a scene of figures from a `.geo` file and a list of commands from
a `.qry` file. A `.geo` line describes a circle, rectangle, line or text. A
`.qry` command converts circles into segments (`a`), or acts on every figure
visible from a point: it destroys it (`d`), paints it (`p`) or clones it
(`cln`). Visibility comes from an angular sweep. Every figure edge becomes a
segment split at the angle-0 branch cut. Each segment produces a START and an
END event, and the events are sorted (insertion sort, or a hybrid merge sort
with a threshold). A target is hidden when some obstacle segment cuts the ray
towards it short of the target. The active segments of the sweep live in an
AVL tree.

The model is written over `real` and unbounded integers, one module per
source file:

- `AvlTree`, `AvlProofs` — `src/tree.c`: the AVL tree over a fixed key order,
  with rotations, insert, remove, search, min/max, traversal and height.
- `Events`, `EventSort`, `EventSortProofs` — the event comparator and the
  event sorts of `src/vis.c`.
- `Vis` — the rest of `src/vis.c`: scene bounds, segment extraction, the
  branch-cut split, event generation and `visIsVisible`.
- `Geom` — `src/geom.c`: points, angle normalisation, squared distance,
  cross product and the ray/segment intersection.
- `FifoQueue` — `src/queue.c`.
- `Figures` — `src/figure.c`: the tagged union, its setters, accessors,
  clone, move, area, colour inversion and hex complement.
- `Scanf` — the part of `sscanf` that the parsers use.
- `GeoParse` — `src/geo.c`.
- `QryCmds` — `src/qry.c`.
- `Paths` — the file-name and argument handling of `src/main.c`.

Figures in the model are values, not pointers. A NULL handle is `None` of an
`Option`. Trigonometry and square roots come from a `MathLib` record of
uninterpreted functions. Numbers in input lines are read by an abstract
`NumSyntax`. Where a contract needs an inverse, an abstract `NumPrinter` that
reads back is used. Every C routine is modelled on sequences and returns its
results.

Where the source has an evident bug, the model keeps two versions: the code
as written and the corrected behaviour (see Findings). The figure pipeline
(`GeoParse.GeoLines`, `Figures.InvertColors`, the `d`, `p` and `cln`
commands) builds on the corrected versions. Each member that differs from
the program because of this is named under "Left out", with the lemma that
says where the two agree.

The model keeps the code's constants even where a larger value is evidently
meant. For example, `geomRaySegmentIntersect` signals a miss with 100000.0,
not with an effectively infinite distance. `Vis.RaySegDist` keeps it so, and
`Vis.VisIsVisible`, like `visIsVisible`, reads that value as a real wall.

## Model

| member | source | states |
|---|---|---|
| AvlTree.NewNode | src/tree.c:26-34 | a new node is a leaf holding the element, with height 1 |
| AvlTree.RightRotate | src/tree.c:36-47 | a right rotation keeps the in-order sequence and the element set |
| AvlTree.LeftRotate | src/tree.c:49-60 | a left rotation keeps the in-order sequence and the element set |
| AvlTree.RotationsKeepKeys | src/tree.c:36-60 | both rotations keep the set of keys |
| AvlTree.TreeInit | src/tree.c:67-74 | a new tree handle has an empty root and the given comparator |
| AvlTree.TreeIsEmpty | src/tree.c:247-251 | a tree is empty exactly when the handle is NULL or it stores no element |
| AvlTree.TreeHeight | src/tree.c:253-257 | the height is 0 for NULL or an empty tree, else the root's stored height |
| AvlTree.SearchRec | src/tree.c:212-218 | the search finds an element exactly when its key is stored, and what it finds is stored and has that key |
| AvlTree.TreeSearch | src/tree.c:220-225 | same through the handle; NULL handle finds nothing |
| AvlTree.LeftmostIsLeast | src/tree.c:227-235 | the leftmost element of an ordered tree is stored and has the least key |
| AvlTree.RightmostIsGreatest | src/tree.c:237-245 | the rightmost element of an ordered tree is stored and has the greatest key |
| AvlTree.TreeMin | src/tree.c:227-235 | returns nothing iff the tree is empty, else a stored element whose key is at most every stored key |
| AvlTree.TreeMax | src/tree.c:237-245 | returns nothing iff the tree is empty, else a stored element whose key is at least every stored key |
| AvlTree.RebalanceInsert | src/tree.c:112-132 | the insertion rebalancing keeps the in-order sequence and the elements |
| AvlTree.TreeInsert | src/tree.c:135-142 | inserting through a NULL handle fails and changes nothing; otherwise the handle keeps its comparator |
| AvlTree.RebalanceRemove | src/tree.c:181-200 | the removal rebalancing keeps the in-order sequence and the elements |
| AvlTree.TreeRemove | src/tree.c:203-210 | removing from a NULL or empty tree returns NULL and changes nothing |
| AvlProofs.KeyUnique | src/tree.c:94-109 | in an ordered tree two stored elements with equal keys are the same element |
| AvlProofs.JoinValid | src/tree.c:17-34 | a node over two valid subtrees of close height, split by its key, is valid with the union of keys and height one more than the taller child |
| AvlProofs.RotateRightOk | src/tree.c:36-47 | the single right rotation of a left-left imbalance gives a valid tree with the same keys, and its height is known |
| AvlProofs.RotateLeftOk | src/tree.c:49-60 | the single left rotation of a right-right imbalance gives a valid tree with the same keys, and its height is known |
| AvlProofs.RotateLeftRightOk | src/tree.c:187-190 | the left-right double rotation gives a valid tree with the same keys and the height of the heavy child |
| AvlProofs.RotateRightLeftOk | src/tree.c:195-198 | the right-left double rotation gives a valid tree with the same keys and the height of the heavy child |
| AvlProofs.RebalanceRemoveOk | src/tree.c:181-200 | rebalancing a node with one imbalance by 2 yields a valid tree with the same keys, height lower by at most one, and leaves a balanced node alone |
| AvlProofs.InsertRebalanceAgrees | src/tree.c:113-130 | after an insertion, the insertion's case analysis by the new key picks the same rotation as the removal's case analysis by child balance |
| AvlProofs.InsertCorrect | src/tree.c:94-133 | insertion into a valid tree gives a valid tree (ordered, balanced, exact heights) that holds the new element iff its key was absent, leaves the tree unchanged otherwise, and grows the height by at most one |
| AvlProofs.InsertJoinLeft | src/tree.c:102-132 | descending left and rebalancing keeps the insertion postcondition |
| AvlProofs.InsertJoinRight | src/tree.c:104-132 | descending right and rebalancing keeps the insertion postcondition |
| AvlProofs.RemoveCorrect | src/tree.c:151-201 | removal from a valid tree returns the stored element with the key iff one exists; the rest is valid, has exactly the other elements, and is at most one lower |
| AvlProofs.RemoveJoinLeft | src/tree.c:156-200 | descending left and rebalancing keeps the removal postcondition |
| AvlProofs.RemoveJoinRight | src/tree.c:158-200 | descending right and rebalancing keeps the removal postcondition |
| AvlProofs.RemoveRootOneChild | src/tree.c:160-171 | removing a node with at most one child replaces it by that child and returns its element |
| AvlProofs.RemoveLeftmostOk | src/tree.c:144-149 | removing the in-order successor from the right subtree leaves a valid tree above its key, one element fewer |
| AvlProofs.RemoveRootTwoChildren | src/tree.c:172-176 | removing a node with two children puts the successor in its place and returns the original element |
| AvlProofs.TreeInsertSpec | src/tree.c:135-142 | through the handle: insert returns true iff the key was absent, the tree stays valid, and the elements gain exactly x on success |
| AvlProofs.TreeRemoveSpec | src/tree.c:203-210 | through the handle: remove returns the stored element with the key or NULL, the tree stays valid, and loses exactly that element |
| AvlProofs.InOrderAscending | src/tree.c:259-264 | in-order traversal visits exactly the stored elements, in strictly ascending key order |
| AvlProofs.SizeAtLeastFib | src/tree.c:62-65 | a balanced tree of height h has at least Fib(h+2)-1 elements, so height is logarithmic in size |
| Events.EventCompare | src/vis.c:88-100 | the comparator returns -1, 0 or 1 |
| Events.CompareMeaning | src/vis.c:88-100 | angles apart by more than the tolerance order the events; within the tolerance END precedes START and equal kinds compare 0 |
| Events.CompareAntisymmetric | src/vis.c:88-100 | swapping the arguments negates the comparison |
| Events.ExactCompareTotalPreorder | src/vis.c:88-100 | with tolerance 0 the comparator is a total preorder whose ties are equal angle and kind |
| Events.ToleranceNotTransitive | src/vis.c:88-100 | with the program's tolerance, ties are not transitive: a~b and b~c yet a<c |
| Events.EquivCompare | src/vis.c:88-100 | tied events compare alike against every third event |
| EventSort.InsertKey | src/vis.c:105-112 | one pass of the inner loop inserts arr[i] into the sorted run arr[left..i-1] and changes nothing else |
| EventSort.InsertionSortEvents | src/vis.c:104-114 | arr[left..right] becomes its insertion-sorted rearrangement and every cell outside the range is unchanged |
| EventSort.Merge | src/vis.c:116-132 | arr[l..r] becomes the merge of the runs arr[l..m] and arr[m+1..r], left first on ties, with the outside unchanged |
| EventSort.MergeSortHybrid | src/vis.c:134-144 | arr[l..r] becomes the hybrid sort of its contents with the outside unchanged |
| EventSort.HybridShort | src/vis.c:135-136 | a range of length at most 1 is untouched, and one no longer than the threshold is insertion-sorted |
| Vis.SortEvents | src/vis.c:304-305 | every sort type yields a permutation of the events with every two neighbours in comparator order; type 'm' yields exactly the hybrid merge sort's result |
| EventSortProofs.ISortPermAdj | src/vis.c:104-114 | insertion sort yields a permutation with each neighbour pair in order |
| EventSortProofs.ISortStable | src/vis.c:104-114 | insertion sort is stable: tied events keep their input order |
| EventSortProofs.MergeRefPerm | src/vis.c:116-132 | merging gives a permutation of the two runs |
| EventSortProofs.MergeRefAdj | src/vis.c:116-132 | merging two sorted runs gives a sorted sequence |
| EventSortProofs.MergeRefStable | src/vis.c:125-127 | merging takes the left run first on ties, so tied events keep their order |
| EventSortProofs.HybridPermAdj | src/vis.c:134-144 | the hybrid sort yields a sorted permutation |
| EventSortProofs.HybridSortedStable | src/vis.c:134-144 | with exact comparison the hybrid sort is sorted and stable |
| EventSortProofs.SortedStableUnique | src/vis.c:104-144 | two sorted arrangements that keep every class of tied events in the same order are equal, so a stable sort has one possible result |
| EventSortProofs.SortedPermUnique | src/vis.c:304-305 | two sorted permutations of one another, with no two events tied, are equal, whichever of the two sorts produced them |
| EventSortProofs.HybridEqualsInsertion | src/vis.c:104-144 | the hybrid sort and the insertion sort agree on every input and threshold |
| EventSortProofs.QsortAgrees | src/vis.c:305 | any sorted permutation without ties, which is all qsort promises, equals the hybrid sort's output under exact angle comparison |
| Geom.PointCreate | src/geom.c:13-20 | a new point reads back the coordinates it was created with |
| Geom.PointSet | src/geom.c:36-42 | setting a point keeps it NULL iff it was NULL |
| Geom.GetAfterSet | src/geom.c:26-42 | the getters return the values last set, and 0 for a NULL point |
| Geom.NormalizeAngle | src/geom.c:44-48 | the result lies in [0, 2π) and differs from the input by a whole number of turns |
| Geom.DistSq | src/geom.c:54-58 | the squared distance is non-negative and zero exactly when the points coincide |
| Geom.DistSqSymmetric | src/geom.c:54-58 | the squared distance is symmetric |
| Geom.CrossOrientation | src/geom.c:64-72 | the cross product negates when b and c swap, vanishes when c is a or b, and is positive for a left turn |
| Geom.RaySegmentIntersect | src/geom.c:74-99 | the result is the miss value or at least -ε, and a ray parallel to the segment misses |
| Geom.CrossingPointsAgree | src/geom.c:85-93 | the two parameters computed by the routine name one point, on the ray and on the segment's line |
| Geom.ReportedHitIsOnSegment | src/geom.c:90-96 | a reported distance is not parallel, lies on the segment within ε, and is the ray parameter of that crossing |
| Geom.CrossingIsReported | src/geom.c:92-96 | a non-parallel crossing ahead of the observer within the segment is reported at its distance |
| FifoQueue.QueueInit | src/queue.c:16-24 | a new queue is valid, empty, and has size 0 |
| FifoQueue.EmptyMeansNoItems | src/queue.c:39-83 | a queue is empty iff it is NULL or holds nothing; the size is the item count, or -1 for NULL |
| FifoQueue.Enqueue | src/queue.c:46-62 | enqueue on NULL returns 0; otherwise it appends at the rear, grows the size by one and returns 1 |
| FifoQueue.Dequeue | src/queue.c:64-76 | dequeue on an empty or NULL queue returns NULL and changes nothing; otherwise it removes and returns the front and shrinks the size by one |
| FifoQueue.EnqueueAllAppends | src/queue.c:46-62 | enqueuing a sequence appends it in order |
| FifoQueue.DrainAllReturnsItems | src/queue.c:64-76 | dequeuing until empty returns the items front to rear |
| FifoQueue.FirstInFirstOut | src/queue.c:46-76 | items leave a new queue in the order they entered |
| Figures.FigureInit | src/figure.c:47-74 | a figure is made exactly for the four shape codes, and has that shape |
| Figures.NullDefaults | src/figure.c:282-377 | the accessors on NULL leave the caller's outputs untouched or give 0 (radius, size) and a NUL anchor; the id, shape and type of NULL are -1, 0 and -1 |
| Figures.ShapeOfLiveFigure | src/figure.c:503-515 | a figure's shape is one of the four codes and its type equals its shape |
| Figures.SetCircle | src/figure.c:85-96 | a no-op on NULL or another shape; on a circle the getters then read back every argument |
| Figures.SetRectangle | src/figure.c:98-110 | a no-op on NULL or another shape; on a rectangle the getters then read back every argument |
| Figures.SetLine | src/figure.c:112-123 | a no-op on NULL or another shape; on a line the getters then read back every argument |
| Figures.SetText | src/figure.c:125-141 | a no-op on NULL or another shape; on a text the getters then read back every argument |
| Figures.FClone | src/figure.c:143-173 | a clone equals the original field for field |
| Figures.FMoveTo | src/figure.c:175-208 | moving sets the reference point and keeps colours and body; a line keeps its direction vector |
| Figures.FigureArea | src/figure.c:210-231 | area is -1 for NULL, π·r² with the program's π = 3.14159 for a circle, w·h for a rectangle, twice the length for a line, 20 per character for a text |
| Figures.FormatScanRoundTrip | src/figure.c:238-244 | reading back a printed "#rrggbb" after its '#' gives the channels |
| Figures.ComplementChannels | src/figure.c:233-246 | on success each channel of the complement is 255 minus the original's |
| Figures.ComplementOfPrinted | src/figure.c:233-246 | the complement of "#rrggbb" is the colour with every channel inverted |
| Figures.ComplementInvolution | src/figure.c:233-246 | complementing a printed colour twice gives it back |
| Figures.Complement | src/figure.c:233-246 | succeeds exactly when six characters follow the optional '#' and they read as three hex pairs |
| Figures.ComplementAsWritten | src/figure.c:233-246 | on success the text after the optional '#' had six characters and the result is "#" plus six digits |
| Figures.AsWrittenAgreesAfterHash | src/figure.c:234-238 | with a leading '#' the routine as written is correct |
| Figures.AsWrittenSkipsFirstDigit | src/figure.c:234-238 | without '#' the routine as written reads from the second digit: "ff0000" gives "#0fffff", not "#00ffff" |
| Figures.InvertColors | src/figure.c:248-280 | inversion swaps border and fill of a circle, rectangle or text, complements a line's colour, and touches nothing else |
| Figures.InvertTwice | src/figure.c:248-280 | inverting twice gives the figure back |
| Figures.PutFigureColor | src/figure.c:476-501 | sets border and fill (a line takes the border colour only) and changes nothing else |
| Figures.GetTextP | src/figure.c:403-424 | a text spans 10 per character on its baseline, starting at x for 'i', centred on x for 'm', ending at x otherwise |
| Figures.HalfOfTens | src/figure.c:418-419 | the C integer halving of 10·len is exact |
| Scanf.SkipSpace | src/geo.c:28-29 | skipping white space drops exactly the leading white-space characters |
| Scanf.Word | src/geo.c:95-96 | %s takes the longest prefix free of white space |
| Scanf.ToNewline | src/geo.c:69-70 | %[^\n] takes the longest prefix free of newlines |
| Scanf.Scan | src/geo.c:28-29 | a scan converts nothing unless the line starts with the format's literal, and every value has its conversion's type |
| Scanf.ScanRender | src/geo.c:24-77 | scanning values printed one blank apart gives them back |
| Scanf.FirstWordOfLine | src/geo.c:95-96 | the first word of a line that starts with a word is that word |
| Scanf.ScanLiteralOnly | src/geo.c:82-83 | a line holding only the literal converts nothing |
| Scanf.BlankScansNothing | src/geo.c:95-96 | a blank line converts nothing |
| GeoParse.ProcessCircle | src/geo.c:24-35 | a circle exists iff all six fields convert, and it holds them |
| GeoParse.ProcessRectangle | src/geo.c:37-48 | a rectangle exists iff all seven fields convert, and it holds them |
| GeoParse.ProcessLine | src/geo.c:50-61 | a line exists iff all six fields convert, and it holds them |
| GeoParse.ProcessText | src/geo.c:63-77 | a text exists iff all seven fields convert; it holds them and the current style |
| GeoParse.ProcessTs | src/geo.c:79-87 | the style changes only when three fields convert, and then to them |
| GeoParse.StripCrLf | src/geo.c:93 | the line is cut at its first CR or LF |
| GeoParse.LineFigure | src/geo.c:98-105 | a figure comes only from the commands c, r, l and t, of the matching shape |
| GeoParse.ParseGeoLineAsWritten | src/geo.c:89-110 | as written: the figure of a line depends only on its command and fields |
| GeoParse.TsNeverApplies | src/geo.c:106-107 | as written, no line ever changes the style |
| GeoParse.ParseGeoLine | src/geo.c:89-110 | corrected: the style changes only on a ts line, to what processTs reads from it |
| GeoParse.TsLineIgnored | src/geo.c:106-107 | a well-formed ts line is ignored as written but sets the style when corrected |
| GeoParse.BlankLineIgnored | src/geo.c:95-96 | a blank line produces nothing |
| GeoParse.UnknownCommandIgnored | src/geo.c:98-109 | an unknown command produces nothing and keeps the style |
| GeoParse.GeoLine | src/geo.c:108-109 | an accepted figure is enqueued at the rear; nothing else changes the queue |
| GeoParse.GeoLines | src/geo.c:118-120 | lines only ever add figures at the rear, at most one each |
| GeoParse.ProcessGeoFile | src/geo.c:112-122 | a scene file fills the queue it was given and no other |
| GeoParse.GeoLinesAsWritten | src/geo.c:117-120 | the program's loop, with parseGeoLine as written, keeps the queue valid and never drops it |
| GeoParse.ParsersAgreeOffTs | src/geo.c:98-107 | a line that is not a ts command gives the same figure, and leaves the style alone, under both parsers |
| GeoParse.GeoLinesAgreeWithoutTs | src/geo.c:117-120 | on a file with no ts line the program's loop and the corrected loop enqueue the same figures |
| GeoParse.WrittenLineScans | src/geo.c:89-110 | a figure line written out field by field scans back to those fields |
| GeoParse.ReadWrittenFigure | src/geo.c:89-110 | a written figure line parses to that figure |
| GeoParse.ReadWrittenFile | src/geo.c:112-122 | the lines of written figures enqueue those figures, in file order |
| GeoParse.ReadWrittenScene | src/geo.c:112-122 | a written scene read from the start (style "Arial", "n", 12) gives back its figures in order |
| Vis.GetAngle | src/vis.c:51-55 | the angle is atan2 of the offset, shifted by 2π when negative, so it lies in [0, 2π) |
| Vis.RaySegDist | src/vis.c:57-64 | as written: a missing segment or a negative result is infinite, anything else (the miss value too) is the distance |
| Vis.MissReadAsSentinel | src/vis.c:57-64 | as written, a miss reads as a wall at 100000 |
| Vis.RaySegDistCorrected | src/vis.c:57-64 | corrected: only a real crossing ahead is a finite distance; a miss is infinite |
| Vis.MissBlocksFarTarget | src/vis.c:265-267 | as written a missed segment hides any target farther than 100000.1; corrected it never does |
| Vis.ParallelWallHidesFarTarget | src/vis.c:265-267 | a concrete parallel wall hides a target 200000 away as written, and not when corrected |
| Vis.CorrectedBlocksOnlyOnHits | src/vis.c:265-267 | corrected, a segment blocks iff it is an obstacle, it is hit, and the hit is nearer than the target less 0.1 |
| Vis.UpdateBounds | src/vis.c:148-153 | the box widens just enough to contain the point, and is unchanged when it already does |
| Vis.UpdateBoundsLeast | src/vis.c:148-153 | the widened box lies inside every box that contains the old box and the point |
| Vis.Accumulate | src/vis.c:155-172 | the bounds are the least box holding the observer and every obstacle's extent |
| Vis.SceneBounds | src/vis.c:155-175 | with no scene the box is the observer; otherwise it is that least box grown by 20 on every side |
| Vis.AddSegment | src/vis.c:179-213 | an edge gives one or two segments, all tagged with its id |
| Vis.AddSegmentPieces | src/vis.c:185-213 | an unsplit edge spans its endpoint angles in order; a split gives a piece from the larger angle to 2π and one from 0 to the smaller, meeting on the edge at the branch cut |
| Vis.AddSegmentAngles | src/vis.c:185-213 | every segment's angles satisfy 0 ≤ start ≤ end ≤ 2π |
| Vis.WorldEdges | src/vis.c:218-221 | the world box gives four edges with ids -1 to -4 |
| Vis.FigureEdges | src/vis.c:229-241 | a rectangle or circle gives four edges of a closed outline, a line one, a text none, all with the figure's id |
| Vis.SegmentIds | src/vis.c:179-243 | the segments carry exactly the ids of the edges they come from |
| Vis.WorldIds | src/vis.c:218-221 | the world box gives four to eight segments with ids exactly -1..-4 |
| Vis.ParseFigures | src/vis.c:215-243 | there are at least as many segments as the world box gives, at least four |
| Vis.ParseWorldFirst | src/vis.c:215-223 | the world box's segments come first, and with no scene they are all |
| Vis.ParseFigureSegments | src/vis.c:224-243 | each obstacle edge gives one or two segments, each tagged with a figure's id |
| Vis.MakeEvents | src/vis.c:288-302 | segment k gives the events 2k (START at its start angle) and 2k+1 (END at its end angle) |
| Vis.SweepEvents | src/vis.c:275-305 | the sweep sets the context to the observer, extracts the segments, and yields a sorted permutation of their two events each |
| Vis.FindBlocker | src/vis.c:261-268 | the scan finds a blocker iff some segment blocks the ray to the target |
| Vis.VisIsVisible | src/vis.c:247-273 | the context is restored; a target within tolerance is visible; otherwise it is hidden iff some obstacle segment's ray distance, as getRaySegDist reports it (a miss at 100000), is more than 0.1 short of the target |
| Vis.NearTargetBlocksAgree | src/vis.c:57-64 | for a target no farther than 100000.1 the program's and the intended ray distance block exactly the same segments |
| Vis.VisibleAgreesNearby | src/vis.c:247-273 | for a target no farther than 100000.1, visIsVisible as written decides as the corrected visibility test does |
| Vis.WorldNeverBlocks | src/vis.c:265 | the world-box segments never block |
| Vis.SameShapesVisible | src/vis.c:247-273 | visibility, both as visIsVisible decides it and with the corrected ray distance, depends only on the shapes in the scene, not their colours |
| Vis.SightIgnoresAngle | src/vis.c:254-258 | the sight-line segments depend on the observer, not on the sweep angle |
| Vis.VisibleIgnoresAngle | src/vis.c:247-273 | the corrected visibility test gives the same answer for every sweep angle |
| Vis.AsWrittenIgnoresAngle | src/vis.c:247-273 | visIsVisible as written gives the same answer for every sweep angle left in the global |
| Paths.LastIndex | src/main.c:28-31 | finds the last occurrence of a character, or none iff it is absent |
| Paths.LastIndexOfJoin | src/main.c:28-31 | in a + c + b with no c in b, the last c is at |a| |
| Paths.LastComponent | src/main.c:28-29 | the text after the last '/', or the whole path without one |
| Paths.GetBaseName | src/main.c:27-42 | the last path component cut at its last '.', if any |
| Paths.JoinedBaseName | src/main.c:27-57 | the base name of dir joined with stem.ext is stem |
| Paths.JoinPath | src/main.c:44-57 | NULL for no file name; the file name for no or empty path; else the path, a '/' only if missing, and the file name |
| Paths.InitConfig | src/main.c:59-63 | the defaults are sort 'q', threshold 10, and no paths |
| Paths.ApplyFlag | src/main.c:67-84 | each flag sets its own field; -to keeps only the first character |
| Paths.ScanArgs | src/main.c:65-85 | each of the six fields a flag sets (geo name, output directory, query name, -e directory, sort type, threshold) changes only if its flag appears, and the full paths are never touched |
| Paths.LastFlagWins | src/main.c:65-85 | the last occurrence of a flag decides its value |
| Paths.DanglingFlagIgnored | src/main.c:66-85 | a flag with no argument after it is ignored |
| Paths.ParseArgs | src/main.c:65-95 | parsing fails iff -f or -o is missing; the geo path is set, the query path iff -q was given |
| Paths.DefaultsSurvive | src/main.c:59-95 | without -q, -to or -in the query path stays NULL, sort stays 'q' and threshold 10 |
| Paths.OutputNames | src/main.c:119-143 | the query outputs exist exactly when a query was given |
| Paths.SceneStem | src/main.c:119-122 | the scene drawing's base name is the scene file's |
| Paths.QueryFiles | src/main.c:134-143 | the query outputs are <geoStem>-<qryStem>.svg and .txt in the output directory |
| Paths.MergedStem | src/main.c:135-143 | the base name of a merged output is <geoStem>-<qryStem> |
| Paths.QueryStems | src/main.c:134-143 | both query outputs have base name <geoStem>-<qryStem> |
| QryCmds.MakeSvgPathWithSuffix | src/qry.c:14-21 | a path without '.' gets "-", the suffix and ".svg" appended |
| QryCmds.SuffixReplacesExtension | src/qry.c:14-21 | the extension after the last '.' is replaced by "-suffix.svg" |
| QryCmds.GetShapeName | src/qry.c:23-31 | the name is DESCONHECIDO exactly for codes outside the four shapes |
| QryCmds.ShapeNameInverse | src/qry.c:23-31 | the four names map back to their codes |
| QryCmds.GetFigureCenter | src/qry.c:33-41 | the centre of anything but a rectangle is its reference point |
| QryCmds.CenterOfExtent | src/qry.c:33-41 | the centre of a rectangle or circle is the middle of its extent |
| QryCmds.Collapse | src/qry.c:89-91 | a converted circle keeps id and centre, has radius 0 and no colours, and is skipped later |
| QryCmds.Selected | src/qry.c:56-63 | only circles with ids in [idStart, idEnd] are chosen |
| QryCmds.Diameter | src/qry.c:64-81 | the new line has the border colour, is centred on the circle, is 2r long, horizontal for 'h' and vertical otherwise |
| QryCmds.DiameterEndsOnCircle | src/qry.c:70-77 | both ends of the new line lie on the circle |
| QryCmds.ConvertCircles | src/qry.c:56-94 | chosen circles are collapsed in place and each gives a line numbered in scan order |
| QryCmds.ProcessA | src/qry.c:45-101 | nothing happens unless three fields convert; new lines are appended after all figures, with consecutive ids from the counter, and only circles change |
| QryCmds.ConvertedCirclesSkipped | src/qry.c:89-132 | a circle changed by `a` is skipped by later commands |
| QryCmds.Apply | src/qry.c:141-143 | `d` and `p` keep the id and shape of a figure; `p` keeps its geometry too |
| QryCmds.SeesFrom | src/qry.c:128-134 | the test of the sweep is: not a skipped circle, and its centre visible from the command point |
| QryCmds.SeesAgreesNearby | src/qry.c:128-134 | for a figure whose centre is no farther than 100000.1 from the command point, the test with the corrected visibility equals the test with visIsVisible as written |
| QryCmds.SweepFrom | src/qry.c:124-145 | the sweep keeps the list's length and the figures before the start, and each figure is either kept or acted on |
| QryCmds.SweepDecides | src/qry.c:124-145 | each figure is acted on iff the test holds for it against the list as changed so far |
| QryCmds.PaintSeesSnapshot | src/qry.c:177-194 | since painting never changes shapes, `p` acts on a figure iff it is seen in the original list |
| QryCmds.TargetFor | src/qry.c:110-114 | suffix "-" means the main drawing; anything else a side file named by the suffix |
| QryCmds.ProcessD | src/qry.c:103-151 | nothing happens without three fields or when the side file cannot be created; otherwise the sweep destroys every figure seen |
| QryCmds.ProcessP | src/qry.c:153-200 | nothing happens without three fields; a missing suffix means the main drawing; otherwise the sweep paints every figure seen |
| QryCmds.Relabel | src/qry.c:247-248 | a relabelled figure has the new id and the same shape |
| QryCmds.CloneAsWritten | src/qry.c:239-264 | as written, a clone has the shape of its original |
| QryCmds.TextCloneIsBlank | src/qry.c:247-263 | as written, a text clone is a blank text with none of its original's fields |
| QryCmds.Clone | src/qry.c:239-264 | corrected: a clone has the new id and shape, and agrees with the code for every non-text shape |
| QryCmds.CloneIsMovedCopy | src/qry.c:242-263 | a clone is the original relabelled and moved by (dx, dy) |
| QryCmds.SeenMembers | src/qry.c:231-238 | a figure is cloned iff it is in the list and seen from the command point |
| QryCmds.ClonesOf | src/qry.c:231-271 | the j-th clone is the j-th seen figure cloned with id next+j |
| QryCmds.ProcessCln | src/qry.c:202-283 | nothing happens without four fields; the list only grows at the end, with clones of the seen figures numbered from the counter |
| QryCmds.AppendClones | src/qry.c:273-276 | clones are appended after the scan, so they are not themselves cloned |
| QryCmds.InitQryState | src/qry.c:54 | the counters start at 50000 for segments and 90000 for clones |
| QryCmds.ProcessQryLine | src/qry.c:285-302 | a line whose first word is not a, d, p or cln changes nothing |
| QryCmds.AKeepsPlaces | src/qry.c:45-101 | `a` keeps every figure's place and shape and never lowers the counter |
| QryCmds.SweepKeepsPlaces | src/qry.c:103-200 | `d` and `p` keep every figure's place, id and shape |
| QryCmds.DKeepsPlaces | src/qry.c:103-151 | `d` keeps every figure's place, id and shape |
| QryCmds.PKeepsPlaces | src/qry.c:153-200 | `p` keeps every figure's place, id and shape |
| QryCmds.ClnKeepsPlaces | src/qry.c:202-283 | `cln` keeps every figure's place and never lowers the counter |
| QryCmds.QryLineGrows | src/qry.c:285-302 | a command keeps the figures' places and never lowers a counter |
| QryCmds.ProcessQry | src/qry.c:317-321 | each line of the file yields one drawing target |
| QryCmds.QryGrows | src/qry.c:304-326 | a whole query file keeps the figures' places and never lowers a counter |

## Left out

- The polygon emission loop of `visDrawRegion` (src/vis.c:307-351) is not modelled. It is trigonometric hit-point arithmetic written straight to a file.
- The active-segment comparator `visTreeCompare` (src/vis.c:68-86) is not modelled. It depends on the mutable global sweep angle and breaks ties by pointer address. The AVL tree is proved against any fixed integer key instead.
- The sweep angle is carried in the context but read by no modelled member. `visDrawRegion` sets it to 0 (src/vis.c:276) and then to each event's angle in its drawing loop (src/vis.c:313), so the visibility tests that follow it see the last event's angle. `visIsVisible` (src/vis.c:247-273) never reads it; only `visTreeCompare` (src/vis.c:74-75) and the drawing loop do, and both are left out. `Vis.VisibleIgnoresAngle` and `Vis.AsWrittenIgnoresAngle` prove that the answer is the same for every angle, so the query commands pass 0.
- `qsort` (src/vis.c:305) is represented only by what it promises: a permutation with every two neighbours in comparator order. `Vis.SortEvents` uses the insertion sort as one such result. `EventSortProofs.QsortAgrees` shows that any such result equals the hybrid sort's result under exact angle comparison when no two events tie.
- The event sorts are proved with exact angle comparison. `Events.ToleranceNotTransitive` shows that the program's 1e-6 tolerance (VIS_TOLERANCE) is not a preorder, so "sorted" under it is ill-defined.
- `cos`, `sin`, `atan2` and `sqrt` are uninterpreted functions of a `MathLib` record, and floating-point rounding is not modelled: numbers are reals.
- `Vis.GetAngle`: the range [0, 2π) is stated only under the assumption that atan2 returns a value in (-π, π].
- src/svg.c (drawing) and the `.txt` report lines are not part of this model. The `d`, `p` and `cln` commands are modelled by what they do to the figure list and which drawing they pick.
- src/list.c is not part of this model. Lists are Dafny sequences.
- main.c (src/main.c:117) hands the figure `List` to `processGeoFile`, which enqueues into it as a `Queue`. The two headers differ: a list holds only a head node (src/list.c:12-14), a queue holds front, rear and size (src/queue.c:10-14). Memory layout is not modelled, so this mismatch is recorded here and not as a finding. The model reads the scene through one sequence.
- File I/O is not modelled: reading lines with `fgets` (including its 512-byte line splitting) and opening files. Line sequences are given. Whether a side file can be created is a parameter (`opens`).
- `malloc`/`free`, buffer sizes and `strcpy` overflows are not modelled.
- The number syntax of `%d`, `%lf` and `atoi` is abstract (`NumSyntax`, an `atoi` parameter). `%02x` is modelled as two hex digits.
- `figureInit` leaves fields uninitialised. The model sets them to zero and empty strings.
- `AvlTree.TreeInsert`, `AvlTree.TreeRemove`: their own contracts state only the NULL and empty cases. The full behaviour is in `AvlProofs.TreeInsertSpec` and `AvlProofs.TreeRemoveSpec`, which need a valid tree.
- `AvlTree.RightRotate`, `AvlTree.LeftRotate`: a rotation without the needed child would dereference NULL in C. The model leaves such a node unchanged, and rebalancing never asks for one.
- `GeoParse.ProcessGeoFile`: its contract says only that the queue stays valid. Its contents are stated by `GeoParse.GeoLines` and `GeoParse.ReadWrittenScene`. It reads lines with the corrected `ParseGeoLine`, so a `ts` line changes the style of later texts, which the program never does. `GeoParse.GeoLinesAgreeWithoutTs` shows that the program's loop (`GeoParse.GeoLinesAsWritten`) enqueues the same figures on every file without a `ts` line, written scenes included.
- `GeoParse.GeoLine`: parses with the corrected `ParseGeoLine`, for the same reason. On a line that is not a `ts` command both parsers agree (`GeoParse.ParsersAgreeOffTs`).
- `GeoParse.GeoLines`: folds the corrected parser, so texts after a `ts` line take its style, whereas the program keeps "Arial", "n", 12. `GeoParse.GeoLinesAgreeWithoutTs` is where the two agree.
- `Scanf.Scan`: a `%d` or `%lf` conversion reads a whole white-space-delimited word through the abstract number syntax. C stops at the first character that cannot continue the number and leaves the rest for the next conversion, so on a line such as "c 1 2 3 4red blue" the program builds a circle and the model does not. `Scanf.ScanRender` shows that values printed one blank apart scan back to themselves.
- `Figures.InvertColors`: a line's colour is complemented with the corrected `Figures.Complement`, not with `getComplementaryColor` as written. The two agree on every colour that starts with '#' (`Figures.AsWrittenAgreesAfterHash`), which includes every colour the complement itself produces.
- `QryCmds.SeesFrom`: tests with the corrected `Vis.Visible`, not `visIsVisible` as written (`Vis.VisIsVisible`). The two differ only for a figure whose centre is farther than 100000.1 from the command point (`QryCmds.SeesAgreesNearby`).
- `QryCmds.PaintSeesSnapshot`: stated for the corrected visibility test, so it differs from the program only as `QryCmds.SeesFrom` does.
- `QryCmds.ProcessD`: destroys what the corrected visibility test sees, so it differs from the program only as `QryCmds.SeesFrom` does.
- `QryCmds.ProcessP`: paints what the corrected visibility test sees, so it differs from the program only as `QryCmds.SeesFrom` does.
- `QryCmds.SeenMembers`: "seen" is the corrected visibility test, so it differs from the program only as `QryCmds.SeesFrom` does.
- `QryCmds.ClonesOf`: builds each clone with the corrected `QryCmds.Clone`. The program leaves a text's clone blank (`QryCmds.CloneAsWritten`). The two agree on every circle, rectangle and line (the contract of `QryCmds.Clone`).
- `QryCmds.ProcessCln`: its appended clones follow `QryCmds.ClonesOf` and the corrected visibility test. It differs from the program only on text clones and on figures farther than 100000.1 from the command point.
- `QryCmds.ProcessQry`: its contract counts the targets. The effect on figures is stated by `QryCmds.QryGrows`.
- `QryCmds.GetFigureCenter`: the rectangle centre is stated by `QryCmds.CenterOfExtent`.
- `Paths.OutputNames`: its contract says only which outputs exist. The names are stated by `Paths.QueryFiles` and `Paths.SceneStem`.

## Findings

| source | as written | input that shows it | evidently intended | confidence | as-written member | corrected member |
|---|---|---|---|---|---|---|
| src/vis.c:57-64 with src/geom.c:98 | a miss (100000) is taken as a real wall distance | a wall parallel to the ray and a target 200000 away: the target is reported hidden | a miss never blocks | high; not executed | Vis.RaySegDist | Vis.RaySegDistCorrected |
| src/figure.c:234-238 | the three hex pairs are always read from the second character, even without '#' | "ff0000" gives "#0fffff" | "#00ffff" | high; not executed | Figures.ComplementAsWritten | Figures.Complement |
| src/qry.c:246-264 | a text clone gets no setter call and is left blank | cloning any text figure | the clone copies the text, moved by (dx, dy) | high; not executed | QryCmds.CloneAsWritten | QryCmds.Clone |
| src/geo.c:106-107 | `processTs` is given the command word "ts", so its three-field scan always fails | the line "ts Verdana b 20" leaves the style unchanged | the style becomes Verdana, b, 20 | high; not executed | GeoParse.ParseGeoLineAsWritten | GeoParse.ParseGeoLine |

=== FILE: avl_proofs.dfy ===
/**
 * Correctness of the AVL operations of src/tree.c: insertion and removal
 * keep the tree ordered, balanced and with exact stored heights, and change
 * its contents by exactly the element concerned.
 */
module AvlProofs {
  import opened Common
  import opened AvlTree

  // ---------------------------------------------------------------------
  // Small structural facts
  // ---------------------------------------------------------------------

  lemma {:induction false} HeightNonNeg<T>(t: Tree<T>)
    requires HeightsOk(t)
    ensures Height(t) >= 0
    ensures t.Node? ==> Height(t) >= 1
  {
    if t.Node? {
      HeightNonNeg(t.left);
      HeightNonNeg(t.right);
    }
  }

  lemma {:induction false} KeysOfElems<T>(t: Tree<T>, key: T -> int, e: T)
    requires e in Elems(t)
    ensures key(e) in Keys(t, key)
  {
    if e != t.data {
      if e in Elems(t.left) {
        KeysOfElems(t.left, key, e);
      } else {
        KeysOfElems(t.right, key, e);
      }
    }
  }

  /** In an ordered tree no two stored elements compare equal. */
  lemma {:induction false} KeyUnique<T>(t: Tree<T>, key: T -> int, a: T, b: T)
    requires Ordered(t, key)
    requires a in Elems(t) && b in Elems(t) && key(a) == key(b)
    ensures a == b
  {
    if a in Elems(t.left) { KeysOfElems(t.left, key, a); }
    if a in Elems(t.right) { KeysOfElems(t.right, key, a); }
    if b in Elems(t.left) { KeysOfElems(t.left, key, b); }
    if b in Elems(t.right) { KeysOfElems(t.right, key, b); }
    if a in Elems(t.left) && b in Elems(t.left) {
      KeyUnique(t.left, key, a, b);
    } else if a in Elems(t.right) && b in Elems(t.right) {
      KeyUnique(t.right, key, a, b);
    }
  }

  /** Each child of a balanced node is one or two shorter than the node. */
  lemma ChildHeights<T>(t: Tree<T>)
    requires t.Node? && HeightsOk(t) && Balanced(t)
    ensures Height(t) - 2 <= Height(t.left) <= Height(t) - 1
    ensures Height(t) - 2 <= Height(t.right) <= Height(t) - 1
  {
  }

  /** Recomputing the height of a node with exact stored heights changes nothing. */
  lemma MkIdentity<T>(t: Tree<T>)
    requires t.Node? && HeightsOk(t)
    ensures Mk(t.left, t.data, t.right) == t
  {
  }

  // ---------------------------------------------------------------------
  // Rotations restore balance
  // ---------------------------------------------------------------------

  /** Preconditions shared by the rebalancing lemmas: two valid subtrees
      split by the root, whose heights differ by at most two. */
  ghost predicate Rebalanceable<T>(n: Tree<T>, key: T -> int)
  {
    && n.Node?
    && Valid(n.left, key) && Valid(n.right, key) && SplitsAt(n, key)
    && n.height == 1 + Max(Height(n.left), Height(n.right))
    && -2 <= Height(n.left) - Height(n.right) <= 2
  }

  /** A node built from two ordered subtrees split by its key is ordered. */
  lemma JoinOrdered<T>(l: Tree<T>, d: T, r: Tree<T>, key: T -> int)
    requires Ordered(l, key) && Ordered(r, key)
    requires Below(Keys(l, key), key(d)) && Above(Keys(r, key), key(d))
    ensures Ordered(Mk(l, d, r), key)
    ensures Keys(Mk(l, d, r), key) == Keys(l, key) + {key(d)} + Keys(r, key)
  {
  }

  /** A node built from two valid subtrees of nearly equal height, split by its key, is valid. */
  lemma JoinValid<T>(l: Tree<T>, d: T, r: Tree<T>, key: T -> int)
    requires Valid(l, key) && Valid(r, key)
    requires Below(Keys(l, key), key(d)) && Above(Keys(r, key), key(d))
    requires -1 <= Height(l) - Height(r) <= 1
    ensures Valid(Mk(l, d, r), key)
    ensures Keys(Mk(l, d, r), key) == Keys(l, key) + {key(d)} + Keys(r, key)
    ensures Height(Mk(l, d, r)) == 1 + Max(Height(l), Height(r))
  {
    JoinOrdered(l, d, r, key);
  }

  /** Left-left case: one right rotation. */
  lemma RotateRightOk<T>(n: Tree<T>, key: T -> int)
    requires Rebalanceable(n, key) && n.left.Node?
    requires Height(n.left) == Height(n.right) + 2 && Balance(n.left) >= 0
    ensures Valid(RightRotate(n), key)
    ensures Keys(RightRotate(n), key) == Keys(n, key)
    ensures Height(RightRotate(n)) == Height(n.left) + 1 - Balance(n.left)
  {
    var l := n.left;
    HeightNonNeg(l.left); HeightNonNeg(l.right); HeightNonNeg(n.right);
    var d := key(n.data);
    assert Keys(l, key) == Keys(l.left, key) + {key(l.data)} + Keys(l.right, key);
    assert key(l.data) < d;
    JoinOrdered(l.right, n.data, n.right, key);
    var y := Mk(l.right, n.data, n.right);
    assert Above(Keys(y, key), key(l.data));
    JoinOrdered(l.left, l.data, y, key);
  }

  /** Right-right case: one left rotation. */
  lemma RotateLeftOk<T>(n: Tree<T>, key: T -> int)
    requires Rebalanceable(n, key) && n.right.Node?
    requires Height(n.right) == Height(n.left) + 2 && Balance(n.right) <= 0
    ensures Valid(LeftRotate(n), key)
    ensures Keys(LeftRotate(n), key) == Keys(n, key)
    ensures Height(LeftRotate(n)) == Height(n.right) + 1 + Balance(n.right)
  {
    var r := n.right;
    HeightNonNeg(r.left); HeightNonNeg(r.right); HeightNonNeg(n.left);
    var d := key(n.data);
    assert Keys(r, key) == Keys(r.left, key) + {key(r.data)} + Keys(r.right, key);
    assert d < key(r.data);
    JoinOrdered(n.left, n.data, r.left, key);
    var x := Mk(n.left, n.data, r.left);
    assert Below(Keys(x, key), key(r.data));
    JoinOrdered(x, r.data, r.right, key);
  }

  /** The common result shape of both double rotations. */
  lemma JoinTwoLevels<T>(a: Tree<T>, x: T, b: Tree<T>, m: T, c: Tree<T>, y: T, d: Tree<T>, key: T -> int)
    requires Valid(a, key) && Valid(b, key) && Valid(c, key) && Valid(d, key)
    requires Below(Keys(a, key), key(x)) && Above(Keys(b, key), key(x)) && Below(Keys(b, key), key(m))
    requires Above(Keys(c, key), key(m)) && Below(Keys(c, key), key(y)) && Above(Keys(d, key), key(y))
    requires key(x) < key(m) < key(y)
    requires -1 <= Height(a) - Height(b) <= 1 && -1 <= Height(c) - Height(d) <= 1
    requires -1 <= Max(Height(a), Height(b)) - Max(Height(c), Height(d)) <= 1
    ensures Valid(Mk(Mk(a, x, b), m, Mk(c, y, d)), key)
    ensures Keys(Mk(Mk(a, x, b), m, Mk(c, y, d)), key) == Keys(a, key) + {key(x)} + (Keys(b, key) + {key(m)} + Keys(c, key) + {key(y)} + Keys(d, key))
    ensures Keys(Mk(Mk(a, x, b), m, Mk(c, y, d)), key) == (Keys(a, key) + {key(x)} + Keys(b, key) + {key(m)} + Keys(c, key)) + {key(y)} + Keys(d, key)
    ensures Height(Mk(Mk(a, x, b), m, Mk(c, y, d))) == 2 + Max(Max(Height(a), Height(b)), Max(Height(c), Height(d)))
  {
    JoinValid(a, x, b, key);
    JoinValid(c, y, d, key);
    var l, r := Mk(a, x, b), Mk(c, y, d);
    assert Below(Keys(l, key), key(m));
    assert Above(Keys(r, key), key(m));
    JoinValid(l, m, r, key);
    Regroup(Keys(a, key), key(x), Keys(b, key), key(m), Keys(c, key), key(y), Keys(d, key));
  }

  /** The two ways the double rotations group the keys of four subtrees and three roots. */
  lemma Regroup(a: set<int>, x: int, b: set<int>, m: int, c: set<int>, y: int, d: set<int>)
    ensures (a + {x} + b) + {m} + (c + {y} + d) == a + {x} + (b + {m} + c + {y} + d)
    ensures (a + {x} + b) + {m} + (c + {y} + d) == (a + {x} + b + {m} + c) + {y} + d
  {
  }

  /** Where the keys of the inner grandchild `n.left.right` lie. */
  lemma LeftRightOrder<T>(n: Tree<T>, key: T -> int)
    requires n.Node? && SplitsAt(n, key) && n.left.Node? && Ordered(n.left, key) && n.left.right.Node?
    ensures var l, m := n.left, n.left.right;
            && Above(Keys(m.left, key), key(l.data)) && Below(Keys(m.right, key), key(n.data))
            && key(l.data) < key(m.data) < key(n.data)
            && Keys(l, key) == Keys(l.left, key) + {key(l.data)} + Keys(m.left, key) + {key(m.data)} + Keys(m.right, key)
  {
    var l, m := n.left, n.left.right;
    assert Keys(l, key) == Keys(l.left, key) + {key(l.data)} + Keys(m, key);
    assert Keys(m, key) == Keys(m.left, key) + {key(m.data)} + Keys(m.right, key);
  }

  /** Where the keys of the inner grandchild `n.right.left` lie. */
  lemma RightLeftOrder<T>(n: Tree<T>, key: T -> int)
    requires n.Node? && SplitsAt(n, key) && n.right.Node? && Ordered(n.right, key) && n.right.left.Node?
    ensures var r, m := n.right, n.right.left;
            && Above(Keys(m.left, key), key(n.data)) && Below(Keys(m.right, key), key(r.data))
            && key(n.data) < key(m.data) < key(r.data)
            && Keys(r, key) == Keys(m.left, key) + {key(m.data)} + Keys(m.right, key) + {key(r.data)} + Keys(r.right, key)
  {
    var r, m := n.right, n.right.left;
    assert Keys(r, key) == Keys(m, key) + {key(r.data)} + Keys(r.right, key);
    assert Keys(m, key) == Keys(m.left, key) + {key(m.data)} + Keys(m.right, key);
  }

  /** Left-right case: rotate the left child left, then the node right. */
  lemma RotateLeftRightOk<T>(n: Tree<T>, key: T -> int)
    requires Rebalanceable(n, key) && n.left.Node?
    requires Height(n.left) == Height(n.right) + 2 && Balance(n.left) < 0
    ensures Valid(RightRotate(n.(left := LeftRotate(n.left))), key)
    ensures Keys(RightRotate(n.(left := LeftRotate(n.left))), key) == Keys(n, key)
    ensures Height(RightRotate(n.(left := LeftRotate(n.left)))) == Height(n.left)
  {
    var l := n.left;
    var m := l.right;
    assert m.Node? && Valid(m, key) by {
      HeightNonNeg(l.left);
    }
    assert LeftRotate(l) == Mk(Mk(l.left, l.data, m.left), m.data, m.right);
    assert RightRotate(n.(left := LeftRotate(l))) == Mk(Mk(l.left, l.data, m.left), m.data, Mk(m.right, n.data, n.right));
    LeftRightOrder(n, key);
    assert Height(m) == Height(l.left) + 1 == Height(n.right) + 1;
    ChildHeights(m);
    assert Max(Height(m.left), Height(m.right)) == Height(m) - 1;
    assert Keys(n, key) == Keys(l, key) + {key(n.data)} + Keys(n.right, key);
    JoinTwoLevels(l.left, l.data, m.left, m.data, m.right, n.data, n.right, key);
  }

  /** Right-left case: rotate the right child right, then the node left. */
  lemma RotateRightLeftOk<T>(n: Tree<T>, key: T -> int)
    requires Rebalanceable(n, key) && n.right.Node?
    requires Height(n.right) == Height(n.left) + 2 && Balance(n.right) > 0
    ensures Valid(LeftRotate(n.(right := RightRotate(n.right))), key)
    ensures Keys(LeftRotate(n.(right := RightRotate(n.right))), key) == Keys(n, key)
    ensures Height(LeftRotate(n.(right := RightRotate(n.right)))) == Height(n.right)
  {
    var r := n.right;
    var m := r.left;
    assert m.Node? && Valid(m, key) by {
      HeightNonNeg(r.right);
    }
    assert RightRotate(r) == Mk(m.left, m.data, Mk(m.right, r.data, r.right));
    assert LeftRotate(n.(right := RightRotate(r))) == Mk(Mk(n.left, n.data, m.left), m.data, Mk(m.right, r.data, r.right));
    RightLeftOrder(n, key);
    assert Height(m) == Height(r.right) + 1 == Height(n.left) + 1;
    ChildHeights(m);
    assert Max(Height(m.left), Height(m.right)) == Height(m) - 1;
    assert Keys(n, key) == Keys(n.left, key) + {key(n.data)} + Keys(r, key);
    JoinTwoLevels(n.left, n.data, m.left, m.data, m.right, r.data, r.right, key);
  }

  /**
   * The rebalancing step of `removeRecursive` (src/tree.c:181-200): on a
   * node whose subtrees are valid and differ in height by at most two, it
   * yields a valid tree with the same keys, leaves an already balanced
   * node alone, and lowers the height by at most one.
   */
  lemma RebalanceRemoveOk<T>(n: Tree<T>, key: T -> int)
    requires Rebalanceable(n, key)
    ensures Valid(RebalanceRemove(n), key)
    ensures Keys(RebalanceRemove(n), key) == Keys(n, key)
    ensures -1 <= Balance(n) <= 1 ==> RebalanceRemove(n) == n
    ensures Height(n) - 1 <= Height(RebalanceRemove(n)) <= Height(n)
    ensures Balance(n) == 2 && Balance(n.left) != 0 ==> Height(RebalanceRemove(n)) == Height(n) - 1
    ensures Balance(n) == -2 && Balance(n.right) != 0 ==> Height(RebalanceRemove(n)) == Height(n) - 1
  {
    HeightNonNeg(n.left); HeightNonNeg(n.right);
    var b := Balance(n);
    if b > 1 {
      assert n.left.Node?;
      HeightNonNeg(n.left.left); HeightNonNeg(n.left.right);
      if Balance(n.left) >= 0 { RotateRightOk(n, key); } else { RotateLeftRightOk(n, key); }
    } else if b < -1 {
      assert n.right.Node?;
      HeightNonNeg(n.right.left); HeightNonNeg(n.right.right);
      if Balance(n.right) <= 0 { RotateLeftOk(n, key); } else { RotateRightLeftOk(n, key); }
    }
  }

  /** When the inserted element lies on the heavy grandchild side, the
      comparison-driven cases of `insertRecursive` pick the same rotation
      as the balance-driven cases of `removeRecursive`. */
  lemma InsertRebalanceAgrees<T>(n: Tree<T>, x: T, key: T -> int)
    requires n.Node?
    requires Balance(n) == 2 ==>
      n.left.Node? &&
      ((key(x) < key(n.left.data) && Balance(n.left) == 1) || (key(x) > key(n.left.data) && Balance(n.left) == -1))
    requires Balance(n) == -2 ==>
      n.right.Node? &&
      ((key(x) > key(n.right.data) && Balance(n.right) == -1) || (key(x) < key(n.right.data) && Balance(n.right) == 1))
    requires -2 <= Balance(n) <= 2
    ensures RebalanceInsert(n, x, key) == RebalanceRemove(n)
  {
  }

  // ---------------------------------------------------------------------
  // Insertion
  // ---------------------------------------------------------------------

  /** What `insertRecursive` promises, including the facts its callers need
      to choose a rotation: when the subtree grew, its root is unchanged (or
      is the new leaf) and it leans towards the side the element went to. */
  ghost predicate InsertPost<T>(t: Tree<T>, x: T, key: T -> int, t': Tree<T>, ok: bool)
  {
    && Valid(t', key)
    && (ok <==> key(x) !in Keys(t, key))
    && Keys(t', key) == Keys(t, key) + {key(x)}
    && Elems(t') == (if ok then Elems(t) + {x} else Elems(t))
    && (!ok ==> t' == t)
    && Height(t) <= Height(t') <= Height(t) + 1
    && (Height(t') == Height(t) + 1 ==>
          && ok && t'.Node?
          && (t.Nil? ==> t' == NewNode(x))
          && (t.Node? ==> t'.data == t.data
                          && (key(x) < key(t.data) ==> Balance(t') == 1)
                          && (key(x) > key(t.data) ==> Balance(t') == -1)))
  }

  /**
   * Insertion into a valid tree (src/tree.c:94-133): the result is ordered,
   * balanced, with exact heights; the flag is true exactly when no stored
   * element compares equal to `x`; then `x` is added and nothing else,
   * otherwise the tree is returned unchanged.
   */
  lemma {:induction false} InsertCorrect<T>(t: Tree<T>, x: T, key: T -> int)
    requires Valid(t, key)
    ensures InsertPost(t, x, key, InsertRec(t, x, key).0, InsertRec(t, x, key).1)
    decreases t, 1
  {
    if t.Node? {
      HeightNonNeg(t.left); HeightNonNeg(t.right);
      var c := Cmp(key, x, t.data);
      if c < 0 {
        InsertLeft(t, x, key);
      } else if c > 0 {
        InsertRight(t, x, key);
      }
    }
  }

  lemma {:induction false} InsertLeft<T>(t: Tree<T>, x: T, key: T -> int)
    requires Valid(t, key) && t.Node? && key(x) < key(t.data)
    ensures InsertPost(t, x, key, InsertRec(t, x, key).0, InsertRec(t, x, key).1)
    decreases t, 0
  {
    var (l, ok) := InsertRec(t.left, x, key);
    InsertCorrect(t.left, x, key);
    InsertJoinLeft(t, x, key, l, ok);
    assert InsertRec(t, x, key) == (RebalanceRemove(Mk(l, t.data, t.right)), ok);
  }

  /** The left-descent step of insertion, with the recursive result abstracted. */
  lemma InsertJoinLeft<T>(t: Tree<T>, x: T, key: T -> int, l: Tree<T>, ok: bool)
    requires Valid(t, key) && t.Node? && key(x) < key(t.data)
    requires InsertPost(t.left, x, key, l, ok)
    ensures InsertPost(t, x, key, RebalanceRemove(Mk(l, t.data, t.right)), ok)
  {
    HeightNonNeg(t.left); HeightNonNeg(t.right); HeightNonNeg(l);
    var n := Mk(l, t.data, t.right);
    assert SplitsAt(n, key);
    assert Rebalanceable(n, key);
    if Balance(n) == 2 {
      assert l.Node? && t.left.Node? && l.data == t.left.data;
      assert key(t.left.data) in Keys(t.left, key);
    }
    InsertRebalanceAgrees(n, x, key);
    RebalanceRemoveOk(n, key);
    if !ok {
      MkIdentity(t);
    }
    assert key(t.data) !in Keys(t.left, key);
  }

  lemma {:induction false} InsertRight<T>(t: Tree<T>, x: T, key: T -> int)
    requires Valid(t, key) && t.Node? && key(x) > key(t.data)
    ensures InsertPost(t, x, key, InsertRec(t, x, key).0, InsertRec(t, x, key).1)
    decreases t, 0
  {
    var (r, ok) := InsertRec(t.right, x, key);
    InsertCorrect(t.right, x, key);
    InsertJoinRight(t, x, key, r, ok);
    assert InsertRec(t, x, key) == (RebalanceRemove(Mk(t.left, t.data, r)), ok);
  }

  /** The right-descent step of insertion, with the recursive result abstracted. */
  lemma InsertJoinRight<T>(t: Tree<T>, x: T, key: T -> int, r: Tree<T>, ok: bool)
    requires Valid(t, key) && t.Node? && key(x) > key(t.data)
    requires InsertPost(t.right, x, key, r, ok)
    ensures InsertPost(t, x, key, RebalanceRemove(Mk(t.left, t.data, r)), ok)
  {
    HeightNonNeg(t.left); HeightNonNeg(t.right); HeightNonNeg(r);
    var n := Mk(t.left, t.data, r);
    assert SplitsAt(n, key);
    assert Rebalanceable(n, key);
    if Balance(n) == -2 {
      assert r.Node? && t.right.Node? && r.data == t.right.data;
      assert key(t.right.data) in Keys(t.right, key);
    }
    InsertRebalanceAgrees(n, x, key);
    RebalanceRemoveOk(n, key);
    if !ok {
      MkIdentity(t);
    }
    assert key(t.data) !in Keys(t.right, key);
  }

  // ---------------------------------------------------------------------
  // Removal
  // ---------------------------------------------------------------------

  ghost predicate RemovePost<T>(t: Tree<T>, x: T, key: T -> int, t': Tree<T>, removed: Option<T>)
  {
    && Valid(t', key)
    && (removed.Some? <==> key(x) in Keys(t, key))
    && (removed.Some? ==> removed.value in Elems(t) && key(removed.value) == key(x))
    && Keys(t', key) == Keys(t, key) - {key(x)}
    && Elems(t') == (if removed.Some? then Elems(t) - {removed.value} else Elems(t))
    && Height(t) - 1 <= Height(t') <= Height(t)
  }

  /**
   * Removal from a valid tree (src/tree.c:151-201): it returns the stored
   * element comparing equal to `x` when there is one, and the remaining
   * tree holds exactly the other elements, still ordered and balanced.
   */
  lemma {:induction false} RemoveCorrect<T>(t: Tree<T>, x: T, key: T -> int)
    requires Valid(t, key)
    ensures RemovePost(t, x, key, RemoveRec(t, x, key).0, RemoveRec(t, x, key).1)
    decreases t, 1
  {
    if t.Node? {
      var c := Cmp(key, x, t.data);
      if c < 0 {
        RemoveLeft(t, x, key);
      } else if c > 0 {
        RemoveRight(t, x, key);
      } else if t.left.Nil? || t.right.Nil? {
        RemoveRootOneChild(t, x, key);
      } else {
        RemoveRootTwoChildren(t, x, key);
      }
    }
  }

  lemma {:induction false} RemoveLeft<T>(t: Tree<T>, x: T, key: T -> int)
    requires Valid(t, key) && t.Node? && key(x) < key(t.data)
    ensures RemovePost(t, x, key, RemoveRec(t, x, key).0, RemoveRec(t, x, key).1)
    decreases t, 0
  {
    var (l, removed) := RemoveRec(t.left, x, key);
    RemoveCorrect(t.left, x, key);
    RemoveJoinLeft(t, x, key, l, removed);
    assert RemoveRec(t, x, key) == (RebalanceRemove(Mk(l, t.data, t.right)), removed);
  }

  /** The left-descent step of removal, with the recursive result abstracted. */
  lemma RemoveJoinLeft<T>(t: Tree<T>, x: T, key: T -> int, l: Tree<T>, removed: Option<T>)
    requires Valid(t, key) && t.Node? && key(x) < key(t.data)
    requires RemovePost(t.left, x, key, l, removed)
    ensures RemovePost(t, x, key, RebalanceRemove(Mk(l, t.data, t.right)), removed)
  {
    HeightNonNeg(t.left); HeightNonNeg(t.right); HeightNonNeg(l);
    var n := Mk(l, t.data, t.right);
    assert Rebalanceable(n, key);
    RebalanceRemoveOk(n, key);
    RemoveJoinLeftPost(t, x, key, l, removed, n, RebalanceRemove(n));
  }

  /** The keys of a node: its own and its subtrees'. */
  lemma NodeKeys<T>(n: Tree<T>, key: T -> int)
    requires n.Node?
    ensures Keys(n, key) == Keys(n.left, key) + {key(n.data)} + Keys(n.right, key)
  {
  }

  /** Taking a key out of one side of a union it is not elsewhere in. */
  lemma JoinMinus(a: set<int>, d: int, b: set<int>, b': set<int>, k: int)
    requires k !in a && k != d && b' == b - {k}
    ensures a + {d} + b' == (a + {d} + b) - {k}
    ensures b' + {d} + a == (b + {d} + a) - {k}
  {
  }

  /** The same step with the rebalanced node abstracted to what `RebalanceRemoveOk` says of it. */
  lemma RemoveJoinLeftPost<T>(t: Tree<T>, x: T, key: T -> int, l: Tree<T>, removed: Option<T>, n: Tree<T>, n': Tree<T>)
    requires Valid(t, key) && t.Node? && key(x) < key(t.data)
    requires RemovePost(t.left, x, key, l, removed)
    requires n == Mk(l, t.data, t.right)
    requires Valid(n', key) && Keys(n', key) == Keys(n, key) && Elems(n') == Elems(n)
    requires -1 <= Balance(n) <= 1 ==> n' == n
    requires Height(n) - 1 <= Height(n') <= Height(n)
    requires Balance(n) == 2 && Balance(n.left) != 0 ==> Height(n') == Height(n) - 1
    requires Balance(n) == -2 && Balance(n.right) != 0 ==> Height(n') == Height(n) - 1
    ensures RemovePost(t, x, key, n', removed)
  {
    RemoveJoinLeftFound(t, x, key, l, removed, n, n');
    assert key(x) !in Keys(t.right, key);
    RemoveJoinLeftKeys(t, x, key, l, removed, n, n');
    RemoveJoinLeftElems(t, x, key, l, removed, n, n');
    RemoveJoinLeftHeight(t, x, key, l, removed, n, n');
  }

  lemma RemoveJoinLeftKeys<T>(t: Tree<T>, x: T, key: T -> int, l: Tree<T>, removed: Option<T>, n: Tree<T>, n': Tree<T>)
    requires t.Node? && key(x) != key(t.data) && key(x) !in Keys(t.right, key)
    requires Keys(l, key) == Keys(t.left, key) - {key(x)}
    requires n.Node? && n.left == l && n.data == t.data && n.right == t.right && Keys(n', key) == Keys(n, key)
    ensures Keys(n', key) == Keys(t, key) - {key(x)}
  {
    NodeKeys(n, key);
    NodeKeys(t, key);
    JoinMinus(Keys(t.right, key), key(t.data), Keys(t.left, key), Keys(l, key), key(x));
  }

  lemma RemoveJoinLeftFound<T>(t: Tree<T>, x: T, key: T -> int, l: Tree<T>, removed: Option<T>, n: Tree<T>, n': Tree<T>)
    requires Valid(t, key) && t.Node? && key(x) < key(t.data)
    requires RemovePost(t.left, x, key, l, removed)
    requires n == Mk(l, t.data, t.right) && Keys(n', key) == Keys(n, key)
    ensures removed.Some? <==> key(x) in Keys(t, key)
    ensures removed.Some? ==> removed.value in Elems(t) && key(removed.value) == key(x)
  {
    assert Keys(t, key) == Keys(t.left, key) + {key(t.data)} + Keys(t.right, key);
    assert key(x) != key(t.data) && key(x) !in Keys(t.right, key);
  }

  lemma RemoveJoinLeftElems<T>(t: Tree<T>, x: T, key: T -> int, l: Tree<T>, removed: Option<T>, n: Tree<T>, n': Tree<T>)
    requires Valid(t, key) && t.Node? && key(x) < key(t.data)
    requires RemovePost(t.left, x, key, l, removed)
    requires n == Mk(l, t.data, t.right) && Elems(n') == Elems(n)
    ensures Elems(n') == (if removed.Some? then Elems(t) - {removed.value} else Elems(t))
  {
    if removed.Some? {
      var e := removed.value;
      if e in Elems(t.right) { KeysOfElems(t.right, key, e); }
      assert e != t.data && e !in Elems(t.right);
    }
  }

  lemma RemoveJoinLeftHeight<T>(t: Tree<T>, x: T, key: T -> int, l: Tree<T>, removed: Option<T>, n: Tree<T>, n': Tree<T>)
    requires Valid(t, key) && t.Node? && key(x) < key(t.data)
    requires RemovePost(t.left, x, key, l, removed)
    requires n == Mk(l, t.data, t.right)
    requires -1 <= Balance(n) <= 1 ==> n' == n
    requires Height(n) - 1 <= Height(n') <= Height(n)
    requires Balance(n) == 2 && Balance(n.left) != 0 ==> Height(n') == Height(n) - 1
    requires Balance(n) == -2 && Balance(n.right) != 0 ==> Height(n') == Height(n) - 1
    ensures Height(t) - 1 <= Height(n') <= Height(t)
  {
    HeightNonNeg(t.left); HeightNonNeg(t.right); HeightNonNeg(l);
  }

  lemma {:induction false} RemoveRight<T>(t: Tree<T>, x: T, key: T -> int)
    requires Valid(t, key) && t.Node? && key(x) > key(t.data)
    ensures RemovePost(t, x, key, RemoveRec(t, x, key).0, RemoveRec(t, x, key).1)
    decreases t, 0
  {
    var (r, removed) := RemoveRec(t.right, x, key);
    RemoveCorrect(t.right, x, key);
    RemoveJoinRight(t, x, key, r, removed);
    assert RemoveRec(t, x, key) == (RebalanceRemove(Mk(t.left, t.data, r)), removed);
  }

  /** The right-descent step of removal, with the recursive result abstracted. */
  lemma RemoveJoinRight<T>(t: Tree<T>, x: T, key: T -> int, r: Tree<T>, removed: Option<T>)
    requires Valid(t, key) && t.Node? && key(x) > key(t.data)
    requires RemovePost(t.right, x, key, r, removed)
    ensures RemovePost(t, x, key, RebalanceRemove(Mk(t.left, t.data, r)), removed)
  {
    HeightNonNeg(t.left); HeightNonNeg(t.right); HeightNonNeg(r);
    var n := Mk(t.left, t.data, r);
    assert Rebalanceable(n, key);
    RebalanceRemoveOk(n, key);
    RemoveJoinRightPost(t, x, key, r, removed, n, RebalanceRemove(n));
  }

  /** The same step with the rebalanced node abstracted to what `RebalanceRemoveOk` says of it. */
  lemma RemoveJoinRightPost<T>(t: Tree<T>, x: T, key: T -> int, r: Tree<T>, removed: Option<T>, n: Tree<T>, n': Tree<T>)
    requires Valid(t, key) && t.Node? && key(x) > key(t.data)
    requires RemovePost(t.right, x, key, r, removed)
    requires n == Mk(t.left, t.data, r)
    requires Valid(n', key) && Keys(n', key) == Keys(n, key) && Elems(n') == Elems(n)
    requires -1 <= Balance(n) <= 1 ==> n' == n
    requires Height(n) - 1 <= Height(n') <= Height(n)
    requires Balance(n) == 2 && Balance(n.left) != 0 ==> Height(n') == Height(n) - 1
    requires Balance(n) == -2 && Balance(n.right) != 0 ==> Height(n') == Height(n) - 1
    ensures RemovePost(t, x, key, n', removed)
  {
    RemoveJoinRightFound(t, x, key, r, removed, n, n');
    assert key(x) !in Keys(t.left, key);
    RemoveJoinRightKeys(t, x, key, r, removed, n, n');
    RemoveJoinRightElems(t, x, key, r, removed, n, n');
    RemoveJoinRightHeight(t, x, key, r, removed, n, n');
  }

  lemma RemoveJoinRightKeys<T>(t: Tree<T>, x: T, key: T -> int, r: Tree<T>, removed: Option<T>, n: Tree<T>, n': Tree<T>)
    requires t.Node? && key(x) != key(t.data) && key(x) !in Keys(t.left, key)
    requires Keys(r, key) == Keys(t.right, key) - {key(x)}
    requires n.Node? && n.left == t.left && n.data == t.data && n.right == r && Keys(n', key) == Keys(n, key)
    ensures Keys(n', key) == Keys(t, key) - {key(x)}
  {
    NodeKeys(n, key);
    NodeKeys(t, key);
    JoinMinus(Keys(t.left, key), key(t.data), Keys(t.right, key), Keys(r, key), key(x));
  }

  lemma RemoveJoinRightFound<T>(t: Tree<T>, x: T, key: T -> int, r: Tree<T>, removed: Option<T>, n: Tree<T>, n': Tree<T>)
    requires Valid(t, key) && t.Node? && key(x) > key(t.data)
    requires RemovePost(t.right, x, key, r, removed)
    requires n == Mk(t.left, t.data, r) && Keys(n', key) == Keys(n, key)
    ensures removed.Some? <==> key(x) in Keys(t, key)
    ensures removed.Some? ==> removed.value in Elems(t) && key(removed.value) == key(x)
  {
    assert Keys(t, key) == Keys(t.left, key) + {key(t.data)} + Keys(t.right, key);
    assert key(x) != key(t.data) && key(x) !in Keys(t.left, key);
  }

  lemma RemoveJoinRightElems<T>(t: Tree<T>, x: T, key: T -> int, r: Tree<T>, removed: Option<T>, n: Tree<T>, n': Tree<T>)
    requires Valid(t, key) && t.Node? && key(x) > key(t.data)
    requires RemovePost(t.right, x, key, r, removed)
    requires n == Mk(t.left, t.data, r) && Elems(n') == Elems(n)
    ensures Elems(n') == (if removed.Some? then Elems(t) - {removed.value} else Elems(t))
  {
    if removed.Some? {
      var e := removed.value;
      if e in Elems(t.left) { KeysOfElems(t.left, key, e); }
      assert e != t.data && e !in Elems(t.left);
    }
  }

  lemma RemoveJoinRightHeight<T>(t: Tree<T>, x: T, key: T -> int, r: Tree<T>, removed: Option<T>, n: Tree<T>, n': Tree<T>)
    requires Valid(t, key) && t.Node? && key(x) > key(t.data)
    requires RemovePost(t.right, x, key, r, removed)
    requires n == Mk(t.left, t.data, r)
    requires -1 <= Balance(n) <= 1 ==> n' == n
    requires Height(n) - 1 <= Height(n') <= Height(n)
    requires Balance(n) == 2 && Balance(n.left) != 0 ==> Height(n') == Height(n) - 1
    requires Balance(n) == -2 && Balance(n.right) != 0 ==> Height(n') == Height(n) - 1
    ensures Height(t) - 1 <= Height(n') <= Height(t)
  {
    HeightNonNeg(t.left); HeightNonNeg(t.right); HeightNonNeg(r);
  }

  lemma RemoveRootOneChild<T>(t: Tree<T>, x: T, key: T -> int)
    requires Valid(t, key) && t.Node? && key(x) == key(t.data)
    requires t.left.Nil? || t.right.Nil?
    ensures RemovePost(t, x, key, RemoveRec(t, x, key).0, RemoveRec(t, x, key).1)
  {
    var child := if t.left.Node? then t.left else t.right;
    HeightNonNeg(child);
    if t.data in Elems(child) {
      KeysOfElems(child, key, t.data);
    }
    if child.Node? {
      MkIdentity(child);
      assert RemoveRec(t, x, key) == (child, Some(t.data));
    }
  }

  /** Removing the leftmost element of a valid tree (the successor step of
      `removeRecursive`) leaves the keys above it. */
  lemma {:induction false} RemoveLeftmostOk<T>(r: Tree<T>, key: T -> int)
    requires Valid(r, key) && r.Node?
    ensures var (r', _) := RemoveRec(r, Leftmost(r), key);
      && Valid(r', key)
      && Keys(r', key) == Keys(r, key) - {key(Leftmost(r))}
      && Elems(r') == Elems(r) - {Leftmost(r)}
      && Height(r) - 1 <= Height(r') <= Height(r)
      && Above(Keys(r', key), key(Leftmost(r)))
    decreases r, 2
  {
    var succ := Leftmost(r);
    LeftmostIsLeast(r, key);
    var (r', removed) := RemoveRec(r, succ, key);
    RemoveCorrect(r, succ, key);
    KeyUnique(r, key, removed.value, succ);
  }

  lemma RemoveRootTwoChildren<T>(t: Tree<T>, x: T, key: T -> int)
    requires Valid(t, key) && t.Node? && key(x) == key(t.data)
    requires t.left.Node? && t.right.Node?
    ensures RemovePost(t, x, key, RemoveRec(t, x, key).0, RemoveRec(t, x, key).1)
    decreases t, 0
  {
    var succ := Leftmost(t.right);
    var (r, removed) := RemoveRec(t.right, succ, key);
    RemoveLeftmostOk(t.right, key);
    LeftmostIsLeast(t.right, key);
    RemoveJoinSuccessor(t, x, key, succ, r);
    assert RemoveRec(t, x, key) == (RebalanceRemove(Mk(t.left, succ, r)), Some(t.data));
  }

  /** The two-children case of removal: the successor `succ` replaces the
      root and `r` is the right subtree without it. */
  lemma RemoveJoinSuccessor<T>(t: Tree<T>, x: T, key: T -> int, succ: T, r: Tree<T>)
    requires Valid(t, key) && t.Node? && key(x) == key(t.data)
    requires t.left.Node? && t.right.Node?
    requires succ in Elems(t.right) && Valid(r, key)
    requires Keys(r, key) == Keys(t.right, key) - {key(succ)}
    requires Elems(r) == Elems(t.right) - {succ}
    requires Height(t.right) - 1 <= Height(r) <= Height(t.right)
    requires Above(Keys(r, key), key(succ))
    ensures RemovePost(t, x, key, RebalanceRemove(Mk(t.left, succ, r)), Some(t.data))
  {
    var n := Mk(t.left, succ, r);
    SuccessorNode(t, key, succ, r);
    RebalanceRemoveOk(n, key);
  }

  /** The node rebuilt around the successor can be rebalanced and holds the
      old tree's keys and elements minus the root's. */
  lemma SuccessorNode<T>(t: Tree<T>, key: T -> int, succ: T, r: Tree<T>)
    requires Valid(t, key) && t.Node?
    requires t.left.Node? && t.right.Node?
    requires succ in Elems(t.right) && Valid(r, key)
    requires Keys(r, key) == Keys(t.right, key) - {key(succ)}
    requires Elems(r) == Elems(t.right) - {succ}
    requires Height(t.right) - 1 <= Height(r) <= Height(t.right)
    requires Above(Keys(r, key), key(succ))
    ensures Rebalanceable(Mk(t.left, succ, r), key)
    ensures Keys(Mk(t.left, succ, r), key) == Keys(t, key) - {key(t.data)}
    ensures Elems(Mk(t.left, succ, r)) == Elems(t) - {t.data}
    ensures Height(t) - 1 <= Height(Mk(t.left, succ, r)) <= Height(t)
  {
    var n := Mk(t.left, succ, r);
    KeysOfElems(t.right, key, succ);
    assert Rebalanceable(n, key) by {
      HeightNonNeg(t.left); HeightNonNeg(t.right); HeightNonNeg(r);
      assert Below(Keys(t.left, key), key(succ));
    }
    assert t.data !in Elems(t.left) && t.data !in Elems(t.right) by {
      if t.data in Elems(t.left) { KeysOfElems(t.left, key, t.data); }
      if t.data in Elems(t.right) { KeysOfElems(t.right, key, t.data); }
    }
  }

  // ---------------------------------------------------------------------
  // The handle-level operations
  // ---------------------------------------------------------------------

  /** `treeInsert` (src/tree.c:135-142): false on a NULL handle; otherwise the
      result of `insertRecursive` on the root, with the tree kept valid. */
  lemma TreeInsertSpec<T>(h: Option<TreeStruct<T>>, x: T)
    requires h.Some? ==> Valid(h.value.root, h.value.key)
    ensures var (h', ok) := TreeInsert(h, x);
      && (h.None? ==> h'.None? && !ok)
      && (h.Some? ==>
            var key := h.value.key;
            && h'.Some? && Valid(h'.value.root, key)
            && (ok <==> key(x) !in Keys(h.value.root, key))
            && Elems(h'.value.root) == (if ok then Elems(h.value.root) + {x} else Elems(h.value.root)))
  {
    if h.Some? {
      InsertCorrect(h.value.root, x, h.value.key);
    }
  }

  /** `treeRemove` (src/tree.c:203-210): NULL on a NULL handle or an empty
      tree; otherwise the stored element equal to `x`, which is gone from
      the tree afterwards. */
  lemma TreeRemoveSpec<T>(h: Option<TreeStruct<T>>, x: T)
    requires h.Some? ==> Valid(h.value.root, h.value.key)
    ensures var (h', removed) := TreeRemove(h, x);
      && (h.None? ==> h'.None? && removed.None?)
      && (h.Some? ==>
            var key := h.value.key;
            && h'.Some? && Valid(h'.value.root, key)
            && (removed.Some? <==> key(x) in Keys(h.value.root, key))
            && (removed.Some? ==> removed.value in Elems(h.value.root) && key(removed.value) == key(x))
            && Elems(h'.value.root) == (if removed.Some? then Elems(h.value.root) - {removed.value} else Elems(h.value.root)))
  {
    if h.Some? && h.value.root.Node? {
      RemoveCorrect(h.value.root, x, h.value.key);
    }
  }

  // ---------------------------------------------------------------------
  // Traversal and height
  // ---------------------------------------------------------------------

  /** In-order traversal (`traverseRecursive`) visits exactly the stored
      elements, in strictly ascending comparator order. */
  lemma {:induction false} InOrderAscending<T>(t: Tree<T>, key: T -> int)
    requires Ordered(t, key)
    ensures forall e :: e in InOrder(t) <==> e in Elems(t)
    ensures forall i, j :: 0 <= i < j < |InOrder(t)| ==> key(InOrder(t)[i]) < key(InOrder(t)[j])
    ensures forall i :: 0 <= i < |InOrder(t)| ==> key(InOrder(t)[i]) in Keys(t, key)
  {
    if t.Node? {
      InOrderAscending(t.left, key);
      InOrderAscending(t.right, key);
      var s := InOrder(t);
      var a := InOrder(t.left);
      var b := InOrder(t.right);
      assert s == a + [t.data] + b;
      forall i | 0 <= i < |a|
        ensures key(a[i]) < key(t.data)
      {

      }
      forall i | 0 <= i < |b|
        ensures key(t.data) < key(b[i])
      {

      }
      forall i, j | 0 <= i < j < |s|
        ensures key(s[i]) < key(s[j])
      {
        if j < |a| {
        } else if j == |a| {
          assert s[i] == a[i];
        } else if i < |a| {
          assert s[i] == a[i] && s[j] == b[j - |a| - 1];
        } else if i == |a| {
          assert s[j] == b[j - |a| - 1];
        } else {
          assert s[i] == b[i - |a| - 1] && s[j] == b[j - |a| - 1];
        }
      }
    }
  }

  function Fib(n: nat): nat
  {
    if n < 2 then n else Fib(n - 1) + Fib(n - 2)
  }

  lemma FibStep(n: nat)
    ensures Fib(n + 2) == Fib(n + 1) + Fib(n)
  {
  }

  lemma {:induction false} FibMonotone(a: nat, b: nat)
    requires a <= b
    ensures Fib(a) <= Fib(b)
    decreases b - a
  {
    if a < b {
      FibMonotone(a, b - 1);
      if b >= 2 {
        assert Fib(b) == Fib(b - 1) + Fib(b - 2);
      }
    }
  }

  /**
   * The AVL height bound: a tree with exact heights and every balance
   * factor in {-1,0,1} holds at least Fib(h+2)-1 elements, so its height h
   * grows only logarithmically with its size.
   */
  lemma {:induction false} SizeAtLeastFib<T>(t: Tree<T>)
    requires HeightsOk(t) && Balanced(t)
    ensures Height(t) >= 0 && Size(t) + 1 >= Fib(Height(t) + 2)
  {
    HeightNonNeg(t);
    if t.Node? {
      SizeAtLeastFib(t.left);
      SizeAtLeastFib(t.right);
      var h, hl, hr := Height(t), Height(t.left), Height(t.right);
      var lo := if hl >= hr then hr else hl;
      assert h == 1 + Max(hl, hr) && lo >= h - 2;
      FibStep(h);
      FibMonotone(h, lo + 2);
      assert Size(t) + 1 == (Size(t.left) + 1) + (Size(t.right) + 1);
      assert Fib(hl + 2) + Fib(hr + 2) >= Fib(h + 1) + Fib(h);
    }
  }
}

=== FILE: avl_tree.dfy ===
/**
 * The active-segment container of src/tree.c: an AVL tree that stores
 * elements of any type and orders them with a three-way comparator.
 *
 * The C comparator is a function pointer; here it is the comparison of an
 * integer key, `Cmp(key, a, b)`, so the order is a fixed total preorder on
 * elements. Nodes are immutable values; every C procedure that rewires
 * pointers returns the new subtree instead.
 */
module AvlTree {
  import opened Common

  datatype Tree<T> = Nil | Node(left: Tree<T>, data: T, right: Tree<T>, height: int)

  /** The comparator the tree is built with: negative, zero or positive. */
  function Cmp<T>(key: T -> int, a: T, b: T): int
  {
    if key(a) < key(b) then -1 else if key(a) > key(b) then 1 else 0
  }

  /** Stored height, 0 for an empty subtree (`height` helper). */
  function Height<T>(t: Tree<T>): int
  {
    if t.Nil? then 0 else t.height
  }

  /** Balance factor as `getBalance` computes it from stored heights. */
  function Balance<T>(t: Tree<T>): int
  {
    if t.Nil? then 0 else Height(t.left) - Height(t.right)
  }

  /** A node whose stored height is recomputed from its children. */
  function Mk<T>(l: Tree<T>, d: T, r: Tree<T>): Tree<T>
  {
    Node(l, d, r, 1 + Max(Height(l), Height(r)))
  }

  function NewNode<T>(x: T): (r: Tree<T>)
    ensures r.Node? && r.left.Nil? && r.right.Nil? && r.data == x
    ensures Height(r) == 1
  {
    Node(Nil, x, Nil, 1)
  }

  // ---------------------------------------------------------------------
  // Contents and invariants
  // ---------------------------------------------------------------------

  function Elems<T>(t: Tree<T>): set<T>
  {
    if t.Nil? then {} else Elems(t.left) + {t.data} + Elems(t.right)
  }

  function Keys<T>(t: Tree<T>, key: T -> int): set<int>
  {
    if t.Nil? then {} else Keys(t.left, key) + {key(t.data)} + Keys(t.right, key)
  }

  function Size<T>(t: Tree<T>): nat
  {
    if t.Nil? then 0 else Size(t.left) + 1 + Size(t.right)
  }

  /** In-order sequence of stored elements (`traverseRecursive`). */
  function InOrder<T>(t: Tree<T>): seq<T>
  {
    if t.Nil? then [] else InOrder(t.left) + [t.data] + InOrder(t.right)
  }

  /** Every stored height is one more than the larger of its children's. */
  ghost predicate HeightsOk<T>(t: Tree<T>)
  {
    t.Node? ==>
      && HeightsOk(t.left) && HeightsOk(t.right)
      && t.height == 1 + Max(Height(t.left), Height(t.right))
  }

  /** Every balance factor is -1, 0 or 1. */
  ghost predicate Balanced<T>(t: Tree<T>)
  {
    t.Node? ==>
      && Balanced(t.left) && Balanced(t.right)
      && -1 <= Height(t.left) - Height(t.right) <= 1
  }

  ghost predicate Below(s: set<int>, v: int)
  {
    forall k :: k in s ==> k < v
  }

  ghost predicate Above(s: set<int>, v: int)
  {
    forall k :: k in s ==> v < k
  }

  /** The root's key separates the keys of its two subtrees. */
  ghost predicate SplitsAt<T>(t: Tree<T>, key: T -> int)
    requires t.Node?
  {
    Below(Keys(t.left, key), key(t.data)) && Above(Keys(t.right, key), key(t.data))
  }

  /** Binary-search-tree order under the comparator, at every node. */
  ghost predicate Ordered<T>(t: Tree<T>, key: T -> int)
  {
    t.Node? ==> Ordered(t.left, key) && Ordered(t.right, key) && SplitsAt(t, key)
  }

  ghost predicate Valid<T>(t: Tree<T>, key: T -> int)
  {
    HeightsOk(t) && Balanced(t) && Ordered(t, key)
  }

  // ---------------------------------------------------------------------
  // Rotations (`rightRotate`, `leftRotate`)
  // ---------------------------------------------------------------------

  /**
   * `rightRotate`: the left child becomes the root. On a node without a
   * left child the C code would dereference NULL; the model leaves such a
   * node as it is (the rebalancing never rotates one).
   */
  function RightRotate<T>(y: Tree<T>): (r: Tree<T>)
    ensures InOrder(r) == InOrder(y)
    ensures Elems(r) == Elems(y)
  {
    if y.Nil? || y.left.Nil? then y
    else
      var x := y.left;
      var t2 := x.right;
      Mk(x.left, x.data, Mk(t2, y.data, y.right))
  }

  /** `leftRotate`: the right child becomes the root (mirror image). */
  function LeftRotate<T>(x: Tree<T>): (r: Tree<T>)
    ensures InOrder(r) == InOrder(x)
    ensures Elems(r) == Elems(x)
  {
    if x.Nil? || x.right.Nil? then x
    else
      var y := x.right;
      var t2 := y.left;
      Mk(Mk(x.left, x.data, t2), y.data, y.right)
  }

  /** Rotations keep the key set, whatever the key. */
  lemma RotationsKeepKeys<T>(t: Tree<T>, key: T -> int)
    ensures Keys(RightRotate(t), key) == Keys(t, key)
    ensures Keys(LeftRotate(t), key) == Keys(t, key)
  {
  }

  // ---------------------------------------------------------------------
  // Queries
  // ---------------------------------------------------------------------

  /** The tree handle: a root and the comparator it was created with. */
  datatype TreeStruct<!T> = TreeStruct(root: Tree<T>, key: T -> int)

  /** `treeInit`: a fresh handle with an empty root (allocation failure left out). */
  function TreeInit<T>(key: T -> int): (h: Option<TreeStruct<T>>)
    ensures h.Some? && h.value.root.Nil? && h.value.key == key
  {
    Some(TreeStruct(Nil, key))
  }

  /** `treeIsEmpty`: a NULL handle or a handle with no root. */
  function TreeIsEmpty<T>(h: Option<TreeStruct<T>>): (b: bool)
    ensures b <==> (h.None? || Elems(h.value.root) == {})
  {
    h.None? || h.value.root.Nil?
  }

  /** `treeHeight`: 0 for a NULL handle, the root's stored height otherwise. */
  function TreeHeight<T>(h: Option<TreeStruct<T>>): (r: int)
    ensures h.None? || h.value.root.Nil? ==> r == 0
    ensures h.Some? && h.value.root.Node? ==> r == h.value.root.height
  {
    if h.None? then 0 else Height(h.value.root)
  }

  /** `searchRecursive`: descend by the comparator until an equal element. */
  function SearchRec<T>(t: Tree<T>, x: T, key: T -> int): (r: Option<T>)
    requires Ordered(t, key)
    ensures r.Some? <==> key(x) in Keys(t, key)
    ensures r.Some? ==> r.value in Elems(t) && key(r.value) == key(x)
  {
    if t.Nil? then None
    else
      var c := Cmp(key, x, t.data);
      if c == 0 then Some(t.data)
      else if c < 0 then SearchRec(t.left, x, key)
      else SearchRec(t.right, x, key)
  }

  /** `treeSearch`: NULL for a NULL handle or when no stored element compares equal. */
  function TreeSearch<T>(h: Option<TreeStruct<T>>, x: T): (r: Option<T>)
    requires h.Some? ==> Ordered(h.value.root, h.value.key)
    ensures r.Some? <==> h.Some? && h.value.key(x) in Keys(h.value.root, h.value.key)
    ensures r.Some? ==> r.value in Elems(h.value.root) && h.value.key(r.value) == h.value.key(x)
  {
    if h.None? then None else SearchRec(h.value.root, x, h.value.key)
  }

  /** Reference definitions of the extreme elements: leftmost and rightmost node. */
  function Leftmost<T>(t: Tree<T>): T
    requires t.Node?
  {
    if t.left.Nil? then t.data else Leftmost(t.left)
  }

  function Rightmost<T>(t: Tree<T>): T
    requires t.Node?
  {
    if t.right.Nil? then t.data else Rightmost(t.right)
  }

  /** The leftmost element is the least stored element (`treeMin`, `minValueNode`). */
  lemma {:induction false} LeftmostIsLeast<T>(t: Tree<T>, key: T -> int)
    requires t.Node? && Ordered(t, key)
    ensures Leftmost(t) in Elems(t)
    ensures key(Leftmost(t)) in Keys(t, key)
    ensures forall k :: k in Keys(t, key) ==> key(Leftmost(t)) <= k
  {
    if t.left.Node? {
      LeftmostIsLeast(t.left, key);
    }
  }

  /** The rightmost element is the greatest stored element (`treeMax`). */
  lemma {:induction false} RightmostIsGreatest<T>(t: Tree<T>, key: T -> int)
    requires t.Node? && Ordered(t, key)
    ensures Rightmost(t) in Elems(t)
    ensures key(Rightmost(t)) in Keys(t, key)
    ensures forall k :: k in Keys(t, key) ==> k <= key(Rightmost(t))
  {
    if t.right.Node? {
      RightmostIsGreatest(t.right, key);
    }
  }

  /** `treeMin`: walk left from the root; NULL for a NULL handle or an empty
      tree, otherwise the least stored element. */
  method TreeMin<T>(h: Option<TreeStruct<T>>) returns (r: Option<T>)
    requires h.Some? ==> Ordered(h.value.root, h.value.key)
    ensures r.None? <==> TreeIsEmpty(h)
    ensures r.Some? ==> r.value == Leftmost(h.value.root)
    ensures r.Some? ==> r.value in Elems(h.value.root)
    ensures r.Some? ==> forall k :: k in Keys(h.value.root, h.value.key) ==> h.value.key(r.value) <= k
  {
    if h.None? || h.value.root.Nil? {
      return None;
    }
    var current := h.value.root;
    while current.left.Node?
      invariant current.Node?
      invariant Leftmost(current) == Leftmost(h.value.root)
      decreases current
    {
      current := current.left;
    }
    LeftmostIsLeast(h.value.root, h.value.key);
    return Some(current.data);
  }

  /** `treeMax`: walk right from the root; the greatest stored element. */
  method TreeMax<T>(h: Option<TreeStruct<T>>) returns (r: Option<T>)
    requires h.Some? ==> Ordered(h.value.root, h.value.key)
    ensures r.None? <==> TreeIsEmpty(h)
    ensures r.Some? ==> r.value == Rightmost(h.value.root)
    ensures r.Some? ==> r.value in Elems(h.value.root)
    ensures r.Some? ==> forall k :: k in Keys(h.value.root, h.value.key) ==> k <= h.value.key(r.value)
  {
    if h.None? || h.value.root.Nil? {
      return None;
    }
    var current := h.value.root;
    while current.right.Node?
      invariant current.Node?
      invariant Rightmost(current) == Rightmost(h.value.root)
      decreases current
    {
      current := current.right;
    }
    RightmostIsGreatest(h.value.root, h.value.key);
    return Some(current.data);
  }

  // ---------------------------------------------------------------------
  // Insertion (`insertRecursive`, `treeInsert`)
  // ---------------------------------------------------------------------

  /** Key comparison of `x` against the root of `t`; C dereferences the child
      unconditionally, which on a well-formed tree is never NULL here. */
  function CmpRoot<T>(key: T -> int, x: T, t: Tree<T>): int
  {
    if t.Nil? then 0 else Cmp(key, x, t.data)
  }

  /** The four rotation cases of `insertRecursive`, chosen by comparing the
      inserted element with the root of the heavy child. */
  function RebalanceInsert<T>(n: Tree<T>, x: T, key: T -> int): (r: Tree<T>)
    ensures InOrder(r) == InOrder(n)
    ensures Elems(r) == Elems(n)
  {
    var b := Balance(n);
    if b > 1 && CmpRoot(key, x, n.left) < 0 then RightRotate(n)
    else if b < -1 && CmpRoot(key, x, n.right) > 0 then LeftRotate(n)
    else if b > 1 && CmpRoot(key, x, n.left) > 0 then RightRotate(n.(left := LeftRotate(n.left)))
    else if b < -1 && CmpRoot(key, x, n.right) < 0 then LeftRotate(n.(right := RightRotate(n.right)))
    else n
  }

  /** `insertRecursive`: the new subtree and the `success` flag. An element
      comparing equal to a stored one returns the node untouched. */
  function InsertRec<T>(t: Tree<T>, x: T, key: T -> int): (r: (Tree<T>, bool))
    decreases t
  {
    if t.Nil? then (NewNode(x), true)
    else
      var c := Cmp(key, x, t.data);
      if c < 0 then
        var (l, ok) := InsertRec(t.left, x, key);
        (RebalanceInsert(Mk(l, t.data, t.right), x, key), ok)
      else if c > 0 then
        var (rt, ok) := InsertRec(t.right, x, key);
        (RebalanceInsert(Mk(t.left, t.data, rt), x, key), ok)
      else
        (t, false)
  }

  /** `treeInsert`: false on a NULL handle. */
  function TreeInsert<T>(h: Option<TreeStruct<T>>, x: T): (r: (Option<TreeStruct<T>>, bool))
    ensures h.None? ==> r == (h, false)
    ensures h.Some? ==> r.0.Some? && r.0.value.key == h.value.key
  {
    if h.None? then (h, false)
    else
      var (root, ok) := InsertRec(h.value.root, x, h.value.key);
      (Some(h.value.(root := root)), ok)
  }

  // ---------------------------------------------------------------------
  // Removal (`removeRecursive`, `treeRemove`)
  // ---------------------------------------------------------------------

  /** The four rotation cases of `removeRecursive`, chosen by the heavy
      child's balance factor. */
  function RebalanceRemove<T>(n: Tree<T>): (r: Tree<T>)
    ensures InOrder(r) == InOrder(n)
    ensures Elems(r) == Elems(n)
  {
    var b := Balance(n);
    if b > 1 && Balance(n.left) >= 0 then RightRotate(n)
    else if b > 1 && Balance(n.left) < 0 then RightRotate(n.(left := LeftRotate(n.left)))
    else if b < -1 && Balance(n.right) <= 0 then LeftRotate(n)
    else if b < -1 && Balance(n.right) > 0 then LeftRotate(n.(right := RightRotate(n.right)))
    else n
  }

  /**
   * `removeRecursive`: the new subtree and the stored element that compared
   * equal to `x`, if any. A node with two children takes over the data of
   * the leftmost node of its right subtree (`minValueNode`), which is then
   * removed from that subtree; a node with one child is replaced by a copy
   * of that child, whose height is recomputed and which is rebalanced.
   */
  function RemoveRec<T>(t: Tree<T>, x: T, key: T -> int): (r: (Tree<T>, Option<T>))
    decreases t
  {
    if t.Nil? then (Nil, None)
    else
      var c := Cmp(key, x, t.data);
      if c < 0 then
        var (l, removed) := RemoveRec(t.left, x, key);
        (RebalanceRemove(Mk(l, t.data, t.right)), removed)
      else if c > 0 then
        var (rt, removed) := RemoveRec(t.right, x, key);
        (RebalanceRemove(Mk(t.left, t.data, rt)), removed)
      else if t.left.Nil? || t.right.Nil? then
        var child := if t.left.Node? then t.left else t.right;
        if child.Nil? then (Nil, Some(t.data))
        else (RebalanceRemove(Mk(child.left, child.data, child.right)), Some(t.data))
      else
        var succ := Leftmost(t.right);
        var (rt, _) := RemoveRec(t.right, succ, key);
        (RebalanceRemove(Mk(t.left, succ, rt)), Some(t.data))
  }

  /** `treeRemove`: NULL for a NULL handle or an empty tree. */
  function TreeRemove<T>(h: Option<TreeStruct<T>>, x: T): (r: (Option<TreeStruct<T>>, Option<T>))
    ensures TreeIsEmpty(h) ==> r == (h, None)
    ensures h.Some? ==> r.0.Some? && r.0.value.key == h.value.key
  {
    if h.None? || h.value.root.Nil? then (h, None)
    else
      var (root, removed) := RemoveRec(h.value.root, x, h.value.key);
      (Some(h.value.(root := root)), removed)
  }
}

=== FILE: common.dfy ===
/** Small shared vocabulary: the C code's nullable pointers become `Option`. */
module Common {

  /** `None` stands for a NULL pointer, `Some(v)` for a live object holding `v`. */
  datatype Option<+T> = None | Some(value: T)

  function Max(a: int, b: int): int
  {
    if a > b then a else b
  }

  /** Concatenation regroups freely; stated once so that large contexts need not rediscover it. */
  lemma SeqAssoc<T>(a: seq<T>, b: seq<T>, c: seq<T>)
    ensures a + b + c == a + (b + c)
  {
  }

  /** Equal prefixes agree at each position they cover. */
  lemma PrefixAt<T>(a: seq<T>, b: seq<T>, i: nat)
    requires i < |a| && i < |b| && a[..i + 1] == b[..i + 1]
    ensures a[i] == b[i]
  {
    assert a[i] == a[..i + 1][i];
  }

  /** Swapping in an equal prefix gives the sequence back. */
  lemma PrefixJoin<T>(a: seq<T>, b: seq<T>, i: nat)
    requires i <= |a| && i <= |b| && a[..i] == b[..i]
    ensures a[..i] + b[i..] == b
  {
  }
}

=== FILE: event_sort.dfy ===
/**
 * The event sorts of src/vis.c: insertion sort on a range, the merge of two
 * adjacent runs, and the hybrid merge sort that hands short ranges to the
 * insertion sort. Arrays are modelled as sequences: each method returns the
 * new contents of the whole array, and each is tied to a functional
 * reference definition (`ISort`, `MergeRef`, `HybridRef`) about which the
 * ordering, permutation and stability lemmas of EventSortProofs are stated.
 * The tolerance is a parameter; the program uses VIS_TOLERANCE.
 */
module EventSort {
  import opened Events

  predicate Lt(a: Event, b: Event, tol: real)
  {
    EventCompare(a, b, tol) < 0
  }

  /**
   * Insertion of `x` into `s` as the inner loop does it: scan from the
   * right and pass every element that `x` sorts strictly before.
   */
  function InsertSorted(s: seq<Event>, x: Event, tol: real): (r: seq<Event>)
    ensures |r| == |s| + 1
  {
    if |s| == 0 then [x]
    else if Lt(x, s[|s| - 1], tol) then InsertSorted(s[..|s| - 1], x, tol) + [s[|s| - 1]]
    else s + [x]
  }

  /** Insertion sort: the prefix is sorted, then the next element inserted. */
  function ISort(s: seq<Event>, tol: real): (r: seq<Event>)
    ensures |r| == |s|
  {
    if |s| == 0 then []
    else InsertSorted(ISort(s[..|s| - 1], tol), s[|s| - 1], tol)
  }

  /** Merge of two runs; on a tie (compare <= 0) the left element goes first. */
  function MergeRef(left: seq<Event>, right: seq<Event>, tol: real): (r: seq<Event>)
    ensures |r| == |left| + |right|
    decreases |left| + |right|
  {
    if |left| == 0 then right
    else if |right| == 0 then left
    else if EventCompare(left[0], right[0], tol) <= 0 then [left[0]] + MergeRef(left[1..], right, tol)
    else [right[0]] + MergeRef(left, right[1..], tol)
  }

  /** Length of the left run when `mergeSortHybrid` splits `n` elements
      (m = l + (r - l) / 2). */
  function SplitPoint(n: nat): nat
  {
    (n - 1) / 2 + 1
  }

  /** The hybrid sort on a whole range of events. */
  function HybridRef(s: seq<Event>, threshold: int, tol: real): (r: seq<Event>)
    ensures |r| == |s|
    decreases |s|
  {
    if |s| <= 1 then s
    else if |s| <= threshold then ISort(s, tol)
    else
      var h := SplitPoint(|s|);
      MergeRef(HybridRef(s[..h], threshold, tol), HybridRef(s[h..], threshold, tol), tol)
  }

  lemma InsertSortedStep(s: seq<Event>, x: Event, tol: real, n: nat)
    requires n < |s| && Lt(x, s[n], tol)
    ensures InsertSorted(s[..n + 1], x, tol) == InsertSorted(s[..n], x, tol) + [s[n]]
  {
    assert s[..n + 1][..n] == s[..n];
  }

  lemma InsertSortedStop(s: seq<Event>, x: Event, tol: real, n: nat)
    requires n < |s| && !Lt(x, s[n], tol)
    ensures InsertSorted(s[..n + 1], x, tol) == s[..n + 1] + [x]
  {
  }

  /**
   * One pass of the outer loop of `insertionSortEvents`: `arr[i]` is taken
   * out and inserted into the sorted run `arr[left..i-1]`, shifting the
   * larger elements one place to the right.
   */
  method InsertKey(a0: seq<Event>, left: int, i: int, tol: real) returns (a: seq<Event>)
    requires 0 <= left < i < |a0|
    ensures |a| == |a0|
    ensures a[..left] == a0[..left] && a[i + 1..] == a0[i + 1..]
    ensures a[left..i + 1] == InsertSorted(a0[left..i], a0[i], tol)
  {
    a := a0;
    var key := a[i];
    var j := i - 1;
    assert a0[i + 1..i + 1] == a0[left..i][i - left..];
    while j >= left && EventCompare(key, a[j], tol) < 0
      invariant left - 1 <= j <= i - 1
      invariant Shifting(a0, a, left, i, j, tol)
    {
      ShiftStep(a0, a, left, i, j, tol);
      a := a[j + 1 := a[j]];
      j := j - 1;
    }
    ShiftDone(a0, a, left, i, j, tol);
    a := a[j + 1 := key];
  }

  /** Concatenation is associative (stated once so that proofs can cite it). */
  lemma AppendAssoc(a: seq<Event>, b: seq<Event>, c: seq<Event>)
    ensures a + (b + c) == (a + b) + c
  {
  }

  /**
   * The state of the inner loop of `insertionSortEvents` with `j` the
   * element compared next: `p` (the sorted run) sits in `a` with a hole at
   * `j + 1`, and inserting `key` into `p` comes down to inserting it into
   * the part left of the hole.
   */
  ghost predicate Shifting(a0: seq<Event>, a: seq<Event>, left: int, i: int, j: int, tol: real)
    requires 0 <= left < i < |a0| && left - 1 <= j <= i - 1
  {
    var p := a0[left..i];
    |a| == |a0|
    && a[..left] == a0[..left] && a[i + 1..] == a0[i + 1..]
    && a[left..j + 1] == p[..j + 1 - left]
    && a[j + 2..i + 1] == p[j + 1 - left..]
    && InsertSorted(p, a0[i], tol) == InsertSorted(p[..j + 1 - left], a0[i], tol) + p[j + 1 - left..]
  }

  lemma ShiftStep(a0: seq<Event>, a: seq<Event>, left: int, i: int, j: int, tol: real)
    requires 0 <= left < i < |a0| && left <= j <= i - 1
    requires Shifting(a0, a, left, i, j, tol)
    requires Lt(a0[i], a[j], tol)
    ensures Shifting(a0, a[j + 1 := a[j]], left, i, j - 1, tol)
  {
    var p := a0[left..i];
    SliceAt(a, left, j);
    InsertSortedStep(p, a0[i], tol, j - left);
    assert p[j - left..] == [p[j - left]] + p[j + 1 - left..];
    AppendAssoc(InsertSorted(p[..j - left], a0[i], tol), [p[j - left]], p[j + 1 - left..]);
    var a' := a[j + 1 := a[j]];
    assert a'[left..j] == a[left..j + 1][..j - left];
    assert a'[j + 1..i + 1] == [a[j]] + a[j + 2..i + 1];
    assert a'[i + 1..] == a[i + 1..];
  }

  lemma ShiftDone(a0: seq<Event>, a: seq<Event>, left: int, i: int, j: int, tol: real)
    requires 0 <= left < i < |a0| && left - 1 <= j <= i - 1
    requires Shifting(a0, a, left, i, j, tol)
    requires j >= left ==> !Lt(a0[i], a[j], tol)
    ensures var a' := a[j + 1 := a0[i]];
            |a'| == |a0| && a'[..left] == a0[..left] && a'[i + 1..] == a0[i + 1..]
            && a'[left..i + 1] == InsertSorted(a0[left..i], a0[i], tol)
  {
    var p := a0[left..i];
    if j >= left {
      SliceAt(a, left, j);
      InsertSortedStop(p, a0[i], tol, j - left);
    }
    var a' := a[j + 1 := a0[i]];
    assert a'[left..i + 1] == a[left..j + 1] + [a0[i]] + a[j + 2..i + 1];
    assert a'[i + 1..] == a[i + 1..];
  }

  lemma SliceAt(a: seq<Event>, left: int, j: int)
    requires 0 <= left <= j < |a|
    ensures a[left..j + 1][j - left] == a[j]
  {
  }

  /**
   * `insertionSortEvents(arr, left, right)`: afterwards `arr[left..right]`
   * holds the insertion sort of its old contents and nothing else changed.
   */
  method InsertionSortEvents(a0: seq<Event>, left: int, right: int, tol: real) returns (a: seq<Event>)
    requires 0 <= left <= right + 1 <= |a0|
    ensures |a| == |a0|
    ensures a[..left] == a0[..left] && a[right + 1..] == a0[right + 1..]
    ensures a[left..right + 1] == ISort(a0[left..right + 1], tol)
  {
    a := a0;
    if left > right {
      return;
    }
    var i := left + 1;
    while i <= right
      invariant left + 1 <= i <= right + 1
      invariant |a| == |a0|
      invariant a[..left] == a0[..left] && a[i..] == a0[i..]
      invariant a[left..i] == ISort(a0[left..i], tol)
    {
      ghost var prev := a;
      a := InsertKey(a, left, i, tol);
      assert a0[left..i + 1][..i - left] == a0[left..i];
      assert prev[i] == a0[i] by {
        assert prev[i..][0] == a0[i..][0];
      }
      assert a[i + 1..] == a0[i + 1..] by {
        assert prev[i + 1..] == prev[i..][1..];
      }
      i := i + 1;
    }
  }

  /**
   * `merge(arr, l, m, r)`: the runs `arr[l..m]` and `arr[m+1..r]` are
   * copied into L and R and merged back into `arr[l..r]`. The program
   * writes `arr[k]` for k = l, l+1, ... in order and never reads `arr`
   * again before the end, so the written part is kept here as the
   * sequence `out` and put back in place once the three loops are done.
   */
  method Merge(a0: seq<Event>, l: int, m: int, r: int, tol: real) returns (a: seq<Event>)
    requires 0 <= l <= m <= r < |a0|
    ensures |a| == |a0|
    ensures a[..l] == a0[..l] && a[r + 1..] == a0[r + 1..]
    ensures a[l..r + 1] == MergeRef(a0[l..m + 1], a0[m + 1..r + 1], tol)
  {
    var left, right := a0[l..m + 1], a0[m + 1..r + 1];
    var out, i, j := MergeHeads(left, right, tol);
    out, i := DrainLeft(left, right, out, i, j, tol);
    out, j := DrainRight(left, right, out, i, j, tol);
    MergedAll(left, right, out, tol);
    a := a0[..l] + out + a0[r + 1..];
    Splice(a0, out, l, r);
  }

  /** The first loop of `merge`: take the smaller head while both runs
      have elements, the left one on a tie. */
  method MergeHeads(left: seq<Event>, right: seq<Event>, tol: real) returns (out: seq<Event>, i: int, j: int)
    ensures 0 <= i <= |left| && 0 <= j <= |right|
    ensures i == |left| || j == |right|
    ensures MergedPrefix(left, right, out, i, j, tol)
  {
    out, i, j := [], 0, 0;
    assert left[0..] == left && right[0..] == right;
    while i < |left| && j < |right|
      invariant 0 <= i <= |left| && 0 <= j <= |right|
      invariant MergedPrefix(left, right, out, i, j, tol)
      decreases |left| + |right| - i - j
    {
      if EventCompare(left[i], right[j], tol) <= 0 {
        TakeLeft(left, right, i, j, out, tol);
        out, i := out + [left[i]], i + 1;
      } else {
        TakeRight(left, right, i, j, out, tol);
        out, j := out + [right[j]], j + 1;
      }
    }
  }

  /** The second loop of `merge`: copy what is left of the left run. */
  method DrainLeft(left: seq<Event>, right: seq<Event>, out0: seq<Event>, i0: int, j: int, tol: real)
    returns (out: seq<Event>, i: int)
    requires 0 <= i0 <= |left| && 0 <= j <= |right|
    requires i0 == |left| || j == |right|
    requires MergedPrefix(left, right, out0, i0, j, tol)
    ensures i == |left|
    ensures MergedPrefix(left, right, out, i, j, tol)
  {
    out, i := out0, i0;
    while i < |left|
      invariant i0 <= i <= |left|
      invariant MergedPrefix(left, right, out, i, j, tol)
    {
      TakeLeft(left, right, i, j, out, tol);
      out, i := out + [left[i]], i + 1;
    }
  }

  /** The third loop of `merge`: copy what is left of the right run. */
  method DrainRight(left: seq<Event>, right: seq<Event>, out0: seq<Event>, i: int, j0: int, tol: real)
    returns (out: seq<Event>, j: int)
    requires i == |left| && 0 <= j0 <= |right|
    requires MergedPrefix(left, right, out0, i, j0, tol)
    ensures j == |right|
    ensures MergedPrefix(left, right, out, i, j, tol)
  {
    out, j := out0, j0;
    while j < |right|
      invariant j0 <= j <= |right|
      invariant MergedPrefix(left, right, out, i, j, tol)
    {
      TakeRight(left, right, i, j, out, tol);
      out, j := out + [right[j]], j + 1;
    }
  }

  /**
   * The state of `merge` after taking `i` elements of the left run and `j`
   * of the right: what has been written, followed by the merge of what is
   * left, is the merge of the two runs.
   */
  ghost predicate MergedPrefix(left: seq<Event>, right: seq<Event>, out: seq<Event>, i: int, j: int, tol: real)
    requires 0 <= i <= |left| && 0 <= j <= |right|
  {
    out + MergeRef(left[i..], right[j..], tol) == MergeRef(left, right, tol)
  }

  lemma MergedAll(left: seq<Event>, right: seq<Event>, out: seq<Event>, tol: real)
    requires MergedPrefix(left, right, out, |left|, |right|, tol)
    ensures out == MergeRef(left, right, tol)
  {
    assert left[|left|..] == [] && right[|right|..] == [];
  }

  /** Putting the merged range back between the untouched ends. */
  lemma Splice(a0: seq<Event>, out: seq<Event>, l: int, r: int)
    requires 0 <= l <= r < |a0| && |out| == r + 1 - l
    ensures var a := a0[..l] + out + a0[r + 1..];
            |a| == |a0| && a[..l] == a0[..l] && a[r + 1..] == a0[r + 1..] && a[l..r + 1] == out
  {
    var a := a0[..l] + out + a0[r + 1..];
    assert a[..l] == a0[..l];
    assert a[r + 1..] == a0[r + 1..];
    assert a[l..r + 1] == out;
  }

  lemma MergeRefLeftHead(left: seq<Event>, right: seq<Event>, i: int, j: int, tol: real)
    requires 0 <= i < |left| && 0 <= j <= |right|
    requires j < |right| ==> EventCompare(left[i], right[j], tol) <= 0
    ensures MergeRef(left[i..], right[j..], tol) == [left[i]] + MergeRef(left[i + 1..], right[j..], tol)
  {
    assert left[i..][0] == left[i] && left[i..][1..] == left[i + 1..];
    if j < |right| {
      assert right[j..][0] == right[j];
    }
  }

  lemma MergeRefRightHead(left: seq<Event>, right: seq<Event>, i: int, j: int, tol: real)
    requires 0 <= i <= |left| && 0 <= j < |right|
    requires i < |left| ==> EventCompare(left[i], right[j], tol) > 0
    ensures MergeRef(left[i..], right[j..], tol) == [right[j]] + MergeRef(left[i..], right[j + 1..], tol)
  {
    assert right[j..][0] == right[j] && right[j..][1..] == right[j + 1..];
    if i < |left| {
      assert left[i..][0] == left[i];
    }
  }

  /** Taking the head of the left run extends what has been written. */
  lemma TakeLeft(left: seq<Event>, right: seq<Event>, i: int, j: int, out: seq<Event>, tol: real)
    requires 0 <= i < |left| && 0 <= j <= |right|
    requires j < |right| ==> EventCompare(left[i], right[j], tol) <= 0
    requires MergedPrefix(left, right, out, i, j, tol)
    ensures MergedPrefix(left, right, out + [left[i]], i + 1, j, tol)
  {
    MergeRefLeftHead(left, right, i, j, tol);
    AppendAssoc(out, [left[i]], MergeRef(left[i + 1..], right[j..], tol));
  }

  /** Taking the head of the right run extends what has been written. */
  lemma TakeRight(left: seq<Event>, right: seq<Event>, i: int, j: int, out: seq<Event>, tol: real)
    requires 0 <= i <= |left| && 0 <= j < |right|
    requires i < |left| ==> EventCompare(left[i], right[j], tol) > 0
    requires MergedPrefix(left, right, out, i, j, tol)
    ensures MergedPrefix(left, right, out + [right[j]], i, j + 1, tol)
  {
    MergeRefRightHead(left, right, i, j, tol);
    AppendAssoc(out, [right[j]], MergeRef(left[i..], right[j + 1..], tol));
  }

  /**
   * `mergeSortHybrid(arr, l, r, threshold)`: ranges of at most one element
   * are left alone, ranges no longer than the threshold go to the insertion
   * sort, and longer ones are split at the midpoint, sorted and merged.
   */
  method MergeSortHybrid(a0: seq<Event>, l: int, r: int, threshold: int, tol: real) returns (a: seq<Event>)
    requires 0 <= l <= r + 1 <= |a0|
    ensures |a| == |a0|
    ensures a[..l] == a0[..l] && a[r + 1..] == a0[r + 1..]
    ensures a[l..r + 1] == HybridRef(a0[l..r + 1], threshold, tol)
    decreases r - l, 1
  {
    if l < r {
      if r - l + 1 <= threshold {
        a := InsertionSortEvents(a0, l, r, tol);
        HybridShort(a0[l..r + 1], threshold, tol);
      } else {
        a := SortHalves(a0, l, r, threshold, tol);
      }
    } else {
      a := a0;
      HybridShort(a0[l..r + 1], threshold, tol);
    }
  }

  /** The split branch of `mergeSortHybrid`: sort `arr[l..m]`, then
      `arr[m+1..r]`, then merge the two. */
  method SortHalves(a0: seq<Event>, l: int, r: int, threshold: int, tol: real) returns (a: seq<Event>)
    requires 0 <= l < r < |a0| && r - l + 1 > threshold
    ensures |a| == |a0|
    ensures a[..l] == a0[..l] && a[r + 1..] == a0[r + 1..]
    ensures a[l..r + 1] == HybridRef(a0[l..r + 1], threshold, tol)
    decreases r - l, 0
  {
    var m := l + (r - l) / 2;
    var a1 := MergeSortHybrid(a0, l, m, threshold, tol);
    var a2 := MergeSortHybrid(a1, m + 1, r, threshold, tol);
    a := Merge(a2, l, m, r, tol);
    HybridStep(a0, a1, a2, a, l, m, r, threshold, tol);
  }

  /** Ranges of at most one element, or no longer than the threshold, go
      straight to the base cases. */
  lemma HybridShort(s: seq<Event>, threshold: int, tol: real)
    requires |s| <= 1 || |s| <= threshold
    ensures HybridRef(s, threshold, tol) == if |s| <= 1 then s else ISort(s, tol)
  {
  }

  /** Sorting both halves and merging them computes the reference sort of
      the whole range, and the rest of the array is untouched. */
  lemma HybridStep(a0: seq<Event>, a1: seq<Event>, a2: seq<Event>, a: seq<Event>,
                   l: int, m: int, r: int, threshold: int, tol: real)
    requires 0 <= l <= m < r < |a0| && m == l + (r - l) / 2 && r - l + 1 > threshold
    requires |a1| == |a0| && a1[..l] == a0[..l] && a1[m + 1..] == a0[m + 1..]
    requires a1[l..m + 1] == HybridRef(a0[l..m + 1], threshold, tol)
    requires |a2| == |a1| && a2[..m + 1] == a1[..m + 1] && a2[r + 1..] == a1[r + 1..]
    requires a2[m + 1..r + 1] == HybridRef(a1[m + 1..r + 1], threshold, tol)
    requires |a| == |a2| && a[..l] == a2[..l] && a[r + 1..] == a2[r + 1..]
    requires a[l..r + 1] == MergeRef(a2[l..m + 1], a2[m + 1..r + 1], tol)
    ensures a[..l] == a0[..l] && a[r + 1..] == a0[r + 1..]
    ensures a[l..r + 1] == HybridRef(a0[l..r + 1], threshold, tol)
  {
    HybridFrames(a0, a1, a2, l, m, r);
    HybridHalves(a0[l..r + 1], a0[l..m + 1], a1[m + 1..r + 1], a2[l..m + 1], a2[m + 1..r + 1], threshold, tol);
  }

  /** With `x` and `y` the sorted halves of `s`, merging them is the
      reference sort of `s`. */
  lemma HybridHalves(s: seq<Event>, sl: seq<Event>, sr: seq<Event>, x: seq<Event>, y: seq<Event>, threshold: int, tol: real)
    requires |s| > 1 && |s| > threshold
    requires sl == s[..SplitPoint(|s|)] && sr == s[SplitPoint(|s|)..]
    requires x == HybridRef(sl, threshold, tol) && y == HybridRef(sr, threshold, tol)
    ensures MergeRef(x, y, tol) == HybridRef(s, threshold, tol)
  {
  }

  /** How the three steps of a split range fit together: the left half
      sorted first, then the right half, the rest untouched throughout. */
  lemma HybridFrames(a0: seq<Event>, a1: seq<Event>, a2: seq<Event>, l: int, m: int, r: int)
    requires 0 <= l <= m < r < |a0| && m == l + (r - l) / 2
    requires |a1| == |a0| && a1[..l] == a0[..l] && a1[m + 1..] == a0[m + 1..]
    requires |a2| == |a1| && a2[..m + 1] == a1[..m + 1] && a2[r + 1..] == a1[r + 1..]
    ensures a2[..l] == a0[..l] && a2[r + 1..] == a0[r + 1..]
    ensures a2[l..m + 1] == a1[l..m + 1] && a1[m + 1..r + 1] == a0[m + 1..r + 1]
    ensures var s := a0[l..r + 1];
            SplitPoint(|s|) == m + 1 - l && s[..m + 1 - l] == a0[l..m + 1] && s[m + 1 - l..] == a0[m + 1..r + 1]
  {
    assert a2[..l] == a2[..m + 1][..l];
    assert a1[..l] == a1[..m + 1][..l];
    assert a1[r + 1..] == a1[m + 1..][r - m..];
    assert a0[r + 1..] == a0[m + 1..][r - m..];
    assert a2[l..m + 1] == a2[..m + 1][l..];
    assert a1[l..m + 1] == a1[..m + 1][l..];
    assert a1[m + 1..r + 1] == a1[m + 1..][..r - m];
    assert a0[m + 1..r + 1] == a0[m + 1..][..r - m];
  }
}

=== FILE: event_sort_proofs.dfy ===
/**
 * What the event sorts guarantee. For any non-negative tolerance, including
 * the program's VIS_TOLERANCE, each sort returns a permutation of its input
 * in which every two neighbours are in comparator order; the insertion sort
 * is also stable. Because the tolerant comparator is not transitive
 * (Events.ToleranceNotTransitive), the full "sorted" and stability results
 * for the merge sort are stated for the exact comparator (tolerance 0),
 * where the hybrid sort and the insertion sort provably agree.
 */
module EventSortProofs {
  import opened Events
  import opened EventSort

  /** Every two neighbours are in comparator order. */
  ghost predicate AdjSorted(s: seq<Event>, tol: real)
  {
    forall i :: 0 <= i < |s| - 1 ==> EventCompare(s[i], s[i + 1], tol) <= 0
  }

  /** Every pair is in order under the exact comparator. */
  ghost predicate Sorted(s: seq<Event>)
  {
    forall i, j :: 0 <= i < j < |s| ==> EventCompare(s[i], s[j], 0.0) <= 0
  }

  /** The events of `s` with the same angle and kind as `c`, in order. */
  function Filter(s: seq<Event>, c: Event): seq<Event>
  {
    if |s| == 0 then []
    else (if Equiv(s[0], c) then [s[0]] else []) + Filter(s[1..], c)
  }

  /** Events of the same angle and kind keep their relative order. */
  ghost predicate Stable(output: seq<Event>, input: seq<Event>)
  {
    forall c :: Filter(output, c) == Filter(input, c)
  }

  // ---------------------------------------------------------------------
  // Filter
  // ---------------------------------------------------------------------

  lemma {:induction false} FilterConcat(a: seq<Event>, b: seq<Event>, c: Event)
    ensures Filter(a + b, c) == Filter(a, c) + Filter(b, c)
    decreases |a|
  {
    if |a| > 0 {
      assert (a + b)[1..] == a[1..] + b;
      FilterConcat(a[1..], b, c);
    } else {
      assert a + b == b;
    }
  }

  lemma {:induction false} FilterNone(s: seq<Event>, c: Event)
    requires forall k :: 0 <= k < |s| ==> !Equiv(s[k], c)
    ensures Filter(s, c) == []
    decreases |s|
  {
    if |s| > 0 {
      FilterNone(s[1..], c);
    }
  }

  lemma {:induction false} FilterNonEmpty(s: seq<Event>, c: Event)
    requires Filter(s, c) != []
    ensures exists k :: 0 <= k < |s| && Equiv(s[k], c)
    decreases |s|
  {
    if !Equiv(s[0], c) {
      FilterNonEmpty(s[1..], c);
      var k :| 0 <= k < |s[1..]| && Equiv(s[1..][k], c);
      assert Equiv(s[k + 1], c);
    }
  }

  // ---------------------------------------------------------------------
  // Insertion sort
  // ---------------------------------------------------------------------

  /** The inserted element lands last exactly when it does not sort before
      the old last element. */
  lemma InsertSortedLast(s: seq<Event>, x: Event, tol: real)
    ensures InsertSorted(s, x, tol)[|s|] == (if |s| == 0 || !Lt(x, s[|s| - 1], tol) then x else s[|s| - 1])
  {
  }

  lemma {:induction false} InsertSortedPerm(s: seq<Event>, x: Event, tol: real)
    ensures multiset(InsertSorted(s, x, tol)) == multiset(s) + multiset{x}
    decreases |s|
  {
    if |s| > 0 && Lt(x, s[|s| - 1], tol) {
      InsertSortedPerm(s[..|s| - 1], x, tol);
      assert s == s[..|s| - 1] + [s[|s| - 1]];
    }
  }

  lemma {:induction false} InsertSortedAdj(s: seq<Event>, x: Event, tol: real)
    requires tol >= 0.0 && AdjSorted(s, tol)
    ensures AdjSorted(InsertSorted(s, x, tol), tol)
    decreases |s|
  {
    if |s| > 0 {
      var last := s[|s| - 1];
      CompareAntisymmetric(x, last, tol);
      if Lt(x, last, tol) {
        var init := s[..|s| - 1];
        InsertSortedAdj(init, x, tol);
        InsertSortedLast(init, x, tol);
        var t := InsertSorted(init, x, tol);
        if |init| > 0 {
          assert s[|s| - 2] == init[|init| - 1];
        }
        assert EventCompare(t[|t| - 1], last, tol) <= 0;
      }
    }
  }

  lemma {:induction false} ISortPerm(s: seq<Event>, tol: real)
    ensures multiset(ISort(s, tol)) == multiset(s)
    decreases |s|
  {
    if |s| > 0 {
      var init, last := s[..|s| - 1], s[|s| - 1];
      ISortPerm(init, tol);
      InsertSortedPerm(ISort(init, tol), last, tol);
      assert multiset(s) == multiset(init) + multiset{last} by {
        assert s == init + [last];
      }
    }
  }

  lemma {:induction false} ISortAdj(s: seq<Event>, tol: real)
    requires tol >= 0.0
    ensures AdjSorted(ISort(s, tol), tol)
    decreases |s|
  {
    if |s| > 0 {
      ISortAdj(s[..|s| - 1], tol);
      InsertSortedAdj(ISort(s[..|s| - 1], tol), s[|s| - 1], tol);
    }
  }

  /** The insertion sort returns a permutation with neighbours in order. */
  lemma ISortPermAdj(s: seq<Event>, tol: real)
    requires tol >= 0.0
    ensures multiset(ISort(s, tol)) == multiset(s)
    ensures AdjSorted(ISort(s, tol), tol)
  {
    ISortPerm(s, tol);
    ISortAdj(s, tol);
  }

  lemma {:induction false} InsertSortedStable(s: seq<Event>, x: Event, tol: real, c: Event)
    requires tol >= 0.0
    ensures Filter(InsertSorted(s, x, tol), c) == Filter(s, c) + Filter([x], c)
    decreases |s|
  {
    if |s| == 0 {
    } else if Lt(x, s[|s| - 1], tol) {
      var init, last := s[..|s| - 1], s[|s| - 1];
      InsertSortedStable(init, x, tol, c);
      FilterConcat(InsertSorted(init, x, tol), [last], c);
      FilterConcat(init, [last], c);
      assert s == init + [last];
      // x sorts strictly before last, so they cannot both match c
      assert !(Equiv(x, c) && Equiv(last, c));
    } else {
      FilterConcat(s, [x], c);
    }
  }

  /** The insertion sort is stable: equal events keep their order. */
  lemma {:induction false} ISortStable(s: seq<Event>, tol: real)
    requires tol >= 0.0
    ensures Stable(ISort(s, tol), s)
    decreases |s|
  {
    if |s| > 0 {
      var init := s[..|s| - 1];
      ISortStable(init, tol);
      forall c
        ensures Filter(ISort(s, tol), c) == Filter(s, c)
      {
        InsertSortedStable(ISort(init, tol), s[|s| - 1], tol, c);
        FilterConcat(init, [s[|s| - 1]], c);
        assert s == init + [s[|s| - 1]];
      }
    }
  }

  // ---------------------------------------------------------------------
  // Merge and the hybrid sort
  // ---------------------------------------------------------------------

  lemma MergeRefHead(left: seq<Event>, right: seq<Event>, tol: real)
    requires |left| + |right| > 0
    ensures var r := MergeRef(left, right, tol);
            (|left| > 0 && r[0] == left[0]) || (|right| > 0 && r[0] == right[0])
  {
  }

  lemma {:induction false} MergeRefPerm(left: seq<Event>, right: seq<Event>, tol: real)
    ensures multiset(MergeRef(left, right, tol)) == multiset(left) + multiset(right)
    decreases |left| + |right|
  {
    if |left| > 0 && |right| > 0 {
      if EventCompare(left[0], right[0], tol) <= 0 {
        MergeRefPerm(left[1..], right, tol);
        MultisetCons(left[0], MergeRef(left[1..], right, tol));
        MultisetCons(left[0], left[1..]);
        assert [left[0]] + left[1..] == left;
      } else {
        MergeRefPerm(left, right[1..], tol);
        MultisetCons(right[0], MergeRef(left, right[1..], tol));
        MultisetCons(right[0], right[1..]);
        assert [right[0]] + right[1..] == right;
      }
    }
  }

  lemma {:induction false} MergeRefAdj(left: seq<Event>, right: seq<Event>, tol: real)
    requires tol >= 0.0 && AdjSorted(left, tol) && AdjSorted(right, tol)
    ensures AdjSorted(MergeRef(left, right, tol), tol)
    decreases |left| + |right|
  {
    if |left| > 0 && |right| > 0 {
      if EventCompare(left[0], right[0], tol) <= 0 {
        MergeRefAdj(left[1..], right, tol);
        if |left[1..]| + |right| > 0 {
          MergeRefHead(left[1..], right, tol);
        }
      } else {
        CompareAntisymmetric(left[0], right[0], tol);
        MergeRefAdj(left, right[1..], tol);
        MergeRefHead(left, right[1..], tol);
      }
    }
  }

  /** The hybrid sort returns a permutation with neighbours in order, for
      every threshold. */
  lemma {:induction false} HybridPermAdj(s: seq<Event>, threshold: int, tol: real)
    requires tol >= 0.0
    ensures multiset(HybridRef(s, threshold, tol)) == multiset(s)
    ensures AdjSorted(HybridRef(s, threshold, tol), tol)
    decreases |s|
  {
    if |s| <= 1 {
    } else if |s| <= threshold {
      ISortPermAdj(s, tol);
    } else {
      var h := SplitPoint(|s|);
      var a, b := HybridRef(s[..h], threshold, tol), HybridRef(s[h..], threshold, tol);
      assert HybridRef(s, threshold, tol) == MergeRef(a, b, tol);
      HybridPermAdj(s[..h], threshold, tol);
      HybridPermAdj(s[h..], threshold, tol);
      MergeRefPerm(a, b, tol);
      MergeRefAdj(a, b, tol);
      MultisetSplit(s, h);
    }
  }

  // ---------------------------------------------------------------------
  // The exact comparator: sorted, stable, and unique
  // ---------------------------------------------------------------------

  lemma ExactStrictTransitive(a: Event, b: Event, c: Event)
    requires EventCompare(a, b, 0.0) < 0 && EventCompare(b, c, 0.0) <= 0
    ensures EventCompare(a, c, 0.0) < 0
  {
  }

  /** Under the exact comparator, ordered neighbours make a sorted sequence. */
  lemma {:induction false} AdjToSorted(s: seq<Event>)
    requires AdjSorted(s, 0.0)
    ensures Sorted(s)
    decreases |s|
  {
    if |s| > 1 {
      AdjToSorted(s[1..]);
      forall i, j | 0 <= i < j < |s|
        ensures EventCompare(s[i], s[j], 0.0) <= 0
      {
        if i > 0 {
          assert s[1..][i - 1] == s[i] && s[1..][j - 1] == s[j];
        } else if j > 1 {
          assert s[1..][0] == s[1] && s[1..][j - 1] == s[j];
          ExactCompareTotalPreorder(s[0], s[1], s[j]);
        }
      }
    }
  }

  /** An event sorting strictly before the head of a sorted run matches
      no class of the run. */
  lemma BelowRunFiltersEmpty(run: seq<Event>, y: Event, c: Event)
    requires Sorted(run) && |run| > 0 && EventCompare(run[0], y, 0.0) > 0 && Equiv(y, c)
    ensures Filter(run, c) == []
  {
    forall k | 0 <= k < |run|
      ensures !Equiv(run[k], c)
    {
      if Equiv(run[k], c) {
        assert k > 0 ==> EventCompare(run[0], run[k], 0.0) <= 0;
        EquivCompare(run[k], y, run[0]);
        assert false;
      }
    }
    FilterNone(run, c);
  }

  lemma {:induction false} MergeRefStable(left: seq<Event>, right: seq<Event>, c: Event)
    requires Sorted(left)
    ensures Filter(MergeRef(left, right, 0.0), c) == Filter(left, c) + Filter(right, c)
    decreases |left| + |right|
  {
    if |left| == 0 {
    } else if |right| == 0 {
    } else if EventCompare(left[0], right[0], 0.0) <= 0 {
      assert Sorted(left[1..]) by {
        forall i, j | 0 <= i < j < |left[1..]|
          ensures EventCompare(left[1..][i], left[1..][j], 0.0) <= 0
        {
          assert left[1..][i] == left[i + 1] && left[1..][j] == left[j + 1];
        }
      }
      MergeRefStable(left[1..], right, c);
      MergeStableLeftStep(left, right, c);
    } else {
      MergeRefStable(left, right[1..], c);
      if Equiv(right[0], c) {
        BelowRunFiltersEmpty(left, right[0], c);
      }
      MergeStableRightStep(left, right, c);
    }
  }

  lemma MergeStableLeftStep(left: seq<Event>, right: seq<Event>, c: Event)
    requires |left| > 0 && |right| > 0 && EventCompare(left[0], right[0], 0.0) <= 0
    requires Filter(MergeRef(left[1..], right, 0.0), c) == Filter(left[1..], c) + Filter(right, c)
    ensures Filter(MergeRef(left, right, 0.0), c) == Filter(left, c) + Filter(right, c)
  {
    var merged, rest := MergeRef(left, right, 0.0), MergeRef(left[1..], right, 0.0);
    var h := if Equiv(left[0], c) then [left[0]] else [];
    assert merged[0] == left[0] && merged[1..] == rest;
    assert Filter(merged, c) == h + Filter(rest, c);
    assert Filter(left, c) == h + Filter(left[1..], c);
    AppendAssoc(h, Filter(left[1..], c), Filter(right, c));
  }

  lemma MultisetSplit(s: seq<Event>, h: nat)
    requires h <= |s|
    ensures multiset(s) == multiset(s[..h]) + multiset(s[h..])
  {
    assert s == s[..h] + s[h..];
  }

  lemma MultisetCons(x: Event, s: seq<Event>)
    ensures multiset([x] + s) == multiset{x} + multiset(s)
  {
  }

  lemma MergeStableRightStep(left: seq<Event>, right: seq<Event>, c: Event)
    requires |left| > 0 && |right| > 0 && EventCompare(left[0], right[0], 0.0) > 0
    requires Equiv(right[0], c) ==> Filter(left, c) == []
    requires Filter(MergeRef(left, right[1..], 0.0), c) == Filter(left, c) + Filter(right[1..], c)
    ensures Filter(MergeRef(left, right, 0.0), c) == Filter(left, c) + Filter(right, c)
  {
    var rest := MergeRef(left, right[1..], 0.0);
    var h := if Equiv(right[0], c) then [right[0]] else [];
    assert MergeRef(left, right, 0.0) == [right[0]] + rest;
    FilterCons(right[0], rest, c);
    FilterCons(right[0], right[1..], c);
    assert [right[0]] + right[1..] == right;
    ShuffleFront(h, Filter(left, c), Filter(right[1..], c));
  }

  /** An empty block can be moved past another one. */
  lemma ShuffleFront(h: seq<Event>, l: seq<Event>, x: seq<Event>)
    requires h == [] || l == []
    ensures h + (l + x) == l + (h + x)
  {
  }

  /** Filtering a sequence with a known head. */
  lemma FilterCons(x: Event, s: seq<Event>, c: Event)
    ensures Filter([x] + s, c) == (if Equiv(x, c) then [x] else []) + Filter(s, c)
  {
    assert ([x] + s)[1..] == s;
  }

  /** Under the exact comparator the hybrid sort is sorted and stable. */
  lemma {:induction false} HybridSortedStable(s: seq<Event>, threshold: int)
    ensures Sorted(HybridRef(s, threshold, 0.0))
    ensures Stable(HybridRef(s, threshold, 0.0), s)
    decreases |s|
  {
    HybridPermAdj(s, threshold, 0.0);
    AdjToSorted(HybridRef(s, threshold, 0.0));
    if |s| <= 1 {
    } else if |s| <= threshold {
      ISortStable(s, 0.0);
    } else {
      var h := SplitPoint(|s|);
      HybridSortedStable(s[..h], threshold);
      HybridSortedStable(s[h..], threshold);
      forall c
        ensures Filter(HybridRef(s, threshold, 0.0), c) == Filter(s, c)
      {
        MergeRefStable(HybridRef(s[..h], threshold, 0.0), HybridRef(s[h..], threshold, 0.0), c);
        FilterConcat(s[..h], s[h..], c);
        assert s == s[..h] + s[h..];
      }
    }
  }

  lemma FilterOwnHead(s: seq<Event>)
    requires |s| > 0
    ensures Filter(s, s[0]) != []
  {
  }

  /** Two sorted sequences with the same filters start with the same event. */
  lemma SameHead(a: seq<Event>, b: seq<Event>)
    requires Sorted(a) && Sorted(b) && |a| > 0 && |b| > 0
    requires Filter(a, a[0]) == Filter(b, a[0]) && Filter(a, b[0]) == Filter(b, b[0])
    ensures a[0] == b[0]
  {
    // a[0] occurs in b and b[0] in a, so each sorts no later than the other
    assert Filter(a, a[0]) != [] && Filter(b, b[0]) != [];
    FilterNonEmpty(b, a[0]);
    var kb :| 0 <= kb < |b| && Equiv(b[kb], a[0]);
    FilterNonEmpty(a, b[0]);
    var ka :| 0 <= ka < |a| && Equiv(a[ka], b[0]);
    assert EventCompare(b[0], b[kb], 0.0) <= 0 by {
      if kb > 0 {
        assert 0 < kb < |b|;
      }
    }
    assert EventCompare(a[0], a[ka], 0.0) <= 0 by {
      if ka > 0 {
        assert 0 < ka < |a|;
      }
    }
    EquivCompare(b[kb], a[0], b[0]);
    EquivCompare(a[ka], b[0], a[0]);
    ExactCompareTotalPreorder(a[0], b[0], a[0]);
    assert Filter(a, b[0])[0] == a[0];
    assert Filter(b, b[0])[0] == b[0];
  }

  lemma SameTailFilters(a: seq<Event>, b: seq<Event>)
    requires |a| > 0 && |b| > 0 && a[0] == b[0]
    requires forall c :: Filter(a, c) == Filter(b, c)
    ensures forall c :: Filter(a[1..], c) == Filter(b[1..], c)
  {
    forall c
      ensures Filter(a[1..], c) == Filter(b[1..], c)
    {
      var fa, fb := Filter(a, c), Filter(b, c);
      var h := if Equiv(a[0], c) then [a[0]] else [];
      assert fa == h + Filter(a[1..], c);
      assert fb == h + Filter(b[1..], c);
      assert Filter(a[1..], c) == fa[|h|..];
    }
  }

  /**
   * A sorted arrangement that keeps every class of equal events in a given
   * order is unique.
   */
  lemma {:induction false} SortedStableUnique(a: seq<Event>, b: seq<Event>)
    requires Sorted(a) && Sorted(b)
    requires forall c :: Filter(a, c) == Filter(b, c)
    ensures a == b
    decreases |a|
  {
    if |a| == 0 || |b| == 0 {
      // an event of the non-empty one would have an empty filter in the other
      if |a| > 0 {
        FilterOwnHead(a);
        assert false;
      } else if |b| > 0 {
        FilterOwnHead(b);
        assert false;
      }
    } else {
      SameHead(a, b);
      SameTailFilters(a, b);
      SortedStableUnique(a[1..], b[1..]);
      assert a == [a[0]] + a[1..];
      assert b == [b[0]] + b[1..];
    }
  }

  /** Under the exact comparator the choice of sort does not matter: for
      every threshold the hybrid sort returns the insertion sort's result. */
  lemma HybridEqualsInsertion(s: seq<Event>, threshold: int)
    ensures HybridRef(s, threshold, 0.0) == ISort(s, 0.0)
  {
    HybridSortedStable(s, threshold);
    ISortPermAdj(s, 0.0);
    AdjToSorted(ISort(s, 0.0));
    ISortStable(s, 0.0);
    SortedStableUnique(HybridRef(s, threshold, 0.0), ISort(s, 0.0));
  }

  /** No two events of `s` are equal under the exact comparator. */
  ghost predicate NoTies(s: seq<Event>)
  {
    forall i, j :: 0 <= i < j < |s| ==> !Equiv(s[i], s[j])
  }

  /** Without ties, two sorted permutations of one another are equal. */
  lemma {:induction false} SortedPermUnique(a: seq<Event>, b: seq<Event>)
    requires Sorted(a) && Sorted(b) && multiset(a) == multiset(b) && NoTies(a)
    ensures a == b
    decreases |a|
  {
    if |a| == 0 || |b| == 0 {
      assert |a| == |multiset(a)| == |multiset(b)| == |b|;
    } else {
      SameMinimum(a, b);
      MultisetTail(a, b);
      assert Sorted(a[1..]) && Sorted(b[1..]) && NoTies(a[1..]) by {
        TailSorted(a);
        TailSorted(b);
      }
      SortedPermUnique(a[1..], b[1..]);
      SameHeadTail(a, b);
    }
  }

  lemma SameHeadTail(a: seq<Event>, b: seq<Event>)
    requires |a| > 0 && |b| > 0 && a[0] == b[0] && a[1..] == b[1..]
    ensures a == b
  {
    assert a == [a[0]] + a[1..];
    assert b == [b[0]] + b[1..];
  }

  lemma MultisetTail(a: seq<Event>, b: seq<Event>)
    requires |a| > 0 && |b| > 0 && a[0] == b[0] && multiset(a) == multiset(b)
    ensures multiset(a[1..]) == multiset(b[1..])
  {
    assert a == [a[0]] + a[1..];
    assert b == [b[0]] + b[1..];
    var x := a[0];
    var ma, mb := multiset(a[1..]), multiset(b[1..]);
    assert multiset(a) == multiset{x} + ma;
    assert multiset(b) == multiset{x} + mb;
    assert forall e :: ma[e] == (multiset{x} + ma)[e] - multiset{x}[e];
    assert forall e :: mb[e] == (multiset{x} + mb)[e] - multiset{x}[e];
  }

  lemma TailSorted(a: seq<Event>)
    requires |a| > 0 && Sorted(a)
    ensures Sorted(a[1..])
    ensures NoTies(a) ==> NoTies(a[1..])
  {
    forall i, j | 0 <= i < j < |a[1..]|
      ensures EventCompare(a[1..][i], a[1..][j], 0.0) <= 0
    {
      assert a[1..][i] == a[i + 1] && a[1..][j] == a[j + 1];
    }
  }

  /** The head of a sorted sequence compares below every element. */
  lemma SortedFirst(s: seq<Event>, k: nat)
    requires Sorted(s) && k < |s|
    ensures EventCompare(s[0], s[k], 0.0) <= 0
  {
    if k == 0 {
      CompareMeaning(s[0], s[0], 0.0);
    }
  }

  /** Two sorted permutations without ties start with the same event. */
  lemma SameMinimum(a: seq<Event>, b: seq<Event>)
    requires Sorted(a) && Sorted(b) && multiset(a) == multiset(b) && NoTies(a)
    requires |a| > 0 && |b| > 0
    ensures a[0] == b[0]
  {
    assert a[0] in multiset(b) && b[0] in multiset(a) by {
      assert a[0] in multiset(a) && b[0] in multiset(b);
    }
    var kb :| 0 <= kb < |b| && b[kb] == a[0];
    var ka :| 0 <= ka < |a| && a[ka] == b[0];
    SortedFirst(b, kb);
    SortedFirst(a, ka);
    ExactCompareTotalPreorder(a[0], b[0], a[0]);
    assert Equiv(a[0], a[ka]);
    assert ka == 0;
  }

  lemma QsortAgrees(s: seq<Event>, q: seq<Event>, threshold: int)
    requires Sorted(q) && multiset(q) == multiset(s) && NoTies(q)
    ensures HybridRef(s, threshold, 0.0) == q
  {
    HybridSortedStable(s, threshold);
    HybridPermAdj(s, threshold, 0.0);
    SortedPermUnique(q, HybridRef(s, threshold, 0.0));
  }
}

=== FILE: events.dfy ===
/**
 * Sweep events of the visibility subsystem (src/vis.c) and their
 * comparator. Every segment contributes a START event at its start angle
 * and an END event at its end angle; events are ordered by angle, and on a
 * tied angle an END event comes before a START event.
 */
module Events {
  /** Tolerance of the event comparator (VIS_TOLERANCE). */
  const VIS_TOLERANCE: real := 0.000001

  /** TYPE_START is 0 and TYPE_END is 1 in the program. */
  datatype EventKind = Start | End

  /** An event refers to its segment by position in the segment list. */
  datatype Event = Event(angle: real, kind: EventKind, seg: nat)

  function KindCode(k: EventKind): int
  {
    match k
    case Start => 0
    case End => 1
  }

  /**
   * `visEventCompare` with the tolerance as a parameter: -1, 0 or 1 as
   * `e1` sorts before, together with, or after `e2`.
   */
  function EventCompare(e1: Event, e2: Event, tol: real): (r: int)
    ensures -1 <= r <= 1
  {
    if e1.angle < e2.angle - tol then -1
    else if e1.angle > e2.angle + tol then 1
    else if e1.kind != e2.kind then (if e1.kind == End then -1 else 1)
    else 0
  }

  /** The comparator as the program instantiates it. */
  function VisEventCompare(e1: Event, e2: Event): int
  {
    EventCompare(e1, e2, VIS_TOLERANCE)
  }

  /** Events that only the same angle and kind make equal. */
  predicate Equiv(a: Event, b: Event)
  {
    a.angle == b.angle && a.kind == b.kind
  }

  /**
   * Angles more than the tolerance apart decide the order; within the
   * tolerance END precedes START, and equal kinds compare 0.
   */
  lemma CompareMeaning(e1: Event, e2: Event, tol: real)
    requires tol >= 0.0
    ensures e1.angle < e2.angle - tol ==> EventCompare(e1, e2, tol) == -1
    ensures e1.angle > e2.angle + tol ==> EventCompare(e1, e2, tol) == 1
    ensures e2.angle - tol <= e1.angle <= e2.angle + tol ==>
              (EventCompare(e1, e2, tol) == 0 <==> e1.kind == e2.kind)
              && (e1.kind == End && e2.kind == Start ==> EventCompare(e1, e2, tol) == -1)
              && (e1.kind == Start && e2.kind == End ==> EventCompare(e1, e2, tol) == 1)
  {
  }

  /** With a non-negative tolerance the comparator is antisymmetric. */
  lemma CompareAntisymmetric(e1: Event, e2: Event, tol: real)
    requires tol >= 0.0
    ensures EventCompare(e1, e2, tol) == -EventCompare(e2, e1, tol)
  {
  }

  /** With tolerance 0 the comparator is a total preorder whose ties are
      exactly the events with the same angle and kind. */
  lemma ExactCompareTotalPreorder(a: Event, b: Event, c: Event)
    ensures EventCompare(a, b, 0.0) <= 0 || EventCompare(b, a, 0.0) <= 0
    ensures EventCompare(a, b, 0.0) <= 0 && EventCompare(b, c, 0.0) <= 0 ==> EventCompare(a, c, 0.0) <= 0
    ensures EventCompare(a, b, 0.0) == 0 <==> Equiv(a, b)
  {
  }

  /**
   * With the program's tolerance the "compares 0" relation is not
   * transitive: three events a tolerance apart in turn.
   */
  lemma ToleranceNotTransitive()
    ensures var a := Event(0.0, Start, 0);
            var b := Event(VIS_TOLERANCE, Start, 1);
            var c := Event(2.0 * VIS_TOLERANCE, Start, 2);
            VisEventCompare(a, b) == 0 && VisEventCompare(b, c) == 0 && VisEventCompare(a, c) == -1
  {
  }

  /** A tie under the exact comparator depends on the class only. */
  lemma EquivCompare(a: Event, a': Event, b: Event)
    requires Equiv(a, a')
    ensures EventCompare(a, b, 0.0) == EventCompare(a', b, 0.0)
    ensures EventCompare(b, a, 0.0) == EventCompare(b, a', 0.0)
  {
  }
}

=== FILE: figures.dfy ===
/**
 * The tagged-union shape type of src/figure.c. A `Figure` handle is
 * `Option<Figure>`: `None` is the NULL handle, on which every operation is
 * a no-op or returns its documented default. Setters and mutators return
 * the updated figure instead of writing through the handle.
 */
module Figures {
  import opened Common
  import opened Geom

  const CIRCLE: int := 1
  const RECTANGLE: int := 2
  const LINE: int := 3
  const TEXT: int := 4

  /** The program's own approximation of π, used by `figureArea` only. */
  const FIG_PI: real := 3.14159

  datatype Figure =
    | Circle(id: int, x: real, y: real, radius: real, colorB: string, colorF: string)
    | Rectangle(id: int, x: real, y: real, w: real, h: real, colorB: string, colorF: string)
    | Line(id: int, x1: real, y1: real, x2: real, y2: real, color: string)
    | Text(id: int, x: real, y: real, colorB: string, colorF: string, anchor: char,
           txt: string, family: string, weight: string, size: int)

  function ShapeCode(f: Figure): int
  {
    match f
    case Circle(_, _, _, _, _, _) => CIRCLE
    case Rectangle(_, _, _, _, _, _, _) => RECTANGLE
    case Line(_, _, _, _, _, _) => LINE
    case Text(_, _, _, _, _, _, _, _, _, _) => TEXT
  }

  /**
   * `figureInit`: a figure of the requested shape, or NULL for any other
   * code. The fresh form's fields are indeterminate in the program; the
   * model fills them with zeros and empty strings.
   */
  function FigureInit(shape: int): (f: Option<Figure>)
    ensures f.Some? <==> shape == CIRCLE || shape == RECTANGLE || shape == LINE || shape == TEXT
    ensures f.Some? ==> GetFigureShape(f) == shape
  {
    if shape == CIRCLE then Some(Circle(0, 0.0, 0.0, 0.0, "", ""))
    else if shape == RECTANGLE then Some(Rectangle(0, 0.0, 0.0, 0.0, 0.0, "", ""))
    else if shape == LINE then Some(Line(0, 0.0, 0.0, 0.0, 0.0, ""))
    else if shape == TEXT then Some(Text(0, 0.0, 0.0, "", "", '\0', "", "", "", 0))
    else None
  }

  // ---------------------------------------------------------------------
  // Accessors (NULL and wrong-shape defaults as in the program). The
  // getters that write through out-pointers take the pointees' previous
  // values and return them unchanged where the program does not write.
  // ---------------------------------------------------------------------

  /** `getFigureShape`: 0 for NULL. */
  function GetFigureShape(f: Option<Figure>): int
  {
    if f.None? then 0 else ShapeCode(f.value)
  }

  /** `getFigureType`: -1 for NULL. */
  function GetFigureType(f: Option<Figure>): int
  {
    if f.None? then -1 else ShapeCode(f.value)
  }

  /** `getFigureId`: -1 for NULL. */
  function GetFigureId(f: Option<Figure>): int
  {
    if f.None? then -1 else f.value.id
  }

  /** `getFigureXY`: the reference point; the first endpoint of a line. */
  function GetFigureXY(f: Option<Figure>, x0: real, y0: real): (real, real)
  {
    match f
    case None => (x0, y0)
    case Some(Line(_, x1, y1, _, _, _)) => (x1, y1)
    case Some(g) => (g.x, g.y)
  }

  /** `getFigureColors`: (border, fill); a line gives its colour and "". */
  function GetFigureColors(f: Option<Figure>, b0: string, f0: string): (string, string)
  {
    match f
    case None => (b0, f0)
    case Some(Line(_, _, _, _, _, c)) => (c, "")
    case Some(g) => (g.colorB, g.colorF)
  }

  /** `getCircleR`: 0 unless the figure is a circle. */
  function GetCircleR(f: Option<Figure>): real
  {
    if f.Some? && f.value.Circle? then f.value.radius else 0.0
  }

  /** `getRectangleWH`: writes only for a rectangle. */
  function GetRectangleWH(f: Option<Figure>, w0: real, h0: real): (real, real)
  {
    if f.Some? && f.value.Rectangle? then (f.value.w, f.value.h) else (w0, h0)
  }

  /** `getLineP`: writes only for a line. */
  function GetLineP(f: Option<Figure>, x10: real, y10: real, x20: real, y20: real): (real, real, real, real)
  {
    if f.Some? && f.value.Line? then (f.value.x1, f.value.y1, f.value.x2, f.value.y2)
    else (x10, y10, x20, y20)
  }

  /** `getTextA`: '\0' unless the figure is a text. */
  function GetTextA(f: Option<Figure>): char
  {
    if f.Some? && f.value.Text? then f.value.anchor else '\0'
  }

  /** `getTextTXT`: writes only for a text. */
  function GetTextTxt(f: Option<Figure>, t0: string): string
  {
    if f.Some? && f.value.Text? then f.value.txt else t0
  }

  /** `getTextWgt`: writes only for a text. */
  function GetTextWeight(f: Option<Figure>, w0: string): string
  {
    if f.Some? && f.value.Text? then f.value.weight else w0
  }

  /** `getTextFml`: writes only for a text. */
  function GetTextFamily(f: Option<Figure>, m0: string): string
  {
    if f.Some? && f.value.Text? then f.value.family else m0
  }

  /** `getTextSize`: 0 unless the figure is a text. */
  function GetTextSize(f: Option<Figure>): int
  {
    if f.Some? && f.value.Text? then f.value.size else 0
  }

  /** The defaults every accessor falls back to on a NULL handle. */
  lemma NullDefaults(x0: real, y0: real, b0: string, f0: string)
    ensures GetFigureShape(None) == 0 && GetFigureType(None) == -1 && GetFigureId(None) == -1
    ensures GetFigureXY(None, x0, y0) == (x0, y0)
    ensures GetFigureColors(None, b0, f0) == (b0, f0)
    ensures GetCircleR(None) == 0.0 && GetTextA(None) == '\0' && GetTextSize(None) == 0
  {
  }

  /** On a live figure, the shape code is one of the four and the type agrees with it. */
  lemma ShapeOfLiveFigure(f: Option<Figure>)
    requires f.Some?
    ensures GetFigureShape(f) in {CIRCLE, RECTANGLE, LINE, TEXT}
    ensures GetFigureType(f) == GetFigureShape(f)
  {
  }

  // ---------------------------------------------------------------------
  // Setters: each is a no-op on NULL or on a figure of another shape, and
  // otherwise every accessor afterwards reports exactly the values given.
  // ---------------------------------------------------------------------

  function SetCircle(f: Option<Figure>, id: int, x: real, y: real, r: real,
                     colorB: string, colorF: string): (res: Option<Figure>)
    ensures GetFigureShape(res) == GetFigureShape(f)
    ensures GetFigureShape(f) != CIRCLE ==> res == f
    ensures GetFigureShape(f) == CIRCLE ==>
              GetFigureId(res) == id && GetFigureXY(res, 0.0, 0.0) == (x, y)
              && GetCircleR(res) == r && GetFigureColors(res, "", "") == (colorB, colorF)
  {
    if f.Some? && f.value.Circle? then Some(Circle(id, x, y, r, colorB, colorF)) else f
  }

  function SetRectangle(f: Option<Figure>, id: int, x: real, y: real, w: real, h: real,
                        colorB: string, colorF: string): (res: Option<Figure>)
    ensures GetFigureShape(res) == GetFigureShape(f)
    ensures GetFigureShape(f) != RECTANGLE ==> res == f
    ensures GetFigureShape(f) == RECTANGLE ==>
              GetFigureId(res) == id && GetFigureXY(res, 0.0, 0.0) == (x, y)
              && GetRectangleWH(res, 0.0, 0.0) == (w, h)
              && GetFigureColors(res, "", "") == (colorB, colorF)
  {
    if f.Some? && f.value.Rectangle? then Some(Rectangle(id, x, y, w, h, colorB, colorF)) else f
  }

  function SetLine(f: Option<Figure>, id: int, x1: real, y1: real, x2: real, y2: real,
                   color: string): (res: Option<Figure>)
    ensures GetFigureShape(res) == GetFigureShape(f)
    ensures GetFigureShape(f) != LINE ==> res == f
    ensures GetFigureShape(f) == LINE ==>
              GetFigureId(res) == id && GetLineP(res, 0.0, 0.0, 0.0, 0.0) == (x1, y1, x2, y2)
              && GetFigureColors(res, "", "") == (color, "")
  {
    if f.Some? && f.value.Line? then Some(Line(id, x1, y1, x2, y2, color)) else f
  }

  function SetText(f: Option<Figure>, id: int, x: real, y: real, colorB: string, colorF: string,
                   anchor: char, txt: string, family: string, weight: string, size: int): (res: Option<Figure>)
    ensures GetFigureShape(res) == GetFigureShape(f)
    ensures GetFigureShape(f) != TEXT ==> res == f
    ensures GetFigureShape(f) == TEXT ==>
              GetFigureId(res) == id && GetFigureXY(res, 0.0, 0.0) == (x, y)
              && GetFigureColors(res, "", "") == (colorB, colorF) && GetTextA(res) == anchor
              && GetTextTxt(res, "") == txt && GetTextFamily(res, "") == family
              && GetTextWeight(res, "") == weight && GetTextSize(res) == size
  {
    if f.Some? && f.value.Text? then
      Some(Text(id, x, y, colorB, colorF, anchor, txt, family, weight, size))
    else f
  }

  // ---------------------------------------------------------------------
  // Clone, move, area
  // ---------------------------------------------------------------------

  /** `fClone`: a fresh figure of the same shape, filled through the setter. */
  function FClone(f: Option<Figure>): (c: Option<Figure>)
    ensures c == f
  {
    if f.None? then None
    else
      var n := FigureInit(ShapeCode(f.value));
      match f.value
      case Circle(id, x, y, r, b, fc) => SetCircle(n, id, x, y, r, b, fc)
      case Rectangle(id, x, y, w, h, b, fc) => SetRectangle(n, id, x, y, w, h, b, fc)
      case Line(id, x1, y1, x2, y2, c) => SetLine(n, id, x1, y1, x2, y2, c)
      case Text(id, x, y, b, fc, a, t, fm, wg, sz) => SetText(n, id, x, y, b, fc, a, t, fm, wg, sz)
  }

  /**
   * What no mutator of position or colour touches: shape, id, radius,
   * width and height, and the text's anchor, content, font and size.
   */
  predicate SameBody(a: Option<Figure>, b: Option<Figure>)
  {
    GetFigureShape(a) == GetFigureShape(b) && GetFigureId(a) == GetFigureId(b)
    && GetCircleR(a) == GetCircleR(b) && GetRectangleWH(a, 0.0, 0.0) == GetRectangleWH(b, 0.0, 0.0)
    && GetTextA(a) == GetTextA(b) && GetTextTxt(a, "") == GetTextTxt(b, "")
    && GetTextFamily(a, "") == GetTextFamily(b, "") && GetTextWeight(a, "") == GetTextWeight(b, "")
    && GetTextSize(a) == GetTextSize(b)
  }

  /**
   * `fMoveTo`: the reference point moves to (x, y); a line is translated
   * as a whole, so its direction vector is kept.
   */
  function FMoveTo(f: Option<Figure>, x: real, y: real): (r: Option<Figure>)
    ensures r.None? <==> f.None?
    ensures r.Some? ==> GetFigureXY(r, 0.0, 0.0) == (x, y)
    ensures SameBody(r, f) && GetFigureColors(r, "", "") == GetFigureColors(f, "", "")
    ensures r.Some? && r.value.Line? ==>
              r.value.x2 - r.value.x1 == f.value.x2 - f.value.x1
              && r.value.y2 - r.value.y1 == f.value.y2 - f.value.y1
  {
    match f
    case None => None
    case Some(Line(id, x1, y1, x2, y2, c)) =>
      var dx, dy := x - x1, y - y1;
      Some(Line(id, x, y, x2 + dx, y2 + dy, c))
    case Some(Circle(id, _, _, rad, b, fc)) => Some(Circle(id, x, y, rad, b, fc))
    case Some(Rectangle(id, _, _, w, h, b, fc)) => Some(Rectangle(id, x, y, w, h, b, fc))
    case Some(Text(id, _, _, b, fc, a, t, fm, wg, sz)) => Some(Text(id, x, y, b, fc, a, t, fm, wg, sz))
  }

  /**
   * `figureArea`: -1 for NULL; π·r² with the program's π for a circle, w·h
   * for a rectangle, twice the length for a line, and 20 per character for
   * a text.
   */
  function FigureArea(m: MathLib, f: Option<Figure>): (a: real)
    ensures f.None? ==> a == -1.0
    ensures f.Some? && f.value.Circle? ==> a >= 0.0 && (a == 0.0 <==> f.value.radius == 0.0)
    ensures f.Some? && f.value.Circle? ==> a == FIG_PI * f.value.radius * f.value.radius
    ensures f.Some? && f.value.Rectangle? ==> a == f.value.w * f.value.h
    ensures f.Some? && f.value.Line? ==>
              a == 2.0 * m.sqrt(DistSq(f.value.x1, f.value.y1, f.value.x2, f.value.y2))
    ensures f.Some? && f.value.Text? ==> a == 20.0 * |f.value.txt| as real
  {
    match f
    case None => -1.0
    case Some(Circle(_, _, _, r, _, _)) =>
      SquareSign(r);
      FIG_PI * Sq(r)
    case Some(Rectangle(_, _, _, w, h, _, _)) => h * w
    case Some(Line(_, x1, y1, x2, y2, _)) =>
      var dx, dy := x2 - x1, y2 - y1;
      assert Sq(x1 - x2) == dx * dx && Sq(y1 - y2) == dy * dy;
      2.0 * m.sqrt(dx * dx + dy * dy)
    case Some(Text(_, _, _, _, _, _, t, _, _, _)) => 20.0 * (|t| as real)
  }

  // ---------------------------------------------------------------------
  // Hex colours: `getComplementaryColor`
  // ---------------------------------------------------------------------

  predicate IsHexDigit(c: char)
  {
    '0' <= c <= '9' || 'a' <= c <= 'f' || 'A' <= c <= 'F'
  }

  function HexValue(c: char): (v: nat)
    requires IsHexDigit(c)
    ensures v < 16
  {
    if '0' <= c <= '9' then (c - '0') as nat
    else if 'a' <= c <= 'f' then (c - 'a') as nat + 10
    else (c - 'A') as nat + 10
  }

  /** The lower-case digit `%x` prints. */
  function HexDigit(v: nat): (c: char)
    requires v < 16
    ensures IsHexDigit(c) && HexValue(c) == v
  {
    if v < 10 then '0' + v as char else 'a' + (v - 10) as char
  }

  /**
   * One `%02x` conversion: one or two hex digits, as many as are there.
   * Gives the value and the number of characters consumed.
   */
  function ScanHexField(s: string): (r: Option<(nat, nat)>)
    ensures r.Some? ==> r.value.0 < 256 && 1 <= r.value.1 <= 2 && r.value.1 <= |s|
  {
    if |s| == 0 || !IsHexDigit(s[0]) then None
    else if |s| >= 2 && IsHexDigit(s[1]) then Some((16 * HexValue(s[0]) + HexValue(s[1]), 2))
    else Some((HexValue(s[0]), 1))
  }

  /** `sscanf(s, "%02x%02x%02x", ...)` succeeding with three conversions. */
  function ScanRgb(s: string): (r: Option<(nat, nat, nat)>)
    ensures r.Some? ==> r.value.0 < 256 && r.value.1 < 256 && r.value.2 < 256
  {
    match ScanHexField(s)
    case None => None
    case Some((rv, n1)) =>
      match ScanHexField(s[n1..])
      case None => None
      case Some((gv, n2)) =>
        match ScanHexField(s[n1 + n2..])
        case None => None
        case Some((bv, _)) => Some((rv, gv, bv))
  }

  function Hex2(v: nat): (s: string)
    requires v < 256
    ensures |s| == 2
  {
    [HexDigit(v / 16), HexDigit(v % 16)]
  }

  /** `sprintf(out, "#%02x%02x%02x", r, g, b)`. */
  function FormatColor(r: nat, g: nat, b: nat): (s: string)
    requires r < 256 && g < 256 && b < 256
    ensures |s| == 7 && s[0] == '#'
  {
    "#" + Hex2(r) + Hex2(g) + Hex2(b)
  }

  /** The text after an optional leading '#'. */
  function StripHash(hex: string): (s: string)
    ensures |hex| > 0 && hex[0] == '#' ==> s == hex[1..]
    ensures !(|hex| > 0 && hex[0] == '#') ==> s == hex
  {
    if |hex| > 0 && hex[0] == '#' then hex[1..] else hex
  }

  function ComplementOf(c: (nat, nat, nat)): (s: string)
    requires c.0 < 256 && c.1 < 256 && c.2 < 256
  {
    FormatColor(255 - c.0, 255 - c.1, 255 - c.2)
  }

  /**
   * `getComplementaryColor` as the program writes it: the length test is on
   * the text after an optional '#', but the scan always starts at the second
   * character, whether or not the first one is a '#'.
   */
  function ComplementAsWritten(hex: string): (r: Option<string>)
    ensures r.Some? ==> |StripHash(hex)| == 6 && |r.value| == 7 && r.value[0] == '#'
  {
    if |StripHash(hex)| != 6 then None
    else
      match ScanRgb(hex[1..])
      case None => None
      case Some(c) => Some(ComplementOf(c))
  }

  /**
   * `getComplementaryColor` as intended: the scan starts after the optional
   * '#'. `None` is the return value 0; otherwise the complementary colour
   * in the `#rrggbb` form.
   */
  function Complement(hex: string): (r: Option<string>)
    ensures r.Some? <==> |StripHash(hex)| == 6 && ScanRgb(StripHash(hex)).Some?
    ensures r.Some? ==> |r.value| == 7 && r.value[0] == '#'
  {
    if |StripHash(hex)| != 6 then None
    else
      match ScanRgb(StripHash(hex))
      case None => None
      case Some(c) => Some(ComplementOf(c))
  }

  lemma HexDigitsRoundTrip(v: nat)
    requires v < 256
    ensures ScanHexField(Hex2(v)) == Some((v, 2))
  {
    assert 16 * (v / 16) + v % 16 == v;
  }

  /** Scanning a printed colour gives back its three channels. */
  lemma {:induction false} FormatScanRoundTrip(r: nat, g: nat, b: nat)
    requires r < 256 && g < 256 && b < 256
    ensures ScanRgb(FormatColor(r, g, b)[1..]) == Some((r, g, b))
  {
    var s := FormatColor(r, g, b)[1..];
    assert s == Hex2(r) + Hex2(g) + Hex2(b);
    HexDigitsRoundTrip(r);
    HexDigitsRoundTrip(g);
    HexDigitsRoundTrip(b);
    assert s[..2] == Hex2(r);
    assert ScanHexField(s) == ScanHexField(Hex2(r));
    assert s[2..] == Hex2(g) + Hex2(b);
    assert ScanHexField(s[2..]) == ScanHexField(Hex2(g));
    assert s[4..] == Hex2(b);
  }

  /**
   * On success every channel of the result is 255 minus the channel that
   * was read from the input.
   */
  lemma ComplementChannels(hex: string)
    requires Complement(hex).Some?
    ensures var c := ScanRgb(StripHash(hex)).value;
            ScanRgb(Complement(hex).value[1..]) == Some((255 - c.0, 255 - c.1, 255 - c.2))
  {
    var c := ScanRgb(StripHash(hex)).value;
    FormatScanRoundTrip(255 - c.0, 255 - c.1, 255 - c.2);
  }

  /** The complement of a printed colour is the colour with every channel taken from 255. */
  lemma ComplementOfPrinted(r: nat, g: nat, b: nat)
    requires r < 256 && g < 256 && b < 256
    ensures Complement(FormatColor(r, g, b)) == Some(FormatColor(255 - r, 255 - g, 255 - b))
  {
    var s := FormatColor(r, g, b);
    FormatScanRoundTrip(r, g, b);
    assert StripHash(s) == s[1..];
    ComplementOfScanned(s, (r, g, b));
  }

  /** Whatever the text, once its six digits scan to `c` the result is the complement of `c`. */
  lemma ComplementOfScanned(hex: string, c: (nat, nat, nat))
    requires |StripHash(hex)| == 6 && ScanRgb(StripHash(hex)) == Some(c)
    ensures c.0 < 256 && c.1 < 256 && c.2 < 256
    ensures Complement(hex) == Some(FormatColor(255 - c.0, 255 - c.1, 255 - c.2))
  {
  }

  /** Complementing a printed colour twice gives it back. */
  lemma ComplementInvolution(r: nat, g: nat, b: nat)
    requires r < 256 && g < 256 && b < 256
    ensures Complement(FormatColor(r, g, b)) == Some(FormatColor(255 - r, 255 - g, 255 - b))
    ensures Complement(FormatColor(255 - r, 255 - g, 255 - b)) == Some(FormatColor(r, g, b))
  {
    ComplementOfPrinted(r, g, b);
    ComplementOfPrinted(255 - r, 255 - g, 255 - b);
  }

  /** With a leading '#' the program's scan is the intended one. */
  lemma AsWrittenAgreesAfterHash(hex: string)
    requires |hex| > 0 && hex[0] == '#'
    ensures ComplementAsWritten(hex) == Complement(hex)
  {
  }

  /**
   * Without the '#', the program scans from the second digit: for "ff0000"
   * it reads the channels f0, 00, 0 and prints "#0fffff", where the
   * complement is "#00ffff".
   */
  lemma AsWrittenSkipsFirstDigit()
    ensures ComplementAsWritten("ff0000") == Some("#0fffff")
    ensures Complement("ff0000") == Some("#00ffff")
  {
    assert StripHash("ff0000") == "ff0000";
    var s := "ff0000"[1..];
    assert s == "f0000";
    assert ScanHexField(s) == Some((240, 2));
    assert s[2..] == "000";
    assert ScanHexField(s[2..]) == Some((0, 2));
    assert s[4..] == "0";
    assert ScanHexField(s[4..]) == Some((0, 1));
    assert ScanRgb(s) == Some((240, 0, 0));
    assert FormatColor(15, 255, 255) == "#0fffff";
    var t := "ff0000";
    assert ScanHexField(t) == Some((255, 2));
    assert t[2..] == "0000";
    assert ScanHexField(t[2..]) == Some((0, 2));
    assert t[4..] == "00";
    assert ScanHexField(t[4..]) == Some((0, 2));
    assert ScanRgb(t) == Some((255, 0, 0));
    assert FormatColor(0, 255, 255) == "#00ffff";
  }

  // ---------------------------------------------------------------------
  // Colour inversion and recolouring
  // ---------------------------------------------------------------------

  /**
   * `figureInvertColors`: border and fill are swapped for circles,
   * rectangles and texts; a line takes the complement of its colour when
   * that colour can be read, and keeps it otherwise.
   */
  function InvertColors(f: Option<Figure>): (r: Option<Figure>)
    ensures r.None? <==> f.None?
    ensures SameBody(r, f) && GetFigureXY(r, 0.0, 0.0) == GetFigureXY(f, 0.0, 0.0)
    ensures GetLineP(r, 0.0, 0.0, 0.0, 0.0) == GetLineP(f, 0.0, 0.0, 0.0, 0.0)
    ensures r.Some? && !f.value.Line? ==>
              GetFigureColors(r, "", "") == (f.value.colorF, f.value.colorB)
    ensures r.Some? && f.value.Line? && Complement(f.value.color).None? ==> r == f
    ensures r.Some? && f.value.Line? && Complement(f.value.color).Some? ==>
              r.value.color == Complement(f.value.color).value
  {
    match f
    case None => None
    case Some(Line(id, x1, y1, x2, y2, c)) =>
      var com := Complement(c);
      if com.Some? then Some(Line(id, x1, y1, x2, y2, com.value)) else f
    case Some(Circle(id, x, y, rad, b, fc)) => Some(Circle(id, x, y, rad, fc, b))
    case Some(Rectangle(id, x, y, w, h, b, fc)) => Some(Rectangle(id, x, y, w, h, fc, b))
    case Some(Text(id, x, y, b, fc, a, t, fm, wg, sz)) => Some(Text(id, x, y, fc, b, a, t, fm, wg, sz))
  }

  /** A line colour in the printed `#rrggbb` form. */
  predicate PrintedColor(c: string)
  {
    exists r: nat, g: nat, b: nat :: r < 256 && g < 256 && b < 256 && c == FormatColor(r, g, b)
  }

  /**
   * Inverting twice restores a circle, rectangle or text, and a line whose
   * colour is in the printed `#rrggbb` form.
   */
  lemma InvertTwice(f: Option<Figure>)
    requires f.Some? && f.value.Line? ==> PrintedColor(f.value.color)
    ensures InvertColors(InvertColors(f)) == f
  {
    if f.Some? && f.value.Line? {
      var r: nat, g: nat, b: nat :| r < 256 && g < 256 && b < 256 && f.value.color == FormatColor(r, g, b);
      ComplementInvolution(r, g, b);
    }
  }

  /** `putFigureColor`: a line takes only the border colour. */
  function PutFigureColor(f: Option<Figure>, colorB: string, colorF: string): (r: Option<Figure>)
    ensures r.None? <==> f.None?
    ensures SameBody(r, f) && GetFigureXY(r, 0.0, 0.0) == GetFigureXY(f, 0.0, 0.0)
    ensures GetLineP(r, 0.0, 0.0, 0.0, 0.0) == GetLineP(f, 0.0, 0.0, 0.0, 0.0)
    ensures r.Some? && !f.value.Line? ==> GetFigureColors(r, "", "") == (colorB, colorF)
    ensures r.Some? && f.value.Line? ==> GetFigureColors(r, "", "") == (colorB, "")
  {
    match f
    case None => None
    case Some(Line(id, x1, y1, x2, y2, _)) => Some(Line(id, x1, y1, x2, y2, colorB))
    case Some(Circle(id, x, y, rad, _, _)) => Some(Circle(id, x, y, rad, colorB, colorF))
    case Some(Rectangle(id, x, y, w, h, _, _)) => Some(Rectangle(id, x, y, w, h, colorB, colorF))
    case Some(Text(id, x, y, _, _, a, t, fm, wg, sz)) => Some(Text(id, x, y, colorB, colorF, a, t, fm, wg, sz))
  }

  // ---------------------------------------------------------------------
  // Text extent: `getTextP`
  // ---------------------------------------------------------------------

  /**
   * `getTextP`: the horizontal extent of a text at 10 units per character,
   * placed by its anchor ('i' start, 'm' middle, anything else end). The
   * half width is the C integer division `10 * len / 2`.
   */
  function GetTextP(f: Option<Figure>, d: (real, real, real, real)): (r: (real, real, real, real))
    ensures !(f.Some? && f.value.Text?) ==> r == d
    ensures f.Some? && f.value.Text? ==>
              r.1 == f.value.y && r.3 == f.value.y
              && r.2 - r.0 == 10.0 * |f.value.txt| as real
              && (f.value.anchor == 'i' ==> r.0 == f.value.x)
              && (f.value.anchor == 'm' ==> r.0 + r.2 == 2.0 * f.value.x)
              && (f.value.anchor != 'i' && f.value.anchor != 'm' ==> r.2 == f.value.x)
  {
    if f.Some? && f.value.Text? then
      var t := f.value;
      var len := |t.txt|;
      var anchor := GetTextA(f);
      if anchor == 'i' then (t.x, t.y, t.x + (10 * len) as real, t.y)
      else if anchor == 'm' then
        var half := (10 * len) / 2;
        HalfOfTens(len);
        (t.x - half as real, t.y, t.x + half as real, t.y)
      else (t.x - (10 * len) as real, t.y, t.x, t.y)
    else d
  }

  /** The integer halving of `10 * len` is exact. */
  lemma HalfOfTens(len: int)
    ensures (10 * len) / 2 == 5 * len
  {
    assert 10 * len == 2 * (5 * len);
  }
}

=== FILE: geo.dfy ===
/**
 * The `.geo` scene reader of src/geo.c. Each line holds one command:
 * `c`, `r`, `l` and `t` describe a circle, a rectangle, a line and a
 * text; `ts` sets the text style that later texts are stamped with. The
 * accepted figures are enqueued in file order on the figure queue.
 */
module GeoParse {
  import opened Common
  import opened Figures
  import opened Scanf
  import FifoQueue

  /** The current text style: font family, weight and size. */
  datatype Ts = Ts(family: string, weight: string, size: int)

  /** `tsInit`: the style in force before any `ts` line. */
  function TsInit(): Ts
  {
    Ts("Arial", "n", 12)
  }

  const CIRCLE_FMT: Format := Format("c", [CInt, CReal, CReal, CReal, CStr, CStr])
  const RECTANGLE_FMT: Format := Format("r", [CInt, CReal, CReal, CReal, CReal, CStr, CStr])
  const LINE_FMT: Format := Format("l", [CInt, CReal, CReal, CReal, CReal, CStr])
  const TEXT_FMT: Format := Format("t", [CInt, CReal, CReal, CStr, CStr, CChar, CRest])
  const TS_FMT: Format := Format("ts", [CStr, CStr, CInt])
  const WORD_FMT: Format := Format("", [CStr])

  /** `processCircle`: a circle when all six fields convert. */
  function ProcessCircle(ns: NumSyntax, line: string): (f: Option<Figure>)
    ensures f.Some? <==> |Scan(ns, CIRCLE_FMT, line)| == 6
    ensures f.Some? ==>
              var v := Scan(ns, CIRCLE_FMT, line);
              f.value == Circle(IntOf(v[0]), RealOf(v[1]), RealOf(v[2]), RealOf(v[3]), StrOf(v[4]), StrOf(v[5]))
  {
    var v := Scan(ns, CIRCLE_FMT, line);
    if |v| == 6 then SetCircle(FigureInit(CIRCLE), IntOf(v[0]), RealOf(v[1]), RealOf(v[2]), RealOf(v[3]), StrOf(v[4]), StrOf(v[5]))
    else None
  }

  /** `processRectangle`: a rectangle when all seven fields convert. */
  function ProcessRectangle(ns: NumSyntax, line: string): (f: Option<Figure>)
    ensures f.Some? <==> |Scan(ns, RECTANGLE_FMT, line)| == 7
    ensures f.Some? ==>
              var v := Scan(ns, RECTANGLE_FMT, line);
              f.value == Rectangle(IntOf(v[0]), RealOf(v[1]), RealOf(v[2]), RealOf(v[3]), RealOf(v[4]), StrOf(v[5]), StrOf(v[6]))
  {
    var v := Scan(ns, RECTANGLE_FMT, line);
    if |v| == 7 then
      SetRectangle(FigureInit(RECTANGLE), IntOf(v[0]), RealOf(v[1]), RealOf(v[2]), RealOf(v[3]), RealOf(v[4]), StrOf(v[5]), StrOf(v[6]))
    else None
  }

  /** `processLine`: a line when all six fields convert. */
  function ProcessLine(ns: NumSyntax, line: string): (f: Option<Figure>)
    ensures f.Some? <==> |Scan(ns, LINE_FMT, line)| == 6
    ensures f.Some? ==>
              var v := Scan(ns, LINE_FMT, line);
              f.value == Line(IntOf(v[0]), RealOf(v[1]), RealOf(v[2]), RealOf(v[3]), RealOf(v[4]), StrOf(v[5]))
  {
    var v := Scan(ns, LINE_FMT, line);
    if |v| == 6 then SetLine(FigureInit(LINE), IntOf(v[0]), RealOf(v[1]), RealOf(v[2]), RealOf(v[3]), RealOf(v[4]), StrOf(v[5]))
    else None
  }

  /**
   * `processText`: a text when all seven fields convert. The anchor is the
   * first visible character after the colours and the text is the rest of
   * the line after it; the font comes from the current style.
   */
  function ProcessText(ns: NumSyntax, line: string, t: Ts): (f: Option<Figure>)
    ensures f.Some? <==> |Scan(ns, TEXT_FMT, line)| == 7
    ensures f.Some? ==>
              var v := Scan(ns, TEXT_FMT, line);
              f.value == Text(IntOf(v[0]), RealOf(v[1]), RealOf(v[2]), StrOf(v[3]), StrOf(v[4]), CharOf(v[5]), StrOf(v[6]), t.family, t.weight, t.size)
  {
    var v := Scan(ns, TEXT_FMT, line);
    if |v| == 7 then
      SetText(FigureInit(TEXT), IntOf(v[0]), RealOf(v[1]), RealOf(v[2]), StrOf(v[3]), StrOf(v[4]), CharOf(v[5]), StrOf(v[6]),
              t.family, t.weight, t.size)
    else None
  }

  /** `processTs`: the style changes only when family, weight and size all convert. */
  function ProcessTs(ns: NumSyntax, line: string, t: Ts): (r: Ts)
    ensures |Scan(ns, TS_FMT, line)| != 3 ==> r == t
    ensures |Scan(ns, TS_FMT, line)| == 3 ==>
              var v := Scan(ns, TS_FMT, line);
              r == Ts(StrOf(v[0]), StrOf(v[1]), IntOf(v[2]))
  {
    var v := Scan(ns, TS_FMT, line);
    if |v| != 3 then t else Ts(StrOf(v[0]), StrOf(v[1]), IntOf(v[2]))
  }

  /** The line up to its first CR or LF, where the program ends the string. */
  function StripCrLf(line: string): (s: string)
    ensures |s| <= |line| && s == line[..|s|] && '\r' !in s && '\n' !in s
    ensures |s| < |line| ==> line[|s|] == '\r' || line[|s|] == '\n'
  {
    if |line| > 0 && line[0] != '\r' && line[0] != '\n' then [line[0]] + StripCrLf(line[1..]) else []
  }

  /** The command word of a stripped line, if it has one. */
  function Command(ns: NumSyntax, line: string): (c: Option<string>)
    ensures c.Some? ==> IsWord(c.value)
  {
    var v := Scan(ns, WORD_FMT, line);
    if |v| == 1 then Some(StrOf(v[0])) else None
  }

  /** The figure a stripped line describes, if any. */
  function LineFigure(ns: NumSyntax, line: string, t: Ts): (f: Option<Figure>)
    ensures f.Some? ==> Command(ns, line).Some?
    ensures f.Some? ==> Command(ns, line).value == "c" ==> f.value.Circle?
    ensures f.Some? ==> Command(ns, line).value == "r" ==> f.value.Rectangle?
    ensures f.Some? ==> Command(ns, line).value == "l" ==> f.value.Line?
    ensures f.Some? ==> Command(ns, line).value == "t" ==> f.value.Text?
    ensures f.Some? ==> Command(ns, line).value in {"c", "r", "l", "t"}
  {
    match Command(ns, line)
    case None => None
    case Some(c) =>
      if c == "c" then ProcessCircle(ns, line)
      else if c == "r" then ProcessRectangle(ns, line)
      else if c == "l" then ProcessLine(ns, line)
      else if c == "t" then ProcessText(ns, line, t)
      else None
  }

  /**
   * `parseGeoLine` as the program writes it: on a `ts` command the style
   * parser is handed the command word rather than the line.
   */
  function ParseGeoLineAsWritten(ns: NumSyntax, raw: string, t: Ts): (r: (Option<Figure>, Ts))
    ensures r.0 == LineFigure(ns, StripCrLf(raw), t)
  {
    var line := StripCrLf(raw);
    var c := Command(ns, line);
    if c == Some("ts") then (None, ProcessTs(ns, c.value, t))
    else (LineFigure(ns, line, t), t)
  }

  /**
   * `parseGeoLine` as intended: the style parser reads the line. The
   * figure, if any, comes from a `c`, `r`, `l` or `t` line; only a `ts`
   * line can change the style.
   */
  function ParseGeoLine(ns: NumSyntax, raw: string, t: Ts): (r: (Option<Figure>, Ts))
    ensures r.0 == LineFigure(ns, StripCrLf(raw), t)
    ensures r.1 != t ==> Command(ns, StripCrLf(raw)) == Some("ts")
    ensures Command(ns, StripCrLf(raw)) == Some("ts") ==> r.1 == ProcessTs(ns, StripCrLf(raw), t)
  {
    var line := StripCrLf(raw);
    var c := Command(ns, line);
    if c == Some("ts") then (None, ProcessTs(ns, line, t))
    else (LineFigure(ns, line, t), t)
  }

  /** As written, no line ever changes the style. */
  lemma TsNeverApplies(ns: NumSyntax, raw: string, t: Ts)
    ensures ParseGeoLineAsWritten(ns, raw, t).1 == t
  {
    var c := Command(ns, StripCrLf(raw));
    if c == Some("ts") {
      ScanLiteralOnly(ns, TS_FMT);
      assert ProcessTs(ns, c.value, t) == t;
    }
  }

  /** The `ts` line that sets a style. */
  function TsLine(np: NumPrinter, s: Ts): string
  {
    "ts" + Render(np, [VStr(s.family), VStr(s.weight), VInt(s.size)])
  }

  /**
   * A `ts` line with word family and weight: the program keeps the old
   * style, the intended reader takes the new one.
   */
  lemma TsLineIgnored(ns: NumSyntax, np: NumPrinter, s: Ts, t: Ts)
    requires ReadsBack(ns, np) && IsWord(s.family) && IsWord(s.weight)
    ensures ParseGeoLineAsWritten(ns, TsLine(np, s), t) == (None, t)
    ensures ParseGeoLine(ns, TsLine(np, s), t) == (None, s)
  {
    var vals := [VStr(s.family), VStr(s.weight), VInt(s.size)];
    var line := TsLine(np, s);
    assert Printable(np, TS_FMT.convs, vals);
    RenderOneLine(np, TS_FMT.convs, vals);
    LiteralLineOneLine(TS_FMT.lit, Render(np, vals));
    StripCrLfAll(line);
    RenderStartsBlank(np, vals);
    FirstWordOfLine(ns, "ts", Render(np, vals));
    assert Command(ns, line) == Some("ts");
    TsNeverApplies(ns, line, t);
    ScanRender(ns, np, TS_FMT.convs, vals);
    assert line[..2] == "ts" && line[2..] == Render(np, vals);
    assert Scan(ns, TS_FMT, line) == vals;
  }

  /** A literal followed by a one-line text is one line. */
  lemma LiteralLineOneLine(lit: string, body: string)
    requires '\r' !in lit && '\n' !in lit
    requires forall k :: 0 <= k < |body| ==> body[k] != '\r' && body[k] != '\n'
    ensures forall k :: 0 <= k < |lit + body| ==> (lit + body)[k] != '\r' && (lit + body)[k] != '\n'
  {
    forall k | 0 <= k < |lit + body|
      ensures (lit + body)[k] != '\r' && (lit + body)[k] != '\n'
    {
      if k < |lit| {
        assert (lit + body)[k] == lit[k];
      } else {
        assert (lit + body)[k] == body[k - |lit|];
      }
    }
  }

  lemma StripCrLfAll(line: string)
    requires forall k :: 0 <= k < |line| ==> line[k] != '\r' && line[k] != '\n'
    ensures StripCrLf(line) == line
    decreases |line|
  {
    if line != [] {
      assert line == [line[0]] + line[1..];
      StripCrLfAll(line[1..]);
    }
  }

  /** A line with no command word, blank after stripping, does nothing. */
  lemma BlankLineIgnored(ns: NumSyntax, raw: string, t: Ts)
    requires forall k :: 0 <= k < |StripCrLf(raw)| ==> IsSpace(StripCrLf(raw)[k])
    ensures ParseGeoLine(ns, raw, t) == (None, t)
    ensures ParseGeoLineAsWritten(ns, raw, t) == (None, t)
  {
    var line := StripCrLf(raw);
    BlankScansNothing(ns, WORD_FMT, line);
    assert Command(ns, line) == None;
    assert LineFigure(ns, line, t) == None;
  }

  /** An unknown command word does nothing. */
  lemma UnknownCommandIgnored(ns: NumSyntax, raw: string, t: Ts)
    requires Command(ns, StripCrLf(raw)).Some?
    requires Command(ns, StripCrLf(raw)).value !in {"c", "r", "l", "t", "ts"}
    ensures ParseGeoLine(ns, raw, t) == (None, t)
    ensures ParseGeoLineAsWritten(ns, raw, t) == (None, t)
  {
  }

  // ---------------------------------------------------------------------
  // Whole files
  // ---------------------------------------------------------------------

  /** One line of the file: its figure, if any, goes to the rear of the queue. */
  function GeoLine(ns: NumSyntax, raw: string, q: Option<FifoQueue.Queue<Figure>>, t: Ts)
    : (r: (Option<FifoQueue.Queue<Figure>>, Ts))
    requires q.Some? ==> FifoQueue.Valid(q.value)
    ensures r.0.Some? == q.Some? && (r.0.Some? ==> FifoQueue.Valid(r.0.value))
    ensures r.1 == ParseGeoLine(ns, raw, t).1
    ensures q.Some? ==>
              var f := ParseGeoLine(ns, raw, t).0;
              r.0.value.items == q.value.items + (if f.Some? then [f.value] else [])
  {
    var (f, t') := ParseGeoLine(ns, raw, t);
    if f.Some? then (FifoQueue.Enqueue(q, f.value).0, t') else (q, t')
  }

  /** The lines of the file in order, threading the style. */
  function GeoLines(ns: NumSyntax, lines: seq<string>, q: Option<FifoQueue.Queue<Figure>>, t: Ts)
    : (r: Option<FifoQueue.Queue<Figure>>)
    requires q.Some? ==> FifoQueue.Valid(q.value)
    ensures r.Some? == q.Some? && (r.Some? ==> FifoQueue.Valid(r.value))
    ensures q.Some? ==> |q.value.items| <= |r.value.items| <= |q.value.items| + |lines|
    ensures q.Some? ==> r.value.items[..|q.value.items|] == q.value.items
    decreases |lines|
  {
    if lines == [] then q
    else
      var (q', t') := GeoLine(ns, lines[0], q, t);
      var r := GeoLines(ns, lines[1..], q', t');
      assert q.Some? ==> r.value.items[..|q.value.items|] == r.value.items[..|q'.value.items|][..|q.value.items|];
      r
  }

  /**
   * The loop of `processGeoFile` as the program runs it, with
   * `parseGeoLine` as written: the style the loop threads never changes.
   */
  function GeoLinesAsWritten(ns: NumSyntax, lines: seq<string>, q: Option<FifoQueue.Queue<Figure>>, t: Ts)
    : (r: Option<FifoQueue.Queue<Figure>>)
    requires q.Some? ==> FifoQueue.Valid(q.value)
    ensures r.Some? == q.Some? && (r.Some? ==> FifoQueue.Valid(r.value))
    decreases |lines|
  {
    if lines == [] then q
    else
      var (f, t') := ParseGeoLineAsWritten(ns, lines[0], t);
      var q' := if f.Some? then FifoQueue.Enqueue(q, f.value).0 else q;
      GeoLinesAsWritten(ns, lines[1..], q', t')
  }

  /** A line that is not a `ts` command is read alike by both parsers. */
  lemma ParsersAgreeOffTs(ns: NumSyntax, raw: string, t: Ts)
    requires Command(ns, StripCrLf(raw)) != Some("ts")
    ensures ParseGeoLineAsWritten(ns, raw, t) == ParseGeoLine(ns, raw, t) == (LineFigure(ns, StripCrLf(raw), t), t)
  {
  }

  /**
   * On a file without `ts` lines the program's loop and the corrected one
   * enqueue the same figures: the `ts` defect is the only difference.
   */
  lemma {:induction false} GeoLinesAgreeWithoutTs(ns: NumSyntax, lines: seq<string>,
                                                  q: Option<FifoQueue.Queue<Figure>>, t: Ts)
    requires q.Some? ==> FifoQueue.Valid(q.value)
    requires forall k :: 0 <= k < |lines| ==> Command(ns, StripCrLf(lines[k])) != Some("ts")
    ensures GeoLinesAsWritten(ns, lines, q, t) == GeoLines(ns, lines, q, t)
    decreases |lines|
  {
    if lines != [] {
      ParsersAgreeOffTs(ns, lines[0], t);
      var (q', t') := GeoLine(ns, lines[0], q, t);
      assert forall k :: 0 <= k < |lines[1..]| ==> lines[1..][k] == lines[k + 1];
      GeoLinesAgreeWithoutTs(ns, lines[1..], q', t');
    }
  }

  /** `processGeoFile`, given the file's lines: the style starts at `tsInit`. */
  function ProcessGeoFile(ns: NumSyntax, lines: seq<string>, q: Option<FifoQueue.Queue<Figure>>)
    : (r: Option<FifoQueue.Queue<Figure>>)
    requires q.Some? ==> FifoQueue.Valid(q.value)
    ensures r.Some? == q.Some? && (r.Some? ==> FifoQueue.Valid(r.value))
  {
    GeoLines(ns, lines, q, TsInit())
  }

  // ---------------------------------------------------------------------
  // Printing figures as `.geo` lines: the inverse the reader is checked against
  // ---------------------------------------------------------------------

  /** The fields a figure's `.geo` line holds, in order. */
  function GeoFields(f: Figure): seq<Val>
  {
    match f
    case Circle(id, x, y, r, b, fc) => [VInt(id), VReal(x), VReal(y), VReal(r), VStr(b), VStr(fc)]
    case Rectangle(id, x, y, w, h, b, fc) => [VInt(id), VReal(x), VReal(y), VReal(w), VReal(h), VStr(b), VStr(fc)]
    case Line(id, x1, y1, x2, y2, c) => [VInt(id), VReal(x1), VReal(y1), VReal(x2), VReal(y2), VStr(c)]
    case Text(id, x, y, b, fc, a, txt, _, _, _) => [VInt(id), VReal(x), VReal(y), VStr(b), VStr(fc), VChar(a), VStr(txt)]
  }

  function GeoFormat(f: Figure): Format
  {
    match f
    case Circle(_, _, _, _, _, _) => CIRCLE_FMT
    case Rectangle(_, _, _, _, _, _, _) => RECTANGLE_FMT
    case Line(_, _, _, _, _, _) => LINE_FMT
    case Text(_, _, _, _, _, _, _, _, _, _) => TEXT_FMT
  }

  /** The `.geo` line describing a figure. */
  function GeoLineOf(np: NumPrinter, f: Figure): string
  {
    GeoFormat(f).lit + Render(np, GeoFields(f))
  }

  /** A figure whose line can be written: word colours, a visible anchor, one-line text. */
  predicate Writable(np: NumPrinter, f: Figure)
  {
    Printable(np, GeoFormat(f).convs, GeoFields(f))
    && (f.Text? ==> '\r' !in f.txt)
  }

  /** The figure with the text style stamped on, as a `t` line gives it. */
  function Stamp(f: Figure, t: Ts): Figure
  {
    match f
    case Text(id, x, y, b, fc, a, txt, _, _, _) => Text(id, x, y, b, fc, a, txt, t.family, t.weight, t.size)
    case _ => f
  }

  /** Every character of a printed line is neither CR nor LF. */
  lemma RenderOneLine(np: NumPrinter, convs: seq<Conv>, vals: seq<Val>)
    requires Printable(np, convs, vals)
    requires forall k :: 0 <= k < |vals| ==> vals[k].VStr? ==> '\r' !in vals[k].s
    requires forall k :: 0 <= k < |vals| ==> vals[k].VInt? || vals[k].VReal? ==> IsWord(Show(np, vals[k]))
    ensures forall k :: 0 <= k < |Render(np, vals)| ==> Render(np, vals)[k] != '\r' && Render(np, vals)[k] != '\n'
    decreases |vals|
  {
    if vals != [] {
      var s := Show(np, vals[0]);
      assert Printable(np, convs[1..], vals[1..]) by {
        forall k | 0 <= k < |vals[1..]|
          ensures Fits(convs[1..][k], vals[1..][k])
        {
          assert convs[1..][k] == convs[k + 1] && vals[1..][k] == vals[k + 1];
        }
      }
      assert Fits(convs[0], vals[0]);
      assert forall k :: 0 <= k < |s| ==> s[k] != '\r' && s[k] != '\n';
      RenderOneLine(np, convs[1..], vals[1..]);
      assert Render(np, vals) == " " + s + Render(np, vals[1..]);
    }
  }

  /** The written line is one line whose command word is its format's literal and whose fields scan back. */
  lemma WrittenLineScans(ns: NumSyntax, np: NumPrinter, f: Figure)
    requires ReadsBack(ns, np) && Writable(np, f)
    ensures var line := GeoLineOf(np, f);
            StripCrLf(line) == line && Command(ns, line) == Some(GeoFormat(f).lit)
            && Scan(ns, GeoFormat(f), line) == GeoFields(f)
  {
    var fmt, vals := GeoFormat(f), GeoFields(f);
    var body := Render(np, vals);
    var line := GeoLineOf(np, f);
    RenderOneLine(np, fmt.convs, vals);
    LiteralLineOneLine(fmt.lit, body);
    StripCrLfAll(line);
    RenderStartsBlank(np, vals);
    FirstWordOfLine(ns, fmt.lit, body);
    assert line[..|fmt.lit|] == fmt.lit && line[|fmt.lit|..] == body;
    ScanRender(ns, np, fmt.convs, vals);
  }

  /** Reading the `.geo` line written for a figure gives the figure back. */
  lemma ReadWrittenFigure(ns: NumSyntax, np: NumPrinter, f: Figure, t: Ts)
    requires ReadsBack(ns, np) && Writable(np, f)
    ensures ParseGeoLine(ns, GeoLineOf(np, f), t) == (Some(Stamp(f, t)), t)
  {
    WrittenLineScans(ns, np, f);
    WrittenLineFigure(ns, GeoLineOf(np, f), f, t);
  }

  /** A line whose command and fields are those written for a figure describes that figure. */
  lemma WrittenLineFigure(ns: NumSyntax, line: string, f: Figure, t: Ts)
    requires Command(ns, line) == Some(GeoFormat(f).lit) && Scan(ns, GeoFormat(f), line) == GeoFields(f)
    ensures LineFigure(ns, line, t) == Some(Stamp(f, t))
  {
    match f
    case Circle(id, x, y, r, b, fc) => CircleLine(ns, line, t, id, x, y, r, b, fc);
    case Rectangle(id, x, y, w, h, b, fc) => RectangleLine(ns, line, t, id, x, y, w, h, b, fc);
    case Line(id, x1, y1, x2, y2, c) => LineLine(ns, line, t, id, x1, y1, x2, y2, c);
    case Text(id, x, y, b, fc, a, txt, _, _, _) => TextLine(ns, line, t, id, x, y, b, fc, a, txt);
  }

  lemma CircleLine(ns: NumSyntax, line: string, t: Ts, id: int, x: real, y: real, r: real, b: string, fc: string)
    requires Command(ns, line) == Some("c")
    requires Scan(ns, CIRCLE_FMT, line) == [VInt(id), VReal(x), VReal(y), VReal(r), VStr(b), VStr(fc)]
    ensures LineFigure(ns, line, t) == Some(Circle(id, x, y, r, b, fc))
  {
  }

  lemma RectangleLine(ns: NumSyntax, line: string, t: Ts, id: int, x: real, y: real, w: real, h: real,
                      b: string, fc: string)
    requires Command(ns, line) == Some("r")
    requires Scan(ns, RECTANGLE_FMT, line) == [VInt(id), VReal(x), VReal(y), VReal(w), VReal(h), VStr(b), VStr(fc)]
    ensures LineFigure(ns, line, t) == Some(Rectangle(id, x, y, w, h, b, fc))
  {
  }

  lemma LineLine(ns: NumSyntax, line: string, t: Ts, id: int, x1: real, y1: real, x2: real, y2: real, c: string)
    requires Command(ns, line) == Some("l")
    requires Scan(ns, LINE_FMT, line) == [VInt(id), VReal(x1), VReal(y1), VReal(x2), VReal(y2), VStr(c)]
    ensures LineFigure(ns, line, t) == Some(Line(id, x1, y1, x2, y2, c))
  {
  }

  lemma TextLine(ns: NumSyntax, line: string, t: Ts, id: int, x: real, y: real, b: string, fc: string,
                 a: char, txt: string)
    requires Command(ns, line) == Some("t")
    requires Scan(ns, TEXT_FMT, line) == [VInt(id), VReal(x), VReal(y), VStr(b), VStr(fc), VChar(a), VStr(txt)]
    ensures LineFigure(ns, line, t) == Some(Text(id, x, y, b, fc, a, txt, t.family, t.weight, t.size))
  {
  }

  /** The lines written for a list of figures. */
  function GeoText(np: NumPrinter, figs: seq<Figure>): seq<string>
  {
    if figs == [] then [] else [GeoLineOf(np, figs[0])] + GeoText(np, figs[1..])
  }

  function StampAll(figs: seq<Figure>, t: Ts): seq<Figure>
  {
    if figs == [] then [] else [Stamp(figs[0], t)] + StampAll(figs[1..], t)
  }

  /**
   * Reading the file written for a list of figures enqueues them in list
   * order, each text with the style in force.
   */
  lemma {:induction false} ReadWrittenFile(ns: NumSyntax, np: NumPrinter, figs: seq<Figure>,
                                           q: Option<FifoQueue.Queue<Figure>>, t: Ts)
    requires ReadsBack(ns, np) && forall k :: 0 <= k < |figs| ==> Writable(np, figs[k])
    requires q.Some? && FifoQueue.Valid(q.value)
    ensures GeoLines(ns, GeoText(np, figs), q, t).value.items == q.value.items + StampAll(figs, t)
    decreases |figs|
  {
    if figs != [] {
      ReadWrittenFigure(ns, np, figs[0], t);
      var lines := GeoText(np, figs);
      assert lines[0] == GeoLineOf(np, figs[0]) && lines[1..] == GeoText(np, figs[1..]);
      var (q', t') := GeoLine(ns, lines[0], q, t);
      assert t' == t && q'.value.items == q.value.items + [Stamp(figs[0], t)];
      assert GeoLines(ns, lines, q, t) == GeoLines(ns, lines[1..], q', t);
      ReadWrittenFile(ns, np, figs[1..], q', t);
      var head, tail := [Stamp(figs[0], t)], StampAll(figs[1..], t);
      assert StampAll(figs, t) == head + tail;
      SeqAssoc(q.value.items, head, tail);
    } else {
      assert GeoText(np, figs) == [];
    }
  }

  /** A new queue filled from such a file holds the figures in file order, with the initial style. */
  lemma ReadWrittenScene(ns: NumSyntax, np: NumPrinter, figs: seq<Figure>)
    requires ReadsBack(ns, np) && forall k :: 0 <= k < |figs| ==> Writable(np, figs[k])
    ensures ProcessGeoFile(ns, GeoText(np, figs), FifoQueue.QueueInit()).value.items == StampAll(figs, TsInit())
  {
    ReadWrittenFile(ns, np, figs, FifoQueue.QueueInit(), TsInit());
  }
}

=== FILE: geom.dfy ===
/**
 * The geometry kernel of src/geom.c over exact reals. Trigonometry is not
 * modelled: `cos`, `sin`, `atan2` and `sqrt` come from a `MathLib` record of
 * uninterpreted functions supplied by the caller.
 */
module Geom {
  import opened Common

  const PI: real := 3.14159265358979323846
  const TWO_PI: real := 2.0 * PI
  const EPSILON: real := 0.000000001
  /** The "no hit" sentinel of `geomRaySegmentIntersect`. */
  const MAX_DIST_VAL: real := 100000.0

  datatype Point = Point(x: real, y: real)

  /** The C math library functions the kernel calls, left uninterpreted. */
  datatype MathLib = MathLib(cos: real -> real, sin: real -> real, atan2: (real, real) -> real, sqrt: real -> real)

  function Abs(v: real): real
  {
    if v < 0.0 then -v else v
  }

  // ---------------------------------------------------------------------
  // The opaque point handle (`geomPointCreate`, getters, `geomPointSet`)
  // ---------------------------------------------------------------------

  function PointCreate(x: real, y: real): (p: Option<Point>)
    ensures PointGetX(p) == x && PointGetY(p) == y
  {
    Some(Point(x, y))
  }

  /** `geomPointGetX`: 0.0 for a NULL point. */
  function PointGetX(p: Option<Point>): real
  {
    if p.None? then 0.0 else p.value.x
  }

  /** `geomPointGetY`: 0.0 for a NULL point. */
  function PointGetY(p: Option<Point>): real
  {
    if p.None? then 0.0 else p.value.y
  }

  /** `geomPointSet`: a NULL point stays NULL. */
  function PointSet(p: Option<Point>, x: real, y: real): (r: Option<Point>)
    ensures r.None? <==> p.None?
  {
    if p.None? then p else Some(Point(x, y))
  }

  /** The getters return the values last set, and 0.0 on a NULL point. */
  lemma GetAfterSet(p: Option<Point>, x: real, y: real)
    ensures PointGetX(PointSet(p, x, y)) == (if p.Some? then x else 0.0)
    ensures PointGetY(PointSet(p, x, y)) == (if p.Some? then y else 0.0)
  {
  }

  // ---------------------------------------------------------------------
  // Angles and distances
  // ---------------------------------------------------------------------

  /**
   * `geomNormalizeAngle`: add 2π while negative, then subtract 2π while at
   * least 2π. The ghost `k` counts the net number of turns added.
   */
  method NormalizeAngle(angle: real) returns (r: real, ghost k: int)
    ensures 0.0 <= r < TWO_PI
    ensures r == angle + (k as real) * TWO_PI
  {
    r := angle;
    k := 0;
    while r < 0.0
      invariant r == angle + (k as real) * TWO_PI
      decreases if r < 0.0 then (-r / TWO_PI).Floor + 1 else 0
    {
      r := r + TWO_PI;
      k := k + 1;
    }
    while r >= TWO_PI
      invariant r >= 0.0
      invariant r == angle + (k as real) * TWO_PI
      decreases (r / TWO_PI).Floor
    {
      r := r - TWO_PI;
      k := k - 1;
    }
  }

  function Sq(v: real): real
  {
    v * v
  }

  /** `geomDistSq`: squared Euclidean distance; zero exactly on coincident points. */
  function DistSq(x1: real, y1: real, x2: real, y2: real): (r: real)
    ensures r >= 0.0
    ensures r == 0.0 <==> x1 == x2 && y1 == y2
  {
    SquareSign(x1 - x2);
    SquareSign(y1 - y2);
    Sq(x1 - x2) + Sq(y1 - y2)
  }

  // The products are passed by name: Z3 rewrites a raw `a * a` atom and
  // then loses facts stated about it.
  lemma ProductPositive(x: real, y: real, p: real)
    requires x > 0.0 && y > 0.0 && p == x * y
    ensures p > 0.0
  {
  }

  lemma SquareSign(a: real)
    ensures Sq(a) >= 0.0
    ensures a != 0.0 ==> Sq(a) > 0.0
    ensures a == 0.0 ==> Sq(a) == 0.0
  {
    if a > 0.0 {
      ProductPositive(a, a, Sq(a));
    } else if a < 0.0 {
      ProductPositive(-a, -a, Sq(-a));
      assert Sq(-a) == Sq(a);
    }
  }

  lemma DistSqSymmetric(x1: real, y1: real, x2: real, y2: real)
    ensures DistSq(x1, y1, x2, y2) == DistSq(x2, y2, x1, y1)
  {
  }

  /** `geomCrossProduct`: twice the signed area of triangle a, b, c
      (positive when c lies to the left of the line from a to b). */
  function Cross(a: Point, b: Point, c: Point): real
  {
    (b.x - a.x) * (c.y - a.y) - (b.y - a.y) * (c.x - a.x)
  }

  /** Swapping b and c flips the orientation; a repeated vertex is collinear. */
  lemma CrossOrientation(a: Point, b: Point, c: Point)
    ensures Cross(a, b, c) == -Cross(a, c, b)
    ensures Cross(a, b, a) == 0.0 && Cross(a, b, b) == 0.0
    ensures Cross(Point(0.0, 0.0), Point(1.0, 0.0), Point(0.0, 1.0)) > 0.0
  {
  }

  // ---------------------------------------------------------------------
  // Ray against segment (`geomRaySegmentIntersect`)
  // ---------------------------------------------------------------------

  /** Denominator of the 2x2 system: the segment direction dotted with the
      ray direction turned by a quarter. */
  function RayDot(dx: real, dy: real, x1: real, y1: real, x2: real, y2: real): real
  {
    (x2 - x1) * (-dy) + (y2 - y1) * dx
  }

  /** Ray parameter t1 of the crossing (a distance when (dx, dy) is a unit vector). */
  function RayParam(ox: real, oy: real, dx: real, dy: real, x1: real, y1: real, x2: real, y2: real): real
    requires RayDot(dx, dy, x1, y1, x2, y2) != 0.0
  {
    ((x2 - x1) * (oy - y1) - (y2 - y1) * (ox - x1)) / RayDot(dx, dy, x1, y1, x2, y2)
  }

  /** Segment parameter t2 of the crossing: 0 at (x1, y1), 1 at (x2, y2). */
  function SegParam(ox: real, oy: real, dx: real, dy: real, x1: real, y1: real, x2: real, y2: real): real
    requires RayDot(dx, dy, x1, y1, x2, y2) != 0.0
  {
    ((ox - x1) * (-dy) + (oy - y1) * dx) / RayDot(dx, dy, x1, y1, x2, y2)
  }

  /**
   * `geomRaySegmentIntersect` with the ray direction (cos angle, sin angle)
   * taken from `m`: the sentinel when the ray is parallel to the segment,
   * else t1 when the crossing lies on the segment (within EPSILON) and not
   * behind the origin, else the sentinel.
   */
  function RaySegmentIntersect(m: MathLib, ox: real, oy: real, angle: real,
                               x1: real, y1: real, x2: real, y2: real): (r: real)
    ensures r == MAX_DIST_VAL || r >= -EPSILON
    ensures Abs(RayDot(m.cos(angle), m.sin(angle), x1, y1, x2, y2)) < EPSILON ==> r == MAX_DIST_VAL
  {
    var dx := m.cos(angle);
    var dy := m.sin(angle);
    var dot := RayDot(dx, dy, x1, y1, x2, y2);
    if Abs(dot) < EPSILON then MAX_DIST_VAL
    else
      var t1 := RayParam(ox, oy, dx, dy, x1, y1, x2, y2);
      var t2 := SegParam(ox, oy, dx, dy, x1, y1, x2, y2);
      if t2 >= -EPSILON && t2 <= 1.0 + EPSILON && t1 >= -EPSILON then t1
      else MAX_DIST_VAL
  }

  /** The two parameters solve the system: the ray point at t1 is the
      segment point at t2. */
  lemma CrossingPointsAgree(ox: real, oy: real, dx: real, dy: real, x1: real, y1: real, x2: real, y2: real)
    requires RayDot(dx, dy, x1, y1, x2, y2) != 0.0
    ensures var t1 := RayParam(ox, oy, dx, dy, x1, y1, x2, y2);
            var t2 := SegParam(ox, oy, dx, dy, x1, y1, x2, y2);
            ox + t1 * dx == x1 + t2 * (x2 - x1) && oy + t1 * dy == y1 + t2 * (y2 - y1)
  {
    var dot := RayDot(dx, dy, x1, y1, x2, y2);
    var v1x, v1y, v2x, v2y := ox - x1, oy - y1, x2 - x1, y2 - y1;
    var c := v2x * v1y - v2y * v1x;
    var e := v1x * (-dy) + v1y * dx;
    assert RayParam(ox, oy, dx, dy, x1, y1, x2, y2) == c / dot;
    assert SegParam(ox, oy, dx, dy, x1, y1, x2, y2) == e / dot;
    assert v1x * dot + c * dx == e * v2x;
    assert v1y * dot + c * dy == e * v2y;
    assert v1x + (c / dot) * dx == (e / dot) * v2x by {
      assert (v1x + (c / dot) * dx) * dot == v1x * dot + c * dx;
      assert ((e / dot) * v2x) * dot == e * v2x;
    }
    assert v1y + (c / dot) * dy == (e / dot) * v2y by {
      assert (v1y + (c / dot) * dy) * dot == v1y * dot + c * dy;
      assert ((e / dot) * v2y) * dot == e * v2y;
    }
  }

  /**
   * A reported distance is a real crossing: the ray is not nearly parallel,
   * and the point at that distance along the ray is the point of the
   * segment at a parameter within [-EPSILON, 1 + EPSILON].
   */
  lemma ReportedHitIsOnSegment(m: MathLib, ox: real, oy: real, angle: real,
                               x1: real, y1: real, x2: real, y2: real)
    requires RaySegmentIntersect(m, ox, oy, angle, x1, y1, x2, y2) != MAX_DIST_VAL
    ensures Abs(RayDot(m.cos(angle), m.sin(angle), x1, y1, x2, y2)) >= EPSILON
    ensures var dx, dy := m.cos(angle), m.sin(angle);
            var r := RaySegmentIntersect(m, ox, oy, angle, x1, y1, x2, y2);
            var t2 := SegParam(ox, oy, dx, dy, x1, y1, x2, y2);
            -EPSILON <= t2 <= 1.0 + EPSILON
            && ox + r * dx == x1 + t2 * (x2 - x1) && oy + r * dy == y1 + t2 * (y2 - y1)
  {
    CrossingPointsAgree(ox, oy, m.cos(angle), m.sin(angle), x1, y1, x2, y2);
  }

  /**
   * Conversely, a crossing on the segment in front of the origin, with the
   * ray not nearly parallel, is reported with its exact ray parameter.
   */
  lemma CrossingIsReported(m: MathLib, ox: real, oy: real, angle: real,
                           x1: real, y1: real, x2: real, y2: real, t1: real, t2: real)
    requires Abs(RayDot(m.cos(angle), m.sin(angle), x1, y1, x2, y2)) >= EPSILON
    requires ox + t1 * m.cos(angle) == x1 + t2 * (x2 - x1)
    requires oy + t1 * m.sin(angle) == y1 + t2 * (y2 - y1)
    requires -EPSILON <= t2 <= 1.0 + EPSILON && t1 >= -EPSILON
    ensures RaySegmentIntersect(m, ox, oy, angle, x1, y1, x2, y2) == t1
  {
    var dx, dy := m.cos(angle), m.sin(angle);
    var dot := RayDot(dx, dy, x1, y1, x2, y2);
    var v1x, v1y, v2x, v2y := ox - x1, oy - y1, x2 - x1, y2 - y1;
    assert v1x + t1 * dx == t2 * v2x;
    assert v1y + t1 * dy == t2 * v2y;
    // Cross both sides with the segment direction: the t2 terms cancel.
    assert (v2x * v1y - v2y * v1x) == t1 * dot by {
      assert v2x * (v1y + t1 * dy) - v2y * (v1x + t1 * dx) == v2x * (t2 * v2y) - v2y * (t2 * v2x);
    }
    // Dot both sides with the turned ray direction: the t1 terms cancel.
    assert v1x * (-dy) + v1y * dx == t2 * dot by {
      assert (v1x + t1 * dx) * (-dy) + (v1y + t1 * dy) * dx == (t2 * v2x) * (-dy) + (t2 * v2y) * dx;
    }
    assert RayParam(ox, oy, dx, dy, x1, y1, x2, y2) == t1;
    assert SegParam(ox, oy, dx, dy, x1, y1, x2, y2) == t2;
  }
}

=== FILE: paths.dfy ===
/**
 * The command-line and file-name handling of src/main.c: `getBaseName`,
 * `joinPath`, the configuration record, the argument scan of `parseArgs`
 * and the names of the files `main` writes. A C string is a `string`; a
 * NULL `char *` is `None`. `atoi` is left abstract.
 */
module Paths {
  import opened Common

  /** `strrchr`: the position of the last occurrence of `c`, if any. */
  function LastIndex(s: string, c: char): (r: Option<nat>)
    ensures r.None? <==> c !in s
    ensures r.Some? ==> r.value < |s| && s[r.value] == c
    ensures r.Some? ==> forall k :: r.value < k < |s| ==> s[k] != c
  {
    if s == [] then None
    else if s[|s| - 1] == c then Some(|s| - 1)
    else
      var r := LastIndex(s[..|s| - 1], c);
      assert s == s[..|s| - 1] + [s[|s| - 1]];
      r
  }

  /** `strrchr` on a string with a known last occurrence. */
  lemma {:induction false} LastIndexOfJoin(a: string, c: char, b: string)
    requires c !in b
    ensures LastIndex(a + [c] + b, c) == Some(|a|)
    decreases |b|
  {
    var s := a + [c] + b;
    if b == [] {
      assert s[|s| - 1] == c;
    } else {
      assert s[..|s| - 1] == a + [c] + b[..|b| - 1];
      assert s[|s| - 1] == b[|b| - 1];
      LastIndexOfJoin(a, c, b[..|b| - 1]);
    }
  }

  /** The text after the last '/', or all of it. */
  function LastComponent(path: string): (r: string)
    ensures '/' !in r
    ensures |r| <= |path| && r == path[|path| - |r|..]
    ensures |r| < |path| ==> path[|path| - |r| - 1] == '/'
  {
    match LastIndex(path, '/')
    case None => path
    case Some(i) =>
      path[i + 1..]
  }

  /**
   * `getBaseName`: drop everything up to and including the last '/', and
   * everything from the last '.' of what is left.
   */
  function GetBaseName(filename: string): (r: string)
    ensures '/' !in r
    ensures |r| <= |LastComponent(filename)| && r == LastComponent(filename)[..|r|]
    ensures |r| < |LastComponent(filename)| ==> LastComponent(filename)[|r|] == '.'
    ensures '.' !in LastComponent(filename) ==> r == LastComponent(filename)
  {
    var start := LastComponent(filename);
    match LastIndex(start, '.')
    case None => start
    case Some(j) => start[..j]
  }

  /** The last component of a directory followed by a file name is the file name. */
  lemma LastComponentOfJoin(dir: string, file: string)
    requires dir == [] || dir[|dir| - 1] == '/'
    requires '/' !in file
    ensures LastComponent(dir + file) == file
  {
    if dir == [] {
      assert dir + file == file;
    } else {
      var d0 := dir[..|dir| - 1];
      assert dir + file == d0 + ['/'] + file;
      LastIndexOfJoin(d0, '/', file);
      assert (dir + file)[|d0| + 1..] == file;
    }
  }

  /** A last component `stem.ext` with a dot-free extension has the base name `stem`. */
  lemma BaseNameOfComponent(path: string, stem: string, ext: string)
    requires '.' !in ext
    requires LastComponent(path) == stem + ['.'] + ext
    ensures GetBaseName(path) == stem
  {
    var file := stem + ['.'] + ext;
    LastIndexOfJoin(stem, '.', ext);
    assert file[..|stem|] == stem;
  }

  /** The stem of `dir/stem.ext` is `stem`, whatever the directory and however many dots the stem has. */
  lemma BaseNameOfFile(dir: string, stem: string, ext: string, file: string, path: string)
    requires dir == [] || dir[|dir| - 1] == '/'
    requires '/' !in stem && '/' !in ext && '.' !in ext
    requires file == stem + "." + ext && path == dir + file
    ensures GetBaseName(path) == stem
  {
    assert '/' !in file;
    LastComponentOfJoin(dir, file);
    BaseNameOfComponent(path, stem, ext);
  }

  /**
   * `joinPath`: NULL for a NULL file name; a copy of the file name when the
   * directory is NULL or empty; otherwise the two joined by one '/',
   * added only when the directory does not already end with one.
   */
  function JoinPath(path: Option<string>, fileName: Option<string>): (r: Option<string>)
    ensures r.None? <==> fileName.None?
    ensures r.Some? ==> |r.value| >= |fileName.value| && r.value[|r.value| - |fileName.value|..] == fileName.value
    ensures r.Some? && path.Some? && path.value != [] ==>
              |path.value| + |fileName.value| <= |r.value| <= |path.value| + |fileName.value| + 1
              && r.value[..|path.value|] == path.value
              && (r.value[|path.value| - 1] == '/' || (|r.value| > |path.value| && r.value[|path.value|] == '/'))
  {
    if fileName.None? then None
    else if path.None? || path.value == [] then Some(fileName.value)
    else
      var p := path.value;
      if p[|p| - 1] != '/' then
        var r := p + "/" + fileName.value;
        assert r[..|p|] == p && r[|p|] == '/';
        Some(r)
      else
        var r := p + fileName.value;
        assert r[..|p|] == p && r[|p| - 1] == '/';
        Some(r)
  }

  /** A joined path still names the file: its base name is the file's stem. */
  lemma JoinedBaseName(dir: Option<string>, stem: string, ext: string, file: string)
    requires '/' !in stem && '/' !in ext && '.' !in ext
    requires file == stem + "." + ext
    ensures GetBaseName(JoinPath(dir, Some(file)).value) == stem
  {
    var j := JoinPath(dir, Some(file)).value;
    if dir.None? || dir.value == [] {
      assert j == [] + file;
      BaseNameOfFile([], stem, ext, file, j);
    } else if dir.value[|dir.value| - 1] != '/' {
      var d := dir.value + "/";
      assert j == d + file;
      BaseNameOfFile(d, stem, ext, file, j);
    } else {
      BaseNameOfFile(dir.value, stem, ext, file, j);
    }
  }

  /** Two names without '/' joined by '-' have no '/'. */
  lemma NoSlashJoin(a: string, b: string)
    requires '/' !in a && '/' !in b
    ensures '/' !in a + "-" + b
  {
    var s := a + "-" + b;
    forall k | 0 <= k < |s|
      ensures s[k] != '/'
    {
      if k < |a| {
        assert s[k] == a[k];
      } else if k > |a| {
        assert s[k] == b[k - |a| - 1];
      }
    }
  }

  // ---------------------------------------------------------------------
  // Configuration and arguments
  // ---------------------------------------------------------------------

  datatype Config = Config(bed: Option<string>, bsd: Option<string>, geoName: Option<string>,
                           qryName: Option<string>, fullGeoPath: Option<string>,
                           fullQryPath: Option<string>, sortType: char, inValue: int)

  /** `initConfig`: no paths, quicksort ('q') and a threshold of 10. */
  function InitConfig(): (c: Config)
    ensures c.sortType == 'q' && c.inValue == 10
    ensures c.bed.None? && c.bsd.None? && c.geoName.None? && c.qryName.None?
    ensures c.fullGeoPath.None? && c.fullQryPath.None?
  {
    Config(None, None, None, None, None, None, 'q', 10)
  }

  predicate IsFlag(a: string)
  {
    a in {"-e", "-f", "-o", "-q", "-to", "-in"}
  }

  /** One flag with its argument, as the loop of `parseArgs` applies it. */
  function ApplyFlag(atoi: string -> int, cfg: Config, flag: string, arg: string): (r: Config)
    requires IsFlag(flag)
    ensures flag == "-e" ==> r == cfg.(bed := Some(arg))
    ensures flag == "-f" ==> r == cfg.(geoName := Some(arg))
    ensures flag == "-o" ==> r == cfg.(bsd := Some(arg))
    ensures flag == "-q" ==> r == cfg.(qryName := Some(arg))
    ensures flag == "-to" ==> r == cfg.(sortType := if arg == [] then '\0' else arg[0])
    ensures flag == "-in" ==> r == cfg.(inValue := atoi(arg))
  {
    if flag == "-e" then cfg.(bed := Some(arg))
    else if flag == "-f" then cfg.(geoName := Some(arg))
    else if flag == "-o" then cfg.(bsd := Some(arg))
    else if flag == "-q" then cfg.(qryName := Some(arg))
    else if flag == "-to" then cfg.(sortType := if arg == [] then '\0' else arg[0])
    else cfg.(inValue := atoi(arg))
  }

  /**
   * The loop of `parseArgs` from position `i`: a flag followed by another
   * argument takes it as its value; anything else, a flag in last position
   * included, is passed over.
   */
  function ScanArgs(atoi: string -> int, argv: seq<string>, i: nat, cfg: Config): (r: Config)
    ensures (forall k :: i <= k < |argv| ==> argv[k] != "-to") ==> r.sortType == cfg.sortType
    ensures (forall k :: i <= k < |argv| ==> argv[k] != "-in") ==> r.inValue == cfg.inValue
    ensures (forall k :: i <= k < |argv| ==> argv[k] != "-q") ==> r.qryName == cfg.qryName
    ensures (forall k :: i <= k < |argv| ==> argv[k] != "-e") ==> r.bed == cfg.bed
    ensures (forall k :: i <= k < |argv| ==> argv[k] != "-f") ==> r.geoName == cfg.geoName
    ensures (forall k :: i <= k < |argv| ==> argv[k] != "-o") ==> r.bsd == cfg.bsd
    ensures r.fullGeoPath == cfg.fullGeoPath && r.fullQryPath == cfg.fullQryPath
    decreases |argv| - i
  {
    if i >= |argv| then cfg
    else if IsFlag(argv[i]) && i + 1 < |argv| then
      ScanArgs(atoi, argv, i + 2, ApplyFlag(atoi, cfg, argv[i], argv[i + 1]))
    else ScanArgs(atoi, argv, i + 1, cfg)
  }

  /** Flag and value pairs written one after the other. */
  function Flatten(ps: seq<(string, string)>): (args: seq<string>)
    ensures |args| == 2 * |ps|
  {
    if ps == [] then [] else [ps[0].0, ps[0].1] + Flatten(ps[1..])
  }

  /** The pairs applied left to right: the reference for the argument scan. */
  function ApplyAll(atoi: string -> int, cfg: Config, ps: seq<(string, string)>): Config
    requires forall k :: 0 <= k < |ps| ==> IsFlag(ps[k].0)
    decreases |ps|
  {
    if ps == [] then cfg else ApplyAll(atoi, ApplyFlag(atoi, cfg, ps[0].0, ps[0].1), ps[1..])
  }

  /** On flag and value pairs, the argument scan applies every pair in order. */
  lemma {:induction false} ScanPairs(atoi: string -> int, pre: seq<string>, ps: seq<(string, string)>, cfg: Config)
    requires forall k :: 0 <= k < |ps| ==> IsFlag(ps[k].0)
    ensures ScanArgs(atoi, pre + Flatten(ps), |pre|, cfg) == ApplyAll(atoi, cfg, ps)
    decreases |ps|
  {
    if ps == [] {
      assert pre + Flatten(ps) == pre;
    } else {
      var argv := pre + Flatten(ps);
      var pre' := pre + [ps[0].0, ps[0].1];
      assert argv == pre' + Flatten(ps[1..]);
      assert argv[|pre|] == ps[0].0 && argv[|pre| + 1] == ps[0].1;
      ScanPairs(atoi, pre', ps[1..], ApplyFlag(atoi, cfg, ps[0].0, ps[0].1));
    }
  }

  /** A flag and value pair at the end of the arguments is applied last. */
  lemma LastPair(atoi: string -> int, prog: string, ps: seq<(string, string)>, flag: string, v: string)
    requires forall k :: 0 <= k < |ps| ==> IsFlag(ps[k].0)
    requires IsFlag(flag)
    ensures ScanArgs(atoi, [prog] + Flatten(ps + [(flag, v)]), 1, InitConfig())
            == ApplyFlag(atoi, ApplyAll(atoi, InitConfig(), ps), flag, v)
  {
    var qs := ps + [(flag, v)];
    assert forall k :: 0 <= k < |qs| ==> IsFlag(qs[k].0) by {
      forall k | 0 <= k < |qs|
        ensures IsFlag(qs[k].0)
      {
        if k < |ps| {
          assert qs[k] == ps[k];
        }
      }
    }
    ScanPairs(atoi, [prog], qs, InitConfig());
    ApplyAllSnoc(atoi, InitConfig(), ps, flag, v);
  }

  /** Of two occurrences of a flag, the later one decides. */
  lemma LastFlagWins(atoi: string -> int, prog: string, ps: seq<(string, string)>, v: string)
    requires forall k :: 0 <= k < |ps| ==> IsFlag(ps[k].0)
    ensures ScanArgs(atoi, [prog] + Flatten(ps + [("-f", v)]), 1, InitConfig()).geoName == Some(v)
    ensures ScanArgs(atoi, [prog] + Flatten(ps + [("-o", v)]), 1, InitConfig()).bsd == Some(v)
  {
    LastPair(atoi, prog, ps, "-f", v);
    LastPair(atoi, prog, ps, "-o", v);
  }

  lemma {:induction false} ApplyAllSnoc(atoi: string -> int, cfg: Config, ps: seq<(string, string)>, flag: string, v: string)
    requires forall k :: 0 <= k < |ps| ==> IsFlag(ps[k].0)
    requires IsFlag(flag)
    ensures ApplyAll(atoi, cfg, ps + [(flag, v)]) == ApplyFlag(atoi, ApplyAll(atoi, cfg, ps), flag, v)
    decreases |ps|
  {
    if ps == [] {
      assert ps + [(flag, v)] == [(flag, v)];
    } else {
      assert (ps + [(flag, v)])[1..] == ps[1..] + [(flag, v)];
      ApplyAllSnoc(atoi, ApplyFlag(atoi, cfg, ps[0].0, ps[0].1), ps[1..], flag, v);
    }
  }

  /** A flag given as the last argument has no value and changes nothing. */
  lemma DanglingFlagIgnored(atoi: string -> int, prog: string, ps: seq<(string, string)>, flag: string)
    requires forall k :: 0 <= k < |ps| ==> IsFlag(ps[k].0)
    ensures ScanArgs(atoi, [prog] + Flatten(ps) + [flag], 1, InitConfig())
            == ScanArgs(atoi, [prog] + Flatten(ps), 1, InitConfig())
  {
    ScanPairs(atoi, [prog], ps, InitConfig());
    DanglingTail(atoi, [prog], ps, flag, InitConfig());
  }

  lemma {:induction false} DanglingTail(atoi: string -> int, pre: seq<string>, ps: seq<(string, string)>, flag: string, cfg: Config)
    requires forall k :: 0 <= k < |ps| ==> IsFlag(ps[k].0)
    ensures ScanArgs(atoi, pre + Flatten(ps) + [flag], |pre|, cfg) == ApplyAll(atoi, cfg, ps)
    decreases |ps|
  {
    var argv := pre + Flatten(ps) + [flag];
    if ps == [] {
      assert argv == pre + [flag] && |argv| == |pre| + 1;
      assert ScanArgs(atoi, argv, |pre|, cfg) == ScanArgs(atoi, argv, |pre| + 1, cfg);
    } else {
      var pre' := pre + [ps[0].0, ps[0].1];
      assert argv == pre' + Flatten(ps[1..]) + [flag];
      assert argv[|pre|] == ps[0].0 && argv[|pre| + 1] == ps[0].1;
      DanglingTail(atoi, pre', ps[1..], flag, ApplyFlag(atoi, cfg, ps[0].0, ps[0].1));
    }
  }

  /**
   * `parseArgs`: scan the arguments after the program name; without `-f`
   * or `-o` the program exits (`None`). The full `.geo` path is the base
   * directory joined with its name; the full `.qry` path exists only when
   * `-q` was given.
   */
  function ParseArgs(atoi: string -> int, argv: seq<string>): (r: Option<Config>)
    ensures var c := ScanArgs(atoi, argv, 1, InitConfig());
            r.Some? <==> c.geoName.Some? && c.bsd.Some?
    ensures r.Some? ==> r.value.fullGeoPath == JoinPath(r.value.bed, r.value.geoName) && r.value.fullGeoPath.Some?
    ensures r.Some? ==> (r.value.fullQryPath.Some? <==> r.value.qryName.Some?)
    ensures r.Some? ==> r.value.fullQryPath.Some? ==> r.value.fullQryPath == JoinPath(r.value.bed, r.value.qryName)
  {
    var c := ScanArgs(atoi, argv, 1, InitConfig());
    if c.geoName.None? || c.bsd.None? then None
    else
      var geo := JoinPath(c.bed, c.geoName);
      var qry := if c.qryName.Some? then JoinPath(c.bed, c.qryName) else None;
      Some(c.(fullGeoPath := geo, fullQryPath := qry))
  }

  /** Without `-q` among the arguments there is no query file, and the defaults of `-to` and `-in` survive their absence. */
  lemma DefaultsSurvive(atoi: string -> int, argv: seq<string>)
    requires ParseArgs(atoi, argv).Some?
    ensures (forall k :: 1 <= k < |argv| ==> argv[k] != "-q") ==> ParseArgs(atoi, argv).value.fullQryPath.None?
    ensures (forall k :: 1 <= k < |argv| ==> argv[k] != "-to") ==> ParseArgs(atoi, argv).value.sortType == 'q'
    ensures (forall k :: 1 <= k < |argv| ==> argv[k] != "-in") ==> ParseArgs(atoi, argv).value.inValue == 10
  {
  }

  // ---------------------------------------------------------------------
  // Output names
  // ---------------------------------------------------------------------

  /** The file for a query run: both stems joined by '-', then the extension, under the output directory. */
  function MergedFile(dir: Option<string>, geoStem: string, qryStem: string, ext: string): string
  {
    JoinPath(dir, Some(geoStem + "-" + qryStem + "." + ext)).value
  }

  /** The files `main` writes: the scene, and with a query the merged drawing and the report. */
  datatype Outputs = Outputs(svg: string, qrySvg: Option<string>, txt: Option<string>)

  function OutputNames(c: Config): (o: Outputs)
    requires c.geoName.Some? && c.bsd.Some?
    requires c.fullQryPath.Some? ==> c.qryName.Some?
    ensures o.qrySvg.Some? <==> c.fullQryPath.Some?
    ensures o.txt.Some? <==> c.fullQryPath.Some?
  {
    var geoStem := GetBaseName(c.geoName.value);
    var svg := JoinPath(c.bsd, Some(geoStem + "." + "svg")).value;
    if c.fullQryPath.Some? then
      var qryStem := GetBaseName(c.qryName.value);
      Outputs(svg, Some(MergedFile(c.bsd, geoStem, qryStem, "svg")), Some(MergedFile(c.bsd, geoStem, qryStem, "txt")))
    else
      Outputs(svg, None, None)
  }

  /** The scene drawing is named after the `.geo` file. */
  lemma SceneStem(c: Config)
    requires c.geoName.Some? && c.bsd.Some?
    requires c.fullQryPath.Some? ==> c.qryName.Some?
    ensures GetBaseName(OutputNames(c).svg) == GetBaseName(c.geoName.value)
  {
    var geoStem := GetBaseName(c.geoName.value);
    assert OutputNames(c).svg == JoinPath(c.bsd, Some(geoStem + "." + "svg")).value;
    JoinedBaseName(c.bsd, geoStem, "svg", geoStem + "." + "svg");
  }

  /** A name made of two stems joined by '-' and an extension keeps the joined stems as its base name. */
  lemma MergedStem(dir: Option<string>, geoName: string, qryName: string, ext: string)
    requires ext == "svg" || ext == "txt"
    ensures var geoStem, qryStem := GetBaseName(geoName), GetBaseName(qryName);
            GetBaseName(MergedFile(dir, geoStem, qryStem, ext)) == geoStem + "-" + qryStem
  {
    var geoStem, qryStem := GetBaseName(geoName), GetBaseName(qryName);
    assert '/' !in ext && '.' !in ext;
    NoSlashJoin(geoStem, qryStem);
    JoinedBaseName(dir, geoStem + "-" + qryStem, ext, geoStem + "-" + qryStem + "." + ext);
  }

  /** With a query, the two extra files are the merged names under the output directory. */
  lemma QueryFiles(c: Config)
    requires c.geoName.Some? && c.bsd.Some? && c.fullQryPath.Some? && c.qryName.Some?
    ensures var geoStem, qryStem := GetBaseName(c.geoName.value), GetBaseName(c.qryName.value);
            OutputNames(c).qrySvg == Some(MergedFile(c.bsd, geoStem, qryStem, "svg"))
            && OutputNames(c).txt == Some(MergedFile(c.bsd, geoStem, qryStem, "txt"))
  {
  }

  /** The query drawing and the report are named after both input files, joined by '-'. */
  lemma QueryStems(c: Config)
    requires c.geoName.Some? && c.bsd.Some? && c.fullQryPath.Some? && c.qryName.Some?
    ensures var o, stem := OutputNames(c), GetBaseName(c.geoName.value) + "-" + GetBaseName(c.qryName.value);
            GetBaseName(o.qrySvg.value) == stem && GetBaseName(o.txt.value) == stem
  {
    QueryFiles(c);
    MergedStem(c.bsd, c.geoName.value, c.qryName.value, "svg");
    MergedStem(c.bsd, c.geoName.value, c.qryName.value, "txt");
  }
}

=== FILE: qry.dfy ===
/**
 * The query commands of src/qry.c, run on the figure list read from the
 * `.geo` file. The list is a sequence, changed in place by the program and
 * returned updated here. The two `static` id counters of `processA` and
 * `processCln` survive from one command to the next, so they are part of
 * the state threaded through the commands.
 *
 * Drawing (the SVG output, `visDrawRegion`) and the report lines of the
 * `.txt` file are not modelled. What a command decides about them is kept:
 * which drawing it goes to (the main one, a side file, or none).
 */
module QryCmds {
  import opened Common
  import opened Geom
  import opened Figures
  import opened Scanf
  import opened Vis
  import Paths
  import GeoParse

  /** The first id `a` gives a new line, and the first id `cln` gives a clone. */
  const FIRST_SEGMENT_ID: int := 50000
  const FIRST_CLONE_ID: int := 90000

  /** The least radius of a circle the commands `d`, `p` and `cln` still see. */
  const MIN_RADIUS: real := 0.001

  /** What a command takes from outside: the math library, the number syntax, which files open, and the main output path. */
  datatype Env = Env(m: MathLib, ns: NumSyntax, opens: string -> bool, baseOut: string)

  /** The drawing a command adds to. */
  datatype Target = NoDrawing | MainSvg | SideSvg(path: string)

  // ---------------------------------------------------------------------
  // Helpers
  // ---------------------------------------------------------------------

  /**
   * `makeSvgPathWithSuffix`: cut the path at its last '.', wherever it is,
   * then append '-', the suffix and ".svg".
   */
  function MakeSvgPathWithSuffix(basePath: string, sfx: string): (r: string)
    ensures '.' !in basePath ==> r == basePath + "-" + sfx + ".svg"
  {
    var stem := match Paths.LastIndex(basePath, '.')
                case None => basePath
                case Some(i) => basePath[..i];
    stem + "-" + sfx + ".svg"
  }

  /**
   * The suffix replaces the extension. The cut is at the last '.' of the
   * whole path, so a path whose only dot is in a directory name loses
   * everything after that dot.
   */
  lemma SuffixReplacesExtension(stem: string, ext: string, sfx: string)
    requires '.' !in ext
    ensures MakeSvgPathWithSuffix(stem + "." + ext, sfx) == stem + "-" + sfx + ".svg"
  {
    Paths.LastIndexOfJoin(stem, '.', ext);
    assert (stem + "." + ext)[..|stem|] == stem;
  }

  /** `getShapeName`: the Portuguese name of each shape code. */
  function GetShapeName(shape: int): (name: string)
    ensures name == "DESCONHECIDO" <==> shape !in {CIRCLE, RECTANGLE, LINE, TEXT}
  {
    if shape == CIRCLE then "CIRCULO"
    else if shape == RECTANGLE then "RETANGULO"
    else if shape == LINE then "LINHA"
    else if shape == TEXT then "TEXTO"
    else "DESCONHECIDO"
  }

  /** The shape code a report name stands for; 0 for any other name. */
  function ShapeOfName(name: string): int
  {
    if name == "CIRCULO" then CIRCLE
    else if name == "RETANGULO" then RECTANGLE
    else if name == "LINHA" then LINE
    else if name == "TEXTO" then TEXT
    else 0
  }

  /** The report names tell the four shapes apart. */
  lemma ShapeNameInverse(shape: int)
    ensures ShapeOfName(GetShapeName(shape)) == if shape in {CIRCLE, RECTANGLE, LINE, TEXT} then shape else 0
  {
  }

  /** `getFigureCenter`: the middle of a rectangle, the reference point of anything else. */
  function GetFigureCenter(f: Figure): (c: (real, real))
    ensures !f.Rectangle? ==> c == GetFigureXY(Some(f), 0.0, 0.0)
  {
    var (x, y) := GetFigureXY(Some(f), 0.0, 0.0);
    if GetFigureShape(Some(f)) == RECTANGLE then
      var (w, h) := GetRectangleWH(Some(f), 0.0, 0.0);
      (x + w / 2.0, y + h / 2.0)
    else (x, y)
  }

  /** For a rectangle or a circle, the centre is the middle of the extent the scene bounds use. */
  lemma CenterOfExtent(f: Figure)
    requires f.Rectangle? || f.Circle?
    ensures var e, c := Extent(f), GetFigureCenter(f);
            |e| == 2 && c == ((e[0].0 + e[1].0) / 2.0, (e[0].1 + e[1].1) / 2.0)
  {
  }

  /** A circle flattened to radius below MIN_RADIUS: `d`, `p` and `cln` pass over it. */
  predicate Skipped(f: Figure)
  {
    GetFigureShape(Some(f)) == CIRCLE && GetCircleR(Some(f)) < MIN_RADIUS
  }

  /**
   * The circle `setCircle(f, id, x, y, 0.0, "none", "none")` leaves: same
   * id and centre, no radius, no colours.
   */
  function Collapse(f: Figure): (g: Figure)
    requires f.Circle?
    ensures g.Circle? && g.id == f.id && g.x == f.x && g.y == f.y && g.radius == 0.0
    ensures g.colorB == "none" && g.colorF == "none"
    ensures Skipped(g)
  {
    var (x, y) := GetFigureXY(Some(f), 0.0, 0.0);
    SetCircle(Some(f), GetFigureId(Some(f)), x, y, 0.0, "none", "none").value
  }

  // ---------------------------------------------------------------------
  // `a`: circles to lines
  // ---------------------------------------------------------------------

  const A_FMT: Format := Format("", [CInt, CInt, CChar])

  /** A circle whose id lies in the range. */
  predicate InRange(lo: int, hi: int, f: Figure)
  {
    var id := GetFigureId(Some(f));
    id >= lo && id <= hi && GetFigureShape(Some(f)) == CIRCLE
  }

  /** The circles of a list in the range, in list order. */
  function Selected(lo: int, hi: int, figs: seq<Figure>): (s: seq<Figure>)
    ensures |s| <= |figs|
    ensures forall j :: 0 <= j < |s| ==> InRange(lo, hi, s[j])
  {
    if figs == [] then []
    else if InRange(lo, hi, figs[0]) then [figs[0]] + Selected(lo, hi, figs[1..])
    else Selected(lo, hi, figs[1..])
  }

  /**
   * The line `a` puts in place of a circle: through the centre, horizontal
   * for 'h' and vertical for any other orientation, as long as the
   * diameter, in the circle's border colour.
   */
  function Diameter(f: Figure, orient: char, id: int): (l: Figure)
    requires f.Circle?
    ensures l.Line? && l.id == id && l.color == f.colorB
    ensures (l.x1 + l.x2) / 2.0 == f.x && (l.y1 + l.y2) / 2.0 == f.y
    ensures orient == 'h' ==> l.y1 == l.y2 == f.y && l.x2 - l.x1 == 2.0 * f.radius
    ensures orient != 'h' ==> l.x1 == l.x2 == f.x && l.y2 - l.y1 == 2.0 * f.radius
  {
    var (x, y) := GetFigureXY(Some(f), 0.0, 0.0);
    var r := GetCircleR(Some(f));
    var (cb, _) := GetFigureColors(Some(f), "", "");
    var (x1, y1, x2, y2) := if orient == 'h' then (x - r, y, x + r, y) else (x, y - r, x, y + r);
    SetLine(FigureInit(LINE), id, x1, y1, x2, y2, cb).value
  }

  /** Both ends of the line lie on the circle. */
  lemma DiameterEndsOnCircle(f: Figure, orient: char, id: int)
    requires f.Circle?
    ensures var l := Diameter(f, orient, id);
            DistSq(l.x1, l.y1, f.x, f.y) == f.radius * f.radius
            && DistSq(l.x2, l.y2, f.x, f.y) == f.radius * f.radius
  {
  }

  /**
   * The scan of `processA`: every circle in the range is collapsed where
   * it stands, and its diameter line, numbered from `next` on, is collected
   * for appending.
   */
  function {:induction false} ConvertCircles(figs: seq<Figure>, lo: int, hi: int, orient: char, next: int)
    : (r: (seq<Figure>, seq<Figure>))
    ensures |r.0| == |figs|
    ensures forall k :: 0 <= k < |figs| ==>
              r.0[k] == if InRange(lo, hi, figs[k]) then Collapse(figs[k]) else figs[k]
    ensures |r.1| == |Selected(lo, hi, figs)|
    ensures forall j :: 0 <= j < |r.1| ==> r.1[j] == Diameter(Selected(lo, hi, figs)[j], orient, next + j)
    decreases |figs|
  {
    if figs == [] then ([], [])
    else
      var (kept, lines) := ConvertCircles(figs[1..], lo, hi, orient, if InRange(lo, hi, figs[0]) then next + 1 else next);
      if InRange(lo, hi, figs[0]) then
        ([Collapse(figs[0])] + kept, [Diameter(figs[0], orient, next)] + lines)
      else ([figs[0]] + kept, lines)
  }

  /**
   * `processA`: without three fields nothing happens. Otherwise the
   * circles in the id range are collapsed and their diameters appended
   * after the whole list, so the new lines are never themselves converted;
   * the counter moves past the ids handed out.
   */
  function ProcessA(ns: NumSyntax, params: string, figs: seq<Figure>, next: int): (r: (seq<Figure>, int))
    ensures |Scan(ns, A_FMT, params)| != 3 ==> r == (figs, next)
    ensures r.1 - next == |r.0| - |figs| >= 0
    ensures forall k :: |figs| <= k < |r.0| ==> r.0[k].Line? && r.0[k].id == next + (k - |figs|)
    ensures forall k :: 0 <= k < |figs| ==>
              r.0[k] == figs[k] || (figs[k].Circle? && r.0[k] == Collapse(figs[k]))
  {
    var v := Scan(ns, A_FMT, params);
    if |v| != 3 then (figs, next)
    else
      var (kept, lines) := ConvertCircles(figs, IntOf(v[0]), IntOf(v[1]), CharOf(v[2]), next);
      (kept + lines, next + |lines|)
  }

  /** After `a`, every circle it converted is passed over by `d`, `p` and `cln`. */
  lemma ConvertedCirclesSkipped(ns: NumSyntax, params: string, figs: seq<Figure>, next: int, k: nat)
    requires k < |figs| && ProcessA(ns, params, figs, next).0[k] != figs[k]
    ensures Skipped(ProcessA(ns, params, figs, next).0[k])
  {
  }

  // ---------------------------------------------------------------------
  // `d` and `p`: the sweep over visible figures
  // ---------------------------------------------------------------------

  const D_FMT: Format := Format("", [CReal, CReal, CStr])
  const P_FMT: Format := Format("", [CReal, CReal, CStr, CStr])

  /** What `d` or `p` does to a figure it sees. */
  datatype Action = Destroy | Paint(color: string)

  /**
   * `d` collapses a circle at its centre and blanks the colours of
   * anything else; `p` colours border and fill alike.
   */
  function Apply(act: Action, f: Figure): (g: Figure)
    ensures g.id == f.id && ShapeCode(g) == ShapeCode(f)
    ensures act.Paint? ==> SameShape(g, f)
  {
    match act
    case Destroy =>
      if GetFigureShape(Some(f)) == CIRCLE then Collapse(f)
      else PutFigureColor(Some(f), "none", "none").value
    case Paint(color) =>
      PaintKeepsShape(f, color, color);
      PutFigureColor(Some(f), color, color).value
  }

  /**
   * Whether the command at (x, y) acts on `f` with the list as it stands:
   * not a flattened circle, and its centre visible from (x, y). The sweep
   * angle of the observer context plays no part in the test.
   */
  predicate Sees(m: MathLib, x: real, y: real, figs: seq<Figure>, f: Figure)
  {
    var (fx, fy) := GetFigureCenter(f);
    !Skipped(f) && Visible(m, Ctx(x, y, 0.0), Some(figs), fx, fy)
  }

  /** The same test with `visIsVisible` as the program writes it. */
  predicate SeesAsWritten(m: MathLib, x: real, y: real, figs: seq<Figure>, f: Figure)
  {
    var (fx, fy) := GetFigureCenter(f);
    !Skipped(f) && VisibleAsWritten(m, Ctx(x, y, 0.0), Some(figs), fx, fy)
  }

  /**
   * The two tests differ only on figures whose centre lies farther than
   * MAX_DIST_VAL + SLACK from the command's point.
   */
  lemma SeesAgreesNearby(m: MathLib, x: real, y: real, figs: seq<Figure>, f: Figure)
    requires var (fx, fy) := GetFigureCenter(f); TargetDistance(m, x, y, fx, fy) <= MAX_DIST_VAL + SLACK
    ensures SeesAsWritten(m, x, y, figs, f) == Sees(m, x, y, figs, f)
  {
    var (fx, fy) := GetFigureCenter(f);
    VisibleAgreesNearby(m, Ctx(x, y, 0.0), Some(figs), fx, fy);
  }

  /** The test `processD` and `processP` make, for a command at (x, y). */
  function SeesFrom(m: MathLib, x: real, y: real): (test: (seq<Figure>, Figure) -> bool)
    ensures forall figs, f :: test(figs, f) == Sees(m, x, y, figs, f)
  {
    (figs: seq<Figure>, f: Figure) => Sees(m, x, y, figs, f)
  }

  /**
   * The loop of `processD` and `processP` from position `i`: each figure
   * is put to the test against the list as the loop has left it so far.
   * What the test decides is stated by `SweepDecides`.
   */
  function {:induction false} SweepFrom(test: (seq<Figure>, Figure) -> bool, act: Action, figs: seq<Figure>, i: nat)
    : (r: seq<Figure>)
    requires i <= |figs|
    ensures |r| == |figs| && r[..i] == figs[..i]
    ensures forall k :: 0 <= k < |r| ==> r[k] == figs[k] || r[k] == Apply(act, figs[k])
    decreases |figs| - i
  {
    if i == |figs| then figs
    else
      var f := figs[i];
      var figs' := if test(figs, f) then figs[i := Apply(act, f)] else figs;
      var r := SweepFrom(test, act, figs', i + 1);
      SweepStep(act, figs, i, figs', r);
      r
  }

  /** One step of the sweep: position `i` changed or not, the rest left to the recursive call. */
  lemma SweepStep(act: Action, figs: seq<Figure>, i: nat, figs': seq<Figure>, r: seq<Figure>)
    requires i < |figs|
    requires figs' == figs || figs' == figs[i := Apply(act, figs[i])]
    requires |r| == |figs'| && r[..i + 1] == figs'[..i + 1]
    requires forall k :: 0 <= k < |r| ==> r[k] == figs'[k] || r[k] == Apply(act, figs'[k])
    ensures r[..i] == figs[..i]
    ensures forall k :: 0 <= k < |r| ==> r[k] == figs[k] || r[k] == Apply(act, figs[k])
  {
    assert r[..i] == figs'[..i + 1][..i] == figs[..i];
    assert r[i] == figs'[..i + 1][i] == figs'[i];
    forall k | 0 <= k < |r|
      ensures r[k] == figs[k] || r[k] == Apply(act, figs[k])
    {
      if k != i {
        assert figs'[k] == figs[k];
      }
    }
  }

  /** The list as the sweep from `i` has left it on reaching `k`. */
  function Reached(r: seq<Figure>, figs: seq<Figure>, k: nat): (now: seq<Figure>)
    requires k <= |r| && k <= |figs|
    ensures |now| == |figs|
  {
    r[..k] + figs[k..]
  }

  /** The step at `i` itself: decided on the list before any change. */
  lemma SweepDecidesFirst(test: (seq<Figure>, Figure) -> bool, act: Action, figs: seq<Figure>, i: nat)
    requires i < |figs|
    ensures var r := SweepFrom(test, act, figs, i);
            r[i] == if test(Reached(r, figs, i), figs[i]) then Apply(act, figs[i]) else figs[i]
  {
    var r := SweepFrom(test, act, figs, i);
    var figs' := if test(figs, figs[i]) then figs[i := Apply(act, figs[i])] else figs;
    assert r == SweepFrom(test, act, figs', i + 1);
    PrefixAt(r, figs', i);
    PrefixJoin(r, figs, i);
  }

  /** A later step: the first one changed nothing at or after `k`, so the rest of the sweep decides it. */
  lemma SweepDecidesLater(test: (seq<Figure>, Figure) -> bool, act: Action, figs: seq<Figure>, i: nat, k: nat)
    requires i < k < |figs|
    requires var figs' := if test(figs, figs[i]) then figs[i := Apply(act, figs[i])] else figs;
             var r := SweepFrom(test, act, figs', i + 1);
             r[k] == if test(Reached(r, figs', k), figs'[k]) then Apply(act, figs'[k]) else figs'[k]
    ensures var r := SweepFrom(test, act, figs, i);
            r[k] == if test(Reached(r, figs, k), figs[k]) then Apply(act, figs[k]) else figs[k]
  {
    var figs' := if test(figs, figs[i]) then figs[i := Apply(act, figs[i])] else figs;
    assert SweepFrom(test, act, figs, i) == SweepFrom(test, act, figs', i + 1);
    assert figs'[k] == figs[k];
    assert figs'[k..] == figs[k..];
  }

  /**
   * The sweep acts on the figure at position `k` exactly when the test
   * passes on the list as the sweep has left it on reaching `k`: the
   * figures before it already processed, the rest as they were.
   */
  lemma {:induction false} SweepDecides(test: (seq<Figure>, Figure) -> bool, act: Action, figs: seq<Figure>,
                                        i: nat, k: nat)
    requires i <= k < |figs|
    ensures var r := SweepFrom(test, act, figs, i);
            r[k] == if test(Reached(r, figs, k), figs[k]) then Apply(act, figs[k]) else figs[k]
    decreases |figs| - i
  {
    if k == i {
      SweepDecidesFirst(test, act, figs, i);
    } else {
      var figs' := if test(figs, figs[i]) then figs[i := Apply(act, figs[i])] else figs;
      SweepDecides(test, act, figs', i + 1, k);
      SweepDecidesLater(test, act, figs, i, k);
    }
  }

  /** Painting some of the figures, whichever, keeps every shape of the list. */
  lemma PaintedSameShapes(color: string, figs: seq<Figure>, r: seq<Figure>, k: nat)
    requires |r| == |figs| && k <= |figs|
    requires forall j :: 0 <= j < |r| ==> r[j] == figs[j] || r[j] == Apply(Paint(color), figs[j])
    ensures SameShapes(Reached(r, figs, k), figs)
  {
    var now := r[..k] + figs[k..];
    forall j | 0 <= j < |figs|
      ensures SameShape(now[j], figs[j])
    {
      if j < k {
        assert now[j] == r[j];
      } else {
        assert now[j] == figs[j];
      }
    }
  }

  /**
   * Painting changes no shape, so with `p` every figure is tested against
   * the list as it was before the command: the order of the sweep does not
   * matter.
   */
  lemma PaintSeesSnapshot(m: MathLib, x: real, y: real, color: string, figs: seq<Figure>, k: nat)
    requires k < |figs|
    ensures var r := SweepFrom(SeesFrom(m, x, y), Paint(color), figs, 0);
            r[k] == if Sees(m, x, y, figs, figs[k]) then Apply(Paint(color), figs[k]) else figs[k]
  {
    var r := SweepFrom(SeesFrom(m, x, y), Paint(color), figs, 0);
    var now := Reached(r, figs, k);
    SweepDecides(SeesFrom(m, x, y), Paint(color), figs, 0, k);
    PaintedSameShapes(color, figs, r, k);
    var (fx, fy) := GetFigureCenter(figs[k]);
    SameShapesVisible(m, Ctx(x, y, 0.0), now, figs, fx, fy);
    assert Sees(m, x, y, now, figs[k]) == Sees(m, x, y, figs, figs[k]);
  }

  /** The drawing a command with suffix `sfx` goes to: "-" is the main one. */
  function TargetFor(baseOut: string, sfx: string): (t: Target)
    ensures t != NoDrawing
    ensures t == MainSvg <==> sfx == "-"
  {
    if sfx == "-" then MainSvg else SideSvg(MakeSvgPathWithSuffix(baseOut, sfx))
  }

  /** A side file that cannot be created stops the command before it changes anything. */
  predicate Blocked(env: Env, t: Target)
  {
    t.SideSvg? && !env.opens(t.path)
  }

  /**
   * `processD`: without three fields, or when the side file cannot be
   * created, nothing happens. Otherwise every figure still seen from
   * (x, y) when its turn comes is destroyed.
   */
  function ProcessD(env: Env, params: string, figs: seq<Figure>): (r: (seq<Figure>, Target))
    ensures var v := Scan(env.ns, D_FMT, params);
            |v| < 3 ==> r == (figs, NoDrawing)
    ensures var v := Scan(env.ns, D_FMT, params);
            |v| == 3 ==>
              var t := TargetFor(env.baseOut, StrOf(v[2]));
              if Blocked(env, t) then r == (figs, NoDrawing)
              else r == (SweepFrom(SeesFrom(env.m, RealOf(v[0]), RealOf(v[1])), Destroy, figs, 0), t)
  {
    var v := Scan(env.ns, D_FMT, params);
    if |v| < 3 then (figs, NoDrawing)
    else
      var (x, y, sfx) := (RealOf(v[0]), RealOf(v[1]), StrOf(v[2]));
      var t := TargetFor(env.baseOut, sfx);
      if Blocked(env, t) then (figs, NoDrawing)
      else (SweepFrom(SeesFrom(env.m, x, y), Destroy, figs, 0), t)
  }

  /**
   * `processP`: without three fields nothing happens; a missing suffix
   * means the main drawing. Every figure seen from (x, y) takes the colour
   * for border and fill.
   */
  function ProcessP(env: Env, params: string, figs: seq<Figure>): (r: (seq<Figure>, Target))
    ensures var v := Scan(env.ns, P_FMT, params);
            |v| < 3 ==> r == (figs, NoDrawing)
    ensures var v := Scan(env.ns, P_FMT, params);
            |v| == 3 ==> r == (SweepFrom(SeesFrom(env.m, RealOf(v[0]), RealOf(v[1])), Paint(StrOf(v[2])), figs, 0), MainSvg)
    ensures var v := Scan(env.ns, P_FMT, params);
            |v| == 4 ==>
              var t := TargetFor(env.baseOut, StrOf(v[3]));
              if Blocked(env, t) then r == (figs, NoDrawing)
              else r == (SweepFrom(SeesFrom(env.m, RealOf(v[0]), RealOf(v[1])), Paint(StrOf(v[2])), figs, 0), t)
  {
    var v := Scan(env.ns, P_FMT, params);
    if |v| < 3 then (figs, NoDrawing)
    else
      var (x, y, color) := (RealOf(v[0]), RealOf(v[1]), StrOf(v[2]));
      var sfx := if |v| == 3 then "-" else StrOf(v[3]);
      var t := TargetFor(env.baseOut, sfx);
      if Blocked(env, t) then (figs, NoDrawing)
      else (SweepFrom(SeesFrom(env.m, x, y), Paint(color), figs, 0), t)
  }

  // ---------------------------------------------------------------------
  // `cln`: clones of the visible figures
  // ---------------------------------------------------------------------

  const CLN_FMT: Format := Format("", [CReal, CReal, CReal, CReal, CStr])

  /** The figure with another id and nothing else changed. */
  function Relabel(f: Figure, id: int): (g: Figure)
    ensures g.id == id && ShapeCode(g) == ShapeCode(f)
  {
    match f
    case Circle(_, x, y, r, b, fc) => Circle(id, x, y, r, b, fc)
    case Rectangle(_, x, y, w, h, b, fc) => Rectangle(id, x, y, w, h, b, fc)
    case Line(_, x1, y1, x2, y2, c) => Line(id, x1, y1, x2, y2, c)
    case Text(_, x, y, b, fc, a, t, fm, wg, sz) => Text(id, x, y, b, fc, a, t, fm, wg, sz)
  }

  /**
   * The clone `processCln` builds, as written: a fresh figure of the same
   * shape filled through the setter of its shape, moved by (dx, dy). There
   * is no branch for a text, so a text's clone stays as `figureInit` left it.
   */
  function CloneAsWritten(f: Figure, id: int, dx: real, dy: real): (c: Figure)
    ensures ShapeCode(c) == ShapeCode(f)
  {
    var shape := GetFigureShape(Some(f));
    var (ox, oy) := GetFigureXY(Some(f), 0.0, 0.0);
    var (cb, cf) := GetFigureColors(Some(f), "", "");
    var nf := FigureInit(shape);
    if shape == CIRCLE then
      SetCircle(nf, id, ox + dx, oy + dy, GetCircleR(Some(f)), cb, cf).value
    else if shape == RECTANGLE then
      var (w, h) := GetRectangleWH(Some(f), 0.0, 0.0);
      SetRectangle(nf, id, ox + dx, oy + dy, w, h, cb, cf).value
    else if shape == LINE then
      var (x1, y1, x2, y2) := GetLineP(Some(f), 0.0, 0.0, 0.0, 0.0);
      SetLine(nf, id, x1 + dx, y1 + dy, x2 + dx, y2 + dy, cb).value
    else
      nf.value
  }

  /** As written, the clone of a text is the same blank text whatever the original. */
  lemma TextCloneIsBlank(f: Figure, id: int, dx: real, dy: real)
    requires f.Text?
    ensures CloneAsWritten(f, id, dx, dy) == FigureInit(TEXT).value
    ensures f.txt != "" ==> CloneAsWritten(f, id, dx, dy).txt != f.txt
  {
  }

  /** The clone as intended: every shape, a text included, copied with a new id and moved by (dx, dy). */
  function Clone(f: Figure, id: int, dx: real, dy: real): (c: Figure)
    ensures ShapeCode(c) == ShapeCode(f) && c.id == id
    ensures !f.Text? ==> c == CloneAsWritten(f, id, dx, dy)
  {
    if GetFigureShape(Some(f)) == TEXT then
      var (ox, oy) := GetFigureXY(Some(f), 0.0, 0.0);
      var (cb, cf) := GetFigureColors(Some(f), "", "");
      SetText(FigureInit(TEXT), id, ox + dx, oy + dy, cb, cf, GetTextA(Some(f)), GetTextTxt(Some(f), ""),
              GetTextFamily(Some(f), ""), GetTextWeight(Some(f), ""), GetTextSize(Some(f))).value
    else CloneAsWritten(f, id, dx, dy)
  }

  /** A clone is the original with the new id, moved by (dx, dy) as `fMoveTo` moves it. */
  lemma CloneIsMovedCopy(f: Figure, id: int, dx: real, dy: real)
    ensures var (ox, oy) := GetFigureXY(Some(f), 0.0, 0.0);
            Some(Clone(f, id, dx, dy)) == FMoveTo(Some(Relabel(f, id)), ox + dx, oy + dy)
  {
  }

  /** The figures of `figs` the command at (x, y) sees in the list `all`, in list order. */
  function Seen(m: MathLib, x: real, y: real, all: seq<Figure>, figs: seq<Figure>): (s: seq<Figure>)
    ensures |s| <= |figs|
  {
    if figs == [] then []
    else if Sees(m, x, y, all, figs[0]) then [figs[0]] + Seen(m, x, y, all, figs[1..])
    else Seen(m, x, y, all, figs[1..])
  }

  /** A figure is kept by the scan exactly when it is in the list and seen. */
  lemma {:induction false} SeenMembers(m: MathLib, x: real, y: real, all: seq<Figure>, figs: seq<Figure>, f: Figure)
    ensures f in Seen(m, x, y, all, figs) <==> f in figs && Sees(m, x, y, all, f)
    decreases |figs|
  {
    if figs != [] {
      SeenMembers(m, x, y, all, figs[1..], f);
      assert figs == [figs[0]] + figs[1..];
    }
  }

  /** The clones of the figures seen, numbered on from `next` in scan order. */
  function {:induction false} ClonesOf(seen: seq<Figure>, next: int, dx: real, dy: real): (cs: seq<Figure>)
    ensures |cs| == |seen|
    ensures forall j :: 0 <= j < |cs| ==> cs[j] == Clone(seen[j], next + j, dx, dy)
    decreases |seen|
  {
    if seen == [] then []
    else [Clone(seen[0], next, dx, dy)] + ClonesOf(seen[1..], next + 1, dx, dy)
  }

  /**
   * The list after a command that appends: what was there stays in front,
   * and the new figures after it carry the ids from `next` on, the counter
   * ending just past them.
   */
  predicate Appended(figs: seq<Figure>, next: int, figs': seq<Figure>, next': int)
  {
    |figs| <= |figs'| && figs'[..|figs|] == figs && next' - next == |figs'| - |figs|
    && forall k :: |figs| <= k < |figs'| ==> figs'[k].id == next + (k - |figs|)
  }

  /** The appended figures are the clones of the figures seen, in list order. */
  predicate ClonesAppended(m: MathLib, x: real, y: real, dx: real, dy: real, figs: seq<Figure>, next: int,
                           figs': seq<Figure>)
  {
    var seen := Seen(m, x, y, figs, figs);
    |figs'| == |figs| + |seen|
    && forall j :: 0 <= j < |seen| ==> figs'[|figs| + j] == Clone(seen[j], next + j, dx, dy)
  }

  /**
   * `processCln`: without four fields, or when the side file cannot be
   * created, nothing happens; a missing suffix means the main drawing.
   * Otherwise the clones of the figures seen from (x, y) are appended
   * after the scan, numbered from the counter on.
   */
  function ProcessCln(env: Env, params: string, figs: seq<Figure>, next: int): (r: (seq<Figure>, int, Target))
    ensures |Scan(env.ns, CLN_FMT, params)| < 4 ==> r == (figs, next, NoDrawing)
    ensures Appended(figs, next, r.0, r.1)
    ensures var v := Scan(env.ns, CLN_FMT, params);
            |v| >= 4 && r.2 != NoDrawing ==>
              ClonesAppended(env.m, RealOf(v[0]), RealOf(v[1]), RealOf(v[2]), RealOf(v[3]), figs, next, r.0)
  {
    var v := Scan(env.ns, CLN_FMT, params);
    if |v| < 4 then
      assert figs[..|figs|] == figs;
      (figs, next, NoDrawing)
    else
      var (x, y, dx, dy) := (RealOf(v[0]), RealOf(v[1]), RealOf(v[2]), RealOf(v[3]));
      var sfx := if |v| == 4 then "-" else StrOf(v[4]);
      var t := TargetFor(env.baseOut, sfx);
      if Blocked(env, t) then
        assert figs[..|figs|] == figs;
        (figs, next, NoDrawing)
      else
        var cs := ClonesOf(Seen(env.m, x, y, figs, figs), next, dx, dy);
        AppendClones(env.m, x, y, dx, dy, figs, next);
        (figs + cs, next + |cs|, t)
  }

  lemma AppendClones(m: MathLib, x: real, y: real, dx: real, dy: real, figs: seq<Figure>, next: int)
    ensures var cs := ClonesOf(Seen(m, x, y, figs, figs), next, dx, dy);
            Appended(figs, next, figs + cs, next + |cs|) && ClonesAppended(m, x, y, dx, dy, figs, next, figs + cs)
  {
    var cs := ClonesOf(Seen(m, x, y, figs, figs), next, dx, dy);
    var r := figs + cs;
    assert r[..|figs|] == figs;
    forall k | |figs| <= k < |r|
      ensures r[k].id == next + (k - |figs|)
    {
      assert r[k] == cs[k - |figs|];
    }
  }

  // ---------------------------------------------------------------------
  // Dispatch
  // ---------------------------------------------------------------------

  /** The figure list and the two static counters. */
  datatype QryState = QryState(figs: seq<Figure>, nextSegment: int, nextClone: int)

  function InitQryState(figs: seq<Figure>): (st: QryState)
    ensures st.figs == figs && st.nextSegment == FIRST_SEGMENT_ID && st.nextClone == FIRST_CLONE_ID
  {
    QryState(figs, FIRST_SEGMENT_ID, FIRST_CLONE_ID)
  }

  /** The command word and the rest of the line. */
  const QRY_LINE_FMT: Format := Format("", [CStr, CRest])

  /** `processQryLine`: the exact words a, d, p and cln select a command; any other line does nothing. */
  function ProcessQryLine(env: Env, line: string, st: QryState): (r: (QryState, Target))
    ensures var v := Scan(env.ns, QRY_LINE_FMT, line);
            (v == [] || StrOf(v[0]) !in {"a", "d", "p", "cln"}) ==> r == (st, NoDrawing)
  {
    var v := Scan(env.ns, QRY_LINE_FMT, line);
    if |v| < 1 then (st, NoDrawing)
    else
      var cmd := StrOf(v[0]);
      var params := if |v| == 2 then StrOf(v[1]) else "";
      if cmd == "a" then
        var (figs, n) := ProcessA(env.ns, params, st.figs, st.nextSegment);
        (st.(figs := figs, nextSegment := n), NoDrawing)
      else if cmd == "d" then
        var (figs, t) := ProcessD(env, params, st.figs);
        (st.(figs := figs), t)
      else if cmd == "p" then
        var (figs, t) := ProcessP(env, params, st.figs);
        (st.(figs := figs), t)
      else if cmd == "cln" then
        var (figs, n, t) := ProcessCln(env, params, st.figs, st.nextClone);
        (st.(figs := figs, nextClone := n), t)
      else (st, NoDrawing)
  }

  /** Every figure of the old list keeps its place, its shape and its id. */
  predicate KeepsPlaces(figs: seq<Figure>, figs': seq<Figure>)
  {
    |figs| <= |figs'|
    && forall k :: 0 <= k < |figs| ==> ShapeCode(figs'[k]) == ShapeCode(figs[k]) && figs'[k].id == figs[k].id
  }

  /** What no command undoes: the list only grows, keeping its places, and the counters never go back. */
  predicate Grows(st: QryState, st': QryState)
  {
    KeepsPlaces(st.figs, st'.figs) && st.nextSegment <= st'.nextSegment && st.nextClone <= st'.nextClone
  }

  lemma AKeepsPlaces(ns: NumSyntax, params: string, figs: seq<Figure>, next: int)
    ensures KeepsPlaces(figs, ProcessA(ns, params, figs, next).0) && ProcessA(ns, params, figs, next).1 >= next
  {
    var r := ProcessA(ns, params, figs, next).0;
    forall k | 0 <= k < |figs|
      ensures ShapeCode(r[k]) == ShapeCode(figs[k]) && r[k].id == figs[k].id
    {
      if r[k] != figs[k] {
        assert figs[k].Circle? && r[k] == Collapse(figs[k]);
      }
    }
  }

  lemma SweepKeepsPlaces(m: MathLib, x: real, y: real, act: Action, figs: seq<Figure>)
    ensures KeepsPlaces(figs, SweepFrom(SeesFrom(m, x, y), act, figs, 0))
  {
    var r := SweepFrom(SeesFrom(m, x, y), act, figs, 0);
    forall k | 0 <= k < |figs|
      ensures ShapeCode(r[k]) == ShapeCode(figs[k]) && r[k].id == figs[k].id
    {
      assert r[k] == figs[k] || r[k] == Apply(act, figs[k]);
    }
  }

  lemma DKeepsPlaces(env: Env, params: string, figs: seq<Figure>)
    ensures KeepsPlaces(figs, ProcessD(env, params, figs).0)
  {
    var v := Scan(env.ns, D_FMT, params);
    if |v| == 3 {
      SweepKeepsPlaces(env.m, RealOf(v[0]), RealOf(v[1]), Destroy, figs);
    }
  }

  lemma PKeepsPlaces(env: Env, params: string, figs: seq<Figure>)
    ensures KeepsPlaces(figs, ProcessP(env, params, figs).0)
  {
    var v := Scan(env.ns, P_FMT, params);
    if |v| >= 3 {
      SweepKeepsPlaces(env.m, RealOf(v[0]), RealOf(v[1]), Paint(StrOf(v[2])), figs);
    }
  }

  lemma ClnKeepsPlaces(env: Env, params: string, figs: seq<Figure>, next: int)
    ensures KeepsPlaces(figs, ProcessCln(env, params, figs, next).0) && ProcessCln(env, params, figs, next).1 >= next
  {
    var r := ProcessCln(env, params, figs, next).0;
    forall k | 0 <= k < |figs|
      ensures r[k] == figs[k]
    {
      assert r[..|figs|][k] == figs[k];
    }
  }

  lemma QryLineGrows(env: Env, line: string, st: QryState)
    ensures Grows(st, ProcessQryLine(env, line, st).0)
  {
    var v := Scan(env.ns, QRY_LINE_FMT, line);
    var st' := ProcessQryLine(env, line, st).0;
    if |v| >= 1 {
      var cmd := StrOf(v[0]);
      var params := if |v| == 2 then StrOf(v[1]) else "";
      if cmd == "a" {
        AKeepsPlaces(env.ns, params, st.figs, st.nextSegment);
        var (figs, n) := ProcessA(env.ns, params, st.figs, st.nextSegment);
        assert st' == st.(figs := figs, nextSegment := n);
      } else if cmd == "d" {
        DKeepsPlaces(env, params, st.figs);
        assert st' == st.(figs := ProcessD(env, params, st.figs).0);
      } else if cmd == "p" {
        PKeepsPlaces(env, params, st.figs);
        assert st' == st.(figs := ProcessP(env, params, st.figs).0);
      } else if cmd == "cln" {
        ClnKeepsPlaces(env, params, st.figs, st.nextClone);
        var (figs, n, _) := ProcessCln(env, params, st.figs, st.nextClone);
        assert st' == st.(figs := figs, nextClone := n);
      } else {
        assert st' == st;
      }
    } else {
      assert st' == st;
    }
  }

  /** `processQry`: each line, cut at its first CR or LF, in file order; the drawings each command went to. */
  function ProcessQry(env: Env, lines: seq<string>, st: QryState): (r: (QryState, seq<Target>))
    ensures |r.1| == |lines|
    decreases |lines|
  {
    if lines == [] then (st, [])
    else
      var (st1, t) := ProcessQryLine(env, GeoParse.StripCrLf(lines[0]), st);
      var (st2, ts) := ProcessQry(env, lines[1..], st1);
      (st2, [t] + ts)
  }

  /** Over a whole query file the figure list only grows, and what it held keeps its shapes and ids. */
  lemma {:induction false} QryGrows(env: Env, lines: seq<string>, st: QryState)
    ensures Grows(st, ProcessQry(env, lines, st).0)
    decreases |lines|
  {
    if lines != [] {
      var st1 := ProcessQryLine(env, GeoParse.StripCrLf(lines[0]), st).0;
      QryLineGrows(env, GeoParse.StripCrLf(lines[0]), st);
      QryGrows(env, lines[1..], st1);
    }
  }
}

=== FILE: queue.dfy ===
/**
 * The FIFO queue of src/queue.c: a singly linked list with `front` and
 * `rear` node pointers and a `size` counter. The node chain from `front`
 * is kept as the sequence of stored items; each of the two pointers is
 * kept as the item of the node it points to, `None` standing for NULL. A
 * `Queue` handle is `Option<Queue<T>>`, `None` being the NULL handle.
 */
module FifoQueue {
  import opened Common

  datatype Queue<T> = Queue(items: seq<T>, front: Option<T>, rear: Option<T>, size: int)

  /**
   * The representation invariant the operations keep: `size` counts the
   * chain, and `front` and `rear` are NULL exactly when the queue is empty,
   * otherwise they point at the first and the last node.
   */
  ghost predicate Valid<T>(q: Queue<T>)
  {
    q.size == |q.items|
    && (q.front.None? <==> q.size == 0)
    && (q.rear.None? <==> q.size == 0)
    && (q.size > 0 ==> q.front == Some(q.items[0]) && q.rear == Some(q.items[|q.items| - 1]))
  }

  /** `queueInit`: an empty queue (allocation failure is not modelled). */
  function QueueInit<T>(): (q: Option<Queue<T>>)
    ensures q.Some? && Valid(q.value) && q.value.items == []
    ensures IsEmpty(q) && GetSize(q) == 0
  {
    Some(Queue([], None, None, 0))
  }

  /** `queueIsEmpty`: true for a NULL queue or a zero size. */
  function IsEmpty<T>(q: Option<Queue<T>>): bool
  {
    q.None? || q.value.size == 0
  }

  /** `queueGetSize`: -1 for a NULL queue. */
  function GetSize<T>(q: Option<Queue<T>>): int
  {
    if q.None? then -1 else q.value.size
  }

  /** On a valid queue, emptiness and size are read off the stored items. */
  lemma EmptyMeansNoItems<T>(q: Option<Queue<T>>)
    requires q.Some? ==> Valid(q.value)
    ensures IsEmpty(q) <==> q.None? || q.value.items == []
    ensures q.Some? ==> GetSize(q) == |q.value.items|
    ensures q.None? ==> GetSize(q) == -1
  {
  }

  /**
   * `queueEnqueue`: on a NULL queue nothing happens and the result is 0;
   * otherwise the item is linked after the rear node (or becomes the front
   * of an empty queue), the size grows by one and the result is 1.
   */
  function Enqueue<T>(q: Option<Queue<T>>, x: T): (r: (Option<Queue<T>>, int))
    requires q.Some? ==> Valid(q.value)
    ensures q.None? ==> r == (None, 0)
    ensures q.Some? ==> r.1 == 1 && r.0.Some? && Valid(r.0.value)
    ensures q.Some? ==> r.0.value.items == q.value.items + [x] && GetSize(r.0) == GetSize(q) + 1
  {
    if q.None? then (None, 0)
    else
      var Queue(items, front, _, size) := q.value;
      var front' := if IsEmpty(q) then Some(x) else front;
      (Some(Queue(items + [x], front', Some(x), size + 1)), 1)
  }

  /**
   * `queueDequeue`: on a NULL or empty queue nothing changes and the result
   * is NULL; otherwise the front node is unlinked and its item returned,
   * and `rear` is cleared when the last node goes.
   */
  function Dequeue<T>(q: Option<Queue<T>>): (r: (Option<Queue<T>>, Option<T>))
    requires q.Some? ==> Valid(q.value)
    ensures IsEmpty(q) ==> r == (q, None)
    ensures !IsEmpty(q) ==>
              r.0.Some? && Valid(r.0.value)
              && r.1 == Some(q.value.items[0])
              && [r.1.value] + r.0.value.items == q.value.items
              && GetSize(r.0) == GetSize(q) - 1
  {
    if q.None? || IsEmpty(q) then (q, None)
    else
      var Queue(items, front, rear, size) := q.value;
      var data := front.value;
      var front' := if |items| > 1 then Some(items[1]) else None;
      var rear' := if front'.None? then None else rear;
      (Some(Queue(items[1..], front', rear', size - 1)), Some(data))
  }

  /** Enqueue every item of `xs`, in order. */
  function EnqueueAll<T>(q: Option<Queue<T>>, xs: seq<T>): (r: Option<Queue<T>>)
    requires q.Some? && Valid(q.value)
    ensures r.Some? && Valid(r.value)
    decreases |xs|
  {
    if xs == [] then q else EnqueueAll(Enqueue(q, xs[0]).0, xs[1..])
  }

  /** Dequeue until the queue is empty, collecting the items returned. */
  function DrainAll<T>(q: Option<Queue<T>>): (out: seq<T>)
    requires q.Some? && Valid(q.value)
    decreases |q.value.items|
  {
    if IsEmpty(q) then []
    else
      var (q', x) := Dequeue(q);
      [x.value] + DrainAll(q')
  }

  lemma {:induction false} EnqueueAllAppends<T>(q: Option<Queue<T>>, xs: seq<T>)
    requires q.Some? && Valid(q.value)
    ensures EnqueueAll(q, xs).value.items == q.value.items + xs
    decreases |xs|
  {
    if xs != [] {
      var q1 := Enqueue(q, xs[0]).0;
      EnqueueAllAppends(q1, xs[1..]);
      assert q.value.items + [xs[0]] + xs[1..] == q.value.items + xs;
    }
  }

  lemma {:induction false} DrainAllReturnsItems<T>(q: Option<Queue<T>>)
    requires q.Some? && Valid(q.value)
    ensures DrainAll(q) == q.value.items
    decreases |q.value.items|
  {
    if !IsEmpty(q) {
      var (q', x) := Dequeue(q);
      DrainAllReturnsItems(q');
    }
  }

  /** Items leave the queue in the order they were put in. */
  lemma FirstInFirstOut<T>(xs: seq<T>)
    ensures DrainAll(EnqueueAll(QueueInit<T>(), xs)) == xs
  {
    EnqueueAllAppends(QueueInit<T>(), xs);
    DrainAllReturnsItems(EnqueueAll(QueueInit<T>(), xs));
  }
}

=== FILE: scanf.dfy ===
/**
 * The part of the C library's `sscanf` that src/geo.c and src/qry.c rely
 * on. Every format there is a literal command word followed by
 * conversions, each preceded by white space in the format or skipping
 * white space itself, so a format is kept as that literal and the list of
 * its conversions. A number conversion reads one white-space-delimited
 * word and hands it to an abstract reader. The scan result is the list of
 * values converted before the first failure: its length is the count
 * `sscanf` returns. An input failure before the first conversion (EOF in
 * C) compares like 0 in every test the program makes.
 */
module Scanf {
  import opened Common

  datatype Conv = CInt | CReal | CStr | CChar | CRest

  datatype Val = VInt(i: int) | VReal(r: real) | VStr(s: string) | VChar(c: char)

  datatype Format = Format(lit: string, convs: seq<Conv>)

  /** How `%d` and `%lf` read a word; left abstract. */
  datatype NumSyntax = NumSyntax(readInt: string -> Option<int>, readReal: string -> Option<real>)

  /** `isspace`: blank, tab, newline, vertical tab, form feed, carriage return. */
  predicate IsSpace(c: char)
  {
    c == ' ' || '\t' <= c <= '\r'
  }

  predicate IsWord(w: string)
  {
    w != [] && forall k :: 0 <= k < |w| ==> !IsSpace(w[k])
  }

  /** The stored values, read with the type their conversion gives them. */
  function IntOf(v: Val): int
  {
    if v.VInt? then v.i else 0
  }

  function RealOf(v: Val): real
  {
    if v.VReal? then v.r else 0.0
  }

  function StrOf(v: Val): string
  {
    if v.VStr? then v.s else ""
  }

  function CharOf(v: Val): char
  {
    if v.VChar? then v.c else '\0'
  }

  /** The value a conversion stores has the conversion's type. */
  predicate Fits(c: Conv, v: Val)
  {
    match c
    case CInt => v.VInt?
    case CReal => v.VReal?
    case CStr => v.VStr?
    case CRest => v.VStr?
    case CChar => v.VChar?
  }

  /** The input after its leading white space. */
  function SkipSpace(s: string): (t: string)
    ensures |t| <= |s| && t == s[|s| - |t|..]
    ensures t == [] || !IsSpace(t[0])
    ensures forall k :: 0 <= k < |s| - |t| ==> IsSpace(s[k])
  {
    if |s| > 0 && IsSpace(s[0]) then SkipSpace(s[1..]) else s
  }

  /** The longest prefix free of white space: what `%s` stores. */
  function Word(s: string): (w: string)
    ensures |w| <= |s| && w == s[..|w|]
    ensures forall k :: 0 <= k < |w| ==> !IsSpace(w[k])
    ensures |w| == |s| || IsSpace(s[|w|])
  {
    if |s| > 0 && !IsSpace(s[0]) then [s[0]] + Word(s[1..]) else []
  }

  /** The longest prefix free of '\n': what `%[^\n]` stores. */
  function ToNewline(s: string): (l: string)
    ensures |l| <= |s| && l == s[..|l|] && '\n' !in l
    ensures |l| == |s| || s[|l|] == '\n'
  {
    if |s| > 0 && s[0] != '\n' then [s[0]] + ToNewline(s[1..]) else []
  }

  /**
   * One conversion on input whose leading white space is already skipped:
   * the value and the input left, or a matching failure. `%s`, `%[^\n]`
   * and the number conversions fail on an empty match, `%c` at the end of
   * the input.
   */
  function Convert(ns: NumSyntax, c: Conv, s: string): (r: Option<(Val, string)>)
    ensures r.Some? ==> Fits(c, r.value.0) && |r.value.1| < |s|
  {
    match c
    case CInt =>
      var w := Word(s);
      if w == [] then None
      else (match ns.readInt(w)
            case None => None
            case Some(i) => Some((VInt(i), s[|w|..])))
    case CReal =>
      var w := Word(s);
      if w == [] then None
      else (match ns.readReal(w)
            case None => None
            case Some(x) => Some((VReal(x), s[|w|..])))
    case CStr =>
      var w := Word(s);
      if w == [] then None else Some((VStr(w), s[|w|..]))
    case CChar =>
      if s == [] then None else Some((VChar(s[0]), s[1..]))
    case CRest =>
      var l := ToNewline(s);
      if l == [] then None else Some((VStr(l), s[|l|..]))
  }

  /** The conversions in order, stopping at the first failure. */
  function ScanConvs(ns: NumSyntax, convs: seq<Conv>, s: string): (vals: seq<Val>)
    ensures |vals| <= |convs|
    ensures forall k :: 0 <= k < |vals| ==> Fits(convs[k], vals[k])
    decreases |convs|
  {
    if convs == [] then []
    else
      match Convert(ns, convs[0], SkipSpace(s))
      case None => []
      case Some((v, rest)) => [v] + ScanConvs(ns, convs[1..], rest)
  }

  /** `sscanf(s, f, ...)`: nothing converts unless the input starts with the literal. */
  function Scan(ns: NumSyntax, f: Format, s: string): (vals: seq<Val>)
    ensures |vals| <= |f.convs|
    ensures forall k :: 0 <= k < |vals| ==> Fits(f.convs[k], vals[k])
    ensures !(|f.lit| <= |s| && s[..|f.lit|] == f.lit) ==> vals == []
  {
    if |f.lit| <= |s| && s[..|f.lit|] == f.lit then ScanConvs(ns, f.convs, s[|f.lit|..]) else []
  }

  // ---------------------------------------------------------------------
  // Printing: the inverse the scanner is checked against
  // ---------------------------------------------------------------------

  /** How numbers are written into a line; left abstract. */
  datatype NumPrinter = NumPrinter(showInt: int -> string, showReal: real -> string)

  /** Every number the printer writes is one word the reader reads back. */
  ghost predicate ReadsBack(ns: NumSyntax, np: NumPrinter)
  {
    (forall i: int :: IsWord(np.showInt(i)) && ns.readInt(np.showInt(i)) == Some(i))
    && (forall x: real :: IsWord(np.showReal(x)) && ns.readReal(np.showReal(x)) == Some(x))
  }

  function Show(np: NumPrinter, v: Val): string
  {
    match v
    case VInt(i) => np.showInt(i)
    case VReal(x) => np.showReal(x)
    case VStr(s) => s
    case VChar(c) => [c]
  }

  /** The values written out, each after one blank. */
  function Render(np: NumPrinter, vals: seq<Val>): string
  {
    if vals == [] then [] else " " + Show(np, vals[0]) + Render(np, vals[1..])
  }

  /**
   * A value the scanner can read back from its printed form: a word for
   * `%s`, a visible character for `%c`, and for `%[^\n]` a one-line text
   * that does not start with white space and ends the format.
   */
  predicate Printable(np: NumPrinter, convs: seq<Conv>, vals: seq<Val>)
  {
    |vals| == |convs|
    && forall k :: 0 <= k < |vals| ==>
         Fits(convs[k], vals[k])
         && (convs[k] == CStr ==> IsWord(vals[k].s))
         && (convs[k] == CChar ==> !IsSpace(vals[k].c))
         && (convs[k] == CRest ==>
               k == |vals| - 1 && vals[k].s != [] && !IsSpace(vals[k].s[0]) && '\n' !in vals[k].s)
  }

  lemma WordOfJoin(w: string, t: string)
    requires IsWord(w) && (t == [] || IsSpace(t[0]))
    ensures Word(w + t) == w
    decreases |w|
  {
    if |w| > 1 {
      assert (w + t)[1..] == w[1..] + t;
      WordOfJoin(w[1..], t);
    } else {
      assert (w + t)[1..] == t;
    }
  }

  lemma ToNewlineAll(l: string)
    requires '\n' !in l
    ensures ToNewline(l) == l
    decreases |l|
  {
    if l != [] {
      assert l == [l[0]] + l[1..];
      ToNewlineAll(l[1..]);
    }
  }

  lemma SkipBlank(t: string)
    requires t == [] || !IsSpace(t[0])
    ensures SkipSpace(" " + t) == t
  {
    assert (" " + t)[1..] == t;
  }

  /** A line holding only the literal converts nothing. */
  lemma ScanLiteralOnly(ns: NumSyntax, f: Format)
    ensures Scan(ns, f, f.lit) == []
  {
    assert f.lit[..|f.lit|] == f.lit;
    assert f.lit[|f.lit|..] == [];
    if f.convs != [] {
      assert SkipSpace([]) == [];
      assert Convert(ns, f.convs[0], []) == None;
    }
  }

  /** With no literal to match, a blank input converts nothing. */
  lemma BlankScansNothing(ns: NumSyntax, f: Format, s: string)
    requires f.lit == []
    requires forall k :: 0 <= k < |s| ==> IsSpace(s[k])
    ensures Scan(ns, f, s) == []
  {
    assert s[..0] == [] && s[0..] == s;
    assert SkipSpace(s) == [];
    if f.convs != [] {
      assert Convert(ns, f.convs[0], []) == None;
    }
  }

  /** A literal word followed by printed values: the first word is the literal. */
  lemma FirstWordOfLine(ns: NumSyntax, lit: string, rest: string)
    requires IsWord(lit) && (rest == [] || rest[0] == ' ')
    ensures Scan(ns, Format("", [CStr]), lit + rest) == [VStr(lit)]
  {
    var line := lit + rest;
    assert Convert(ns, CStr, SkipSpace(line)) == Some((VStr(lit), rest)) by {
      assert SkipSpace(line) == line;
      WordOfJoin(lit, rest);
      assert line[|lit|..] == rest;
    }
    assert ScanConvs(ns, [CStr], line) == [VStr(lit)] by {
      assert [CStr][1..] == [];
    }
    assert line[..0] == [] && line[0..] == line;
  }

  /** Printed output starts with a blank, or is empty. */
  lemma RenderStartsBlank(np: NumPrinter, vals: seq<Val>)
    ensures Render(np, vals) == [] || Render(np, vals)[0] == ' '
  {
  }

  /** One printed value, read back by its conversion. */
  lemma ConvertShown(ns: NumSyntax, np: NumPrinter, c: Conv, v: Val, t: string)
    requires ReadsBack(ns, np)
    requires Printable(np, [c], [v])
    requires t == [] || IsSpace(t[0])
    requires c == CRest ==> t == []
    ensures Convert(ns, c, Show(np, v) + t) == Some((v, t))
  {
    var s := Show(np, v) + t;
    assert Fits([c][0], [v][0]);
    match c
    case CInt =>
      WordOfJoin(Show(np, v), t);
      assert s[|Show(np, v)|..] == t;
    case CReal =>
      WordOfJoin(Show(np, v), t);
      assert s[|Show(np, v)|..] == t;
    case CStr =>
      WordOfJoin(Show(np, v), t);
      assert s[|Show(np, v)|..] == t;
    case CChar =>
      assert s[1..] == t;
    case CRest =>
      assert s == v.s;
      ToNewlineAll(v.s);
      assert s[|v.s|..] == [];
  }

  /** Scanning printed values gives them back. */
  lemma {:induction false} ScanRender(ns: NumSyntax, np: NumPrinter, convs: seq<Conv>, vals: seq<Val>)
    requires ReadsBack(ns, np)
    requires Printable(np, convs, vals)
    ensures ScanConvs(ns, convs, Render(np, vals)) == vals
    decreases |vals|
  {
    if vals != [] {
      var shown := Show(np, vals[0]);
      var rest := Render(np, vals[1..]);
      assert Printable(np, [convs[0]], [vals[0]]);
      assert Printable(np, convs[1..], vals[1..]) by {
        forall k | 0 <= k < |vals[1..]|
          ensures Fits(convs[1..][k], vals[1..][k])
        {
          assert convs[1..][k] == convs[k + 1] && vals[1..][k] == vals[k + 1];
        }
      }
      assert shown != [] && !IsSpace(shown[0]);
      assert Render(np, vals) == " " + (shown + rest);
      SkipBlank(shown + rest);
      RenderStartsBlank(np, vals[1..]);
      ConvertShown(ns, np, convs[0], vals[0], rest);
      ScanRender(ns, np, convs[1..], vals[1..]);
    }
  }
}

=== FILE: vis.dfy ===
/**
 * The visibility subsystem of src/vis.c around the sweep: the observer
 * context, the scene bounding box, the extraction of obstacle outlines into
 * angular segments (split at the branch cut of the angle), the two events
 * per segment handed to the sort, and the line-of-sight test.
 *
 * The program keeps the observer and the current sweep angle in globals;
 * here they are an explicit `Ctx`. `atan2`, `sqrt`, `cos` and `sin` come
 * from a `MathLib` record of uninterpreted functions.
 */
module Vis {
  import opened Common
  import opened Geom
  import opened Events
  import opened Figures
  import EventSort
  import EventSortProofs

  /** VIS_INF: the distance reported for "no wall in this direction". */
  const VIS_INF: real := 1000000000000000.0
  /** Space added around the scene on every side. */
  const MARGIN: real := 20.0
  /** A wall must be this much closer than the target to hide it. */
  const SLACK: real := 0.1

  /** The globals g_ox, g_oy and g_currentAngle. */
  datatype Ctx = Ctx(ox: real, oy: real, angle: real)

  datatype Segment = Segment(p1: Point, p2: Point, originalId: int, angleStart: real, angleEnd: real)

  // ---------------------------------------------------------------------
  // Angles and ray distances
  // ---------------------------------------------------------------------

  /** `atan2` lies in (-π, π] for the direction from the observer to (x, y). */
  predicate AtanInRange(m: MathLib, c: Ctx, x: real, y: real)
  {
    -PI < m.atan2(y - c.oy, x - c.ox) <= PI
  }

  /**
   * `getAngle`: the direction from the observer to (x, y), moved from
   * (-π, π] to [0, 2π) by adding one turn to negative values.
   */
  function GetAngle(m: MathLib, c: Ctx, x: real, y: real): (a: real)
    ensures a == m.atan2(y - c.oy, x - c.ox) || a == m.atan2(y - c.oy, x - c.ox) + TWO_PI
    ensures AtanInRange(m, c, x, y) ==> 0.0 <= a < TWO_PI
  {
    var t := m.atan2(y - c.oy, x - c.ox);
    if t < 0.0 then t + TWO_PI else t
  }

  /** What the geometry kernel reports for the ray from the observer at `angle`. */
  function Hit(m: MathLib, c: Ctx, s: Segment, angle: real): real
  {
    RaySegmentIntersect(m, c.ox, c.oy, angle, s.p1.x, s.p1.y, s.p2.x, s.p2.y)
  }

  /**
   * `getRaySegDist` as the program writes it: a NULL segment and a negative
   * crossing read as VIS_INF, and every other report is passed through,
   * including the kernel's "no hit" sentinel MAX_DIST_VAL.
   */
  function RaySegDist(m: MathLib, c: Ctx, s: Option<Segment>, angle: real): (d: real)
    ensures d >= 0.0
    ensures s.None? ==> d == VIS_INF
    ensures s.Some? && Hit(m, c, s.value, angle) < 0.0 ==> d == VIS_INF
    ensures s.Some? && Hit(m, c, s.value, angle) >= 0.0 ==> d == Hit(m, c, s.value, angle)
  {
    if s.None? then VIS_INF
    else
      var d := Hit(m, c, s.value, angle);
      if d < 0.0 then VIS_INF else d
  }

  /** A ray that misses the segment is reported at distance 1e5, not VIS_INF. */
  lemma MissReadAsSentinel(m: MathLib, c: Ctx, s: Segment, angle: real)
    requires Hit(m, c, s, angle) == MAX_DIST_VAL
    ensures RaySegDist(m, c, Some(s), angle) == MAX_DIST_VAL < VIS_INF
  {
  }

  /**
   * The intended `getRaySegDist`: a miss reads as VIS_INF like a crossing
   * behind the observer, so only real crossings give finite distances.
   */
  function RaySegDistCorrected(m: MathLib, c: Ctx, s: Option<Segment>, angle: real): (d: real)
    ensures d >= 0.0
    ensures d != VIS_INF ==>
              s.Some? && d == Hit(m, c, s.value, angle) && d != MAX_DIST_VAL
    ensures s.Some? && Hit(m, c, s.value, angle) != MAX_DIST_VAL && Hit(m, c, s.value, angle) >= 0.0 ==>
              d == Hit(m, c, s.value, angle)
  {
    if s.None? then VIS_INF
    else
      var d := Hit(m, c, s.value, angle);
      if d < 0.0 || d == MAX_DIST_VAL then VIS_INF else d
  }

  function WallDist(corrected: bool, m: MathLib, c: Ctx, s: Segment, angle: real): real
  {
    if corrected then RaySegDistCorrected(m, c, Some(s), angle) else RaySegDist(m, c, Some(s), angle)
  }

  /**
   * A segment hides a target at distance `dist` in direction `angle`: it
   * belongs to an obstacle (the world box has negative ids) and its wall is
   * more than SLACK closer than the target.
   */
  predicate Blocks(corrected: bool, m: MathLib, c: Ctx, s: Segment, angle: real, dist: real)
  {
    s.originalId >= 0 && WallDist(corrected, m, c, s, angle) < dist - SLACK
  }

  /**
   * With the program's distance, an obstacle segment that the ray misses
   * hides every target farther than MAX_DIST_VAL + SLACK; with the
   * intended one it hides nothing.
   */
  lemma MissBlocksFarTarget(m: MathLib, c: Ctx, s: Segment, angle: real, dist: real)
    requires s.originalId >= 0 && Hit(m, c, s, angle) == MAX_DIST_VAL
    requires MAX_DIST_VAL + SLACK < dist <= VIS_INF + SLACK
    ensures Blocks(false, m, c, s, angle, dist)
    ensures !Blocks(true, m, c, s, angle, dist)
  {
  }

  /**
   * A concrete case: observer at the origin, target 200000 units along the
   * x axis, and one obstacle wall from (0, 10) to (1, 10), parallel to the
   * line of sight and nowhere near it. The program reports the target
   * hidden.
   */
  lemma ParallelWallHidesFarTarget(m: MathLib)
    requires m.cos(0.0) == 1.0 && m.sin(0.0) == 0.0
    ensures Blocks(false, m, Ctx(0.0, 0.0, 0.0), Segment(Point(0.0, 10.0), Point(1.0, 10.0), 0, 0.0, 0.0), 0.0, 200000.0)
    ensures !Blocks(true, m, Ctx(0.0, 0.0, 0.0), Segment(Point(0.0, 10.0), Point(1.0, 10.0), 0, 0.0, 0.0), 0.0, 200000.0)
  {
    var s := Segment(Point(0.0, 10.0), Point(1.0, 10.0), 0, 0.0, 0.0);
    assert RayDot(1.0, 0.0, 0.0, 10.0, 1.0, 10.0) == 0.0;
    assert Hit(m, Ctx(0.0, 0.0, 0.0), s, 0.0) == MAX_DIST_VAL;
  }

  /**
   * With the intended distance (and a target closer than VIS_INF), a
   * segment hides the target exactly when it is an obstacle segment that
   * the ray really crosses, in front of the observer, more than SLACK
   * before the target.
   */
  lemma CorrectedBlocksOnlyOnHits(m: MathLib, c: Ctx, s: Segment, angle: real, dist: real)
    requires dist <= VIS_INF + SLACK
    ensures Blocks(true, m, c, s, angle, dist) <==>
              s.originalId >= 0 && Hit(m, c, s, angle) != MAX_DIST_VAL
              && 0.0 <= Hit(m, c, s, angle) < dist - SLACK
  {
  }

  // ---------------------------------------------------------------------
  // Scene bounds: `updateBounds`, `calculateSceneBounds`
  // ---------------------------------------------------------------------

  datatype Bounds = Bounds(minX: real, minY: real, maxX: real, maxY: real)

  predicate Inside(b: Bounds, p: (real, real))
  {
    b.minX <= p.0 <= b.maxX && b.minY <= p.1 <= b.maxY
  }

  /** `outer` contains the box `inner`. */
  predicate Covers(outer: Bounds, inner: Bounds)
  {
    outer.minX <= inner.minX && outer.minY <= inner.minY && inner.maxX <= outer.maxX && inner.maxY <= outer.maxY
  }

  /**
   * `updateBounds`: each side moves out just far enough to take in (x, y);
   * a point already inside changes nothing.
   */
  function UpdateBounds(b: Bounds, x: real, y: real): (r: Bounds)
    ensures Inside(r, (x, y)) && Covers(r, b)
    ensures Inside(b, (x, y)) ==> r == b
  {
    var minX := if x < b.minX then x else b.minX;
    var maxX := if x > b.maxX then x else b.maxX;
    var minY := if y < b.minY then y else b.minY;
    var maxY := if y > b.maxY then y else b.maxY;
    Bounds(minX, minY, maxX, maxY)
  }

  /** The widened box is the least box holding the old one and the point. */
  lemma UpdateBoundsLeast(b: Bounds, x: real, y: real, o: Bounds)
    requires Covers(o, b) && Inside(o, (x, y))
    ensures Covers(o, UpdateBounds(b, x, y))
  {
  }

  /** `b` is the bounding box of the points: it holds them all and each side touches one. */
  ghost predicate BoxOf(b: Bounds, pts: seq<(real, real)>)
  {
    (forall k :: 0 <= k < |pts| ==> Inside(b, pts[k]))
    && (exists k :: 0 <= k < |pts| && pts[k].0 == b.minX)
    && (exists k :: 0 <= k < |pts| && pts[k].0 == b.maxX)
    && (exists k :: 0 <= k < |pts| && pts[k].1 == b.minY)
    && (exists k :: 0 <= k < |pts| && pts[k].1 == b.maxY)
  }

  function Grow(b: Bounds, d: real): Bounds
  {
    Bounds(b.minX - d, b.minY - d, b.maxX + d, b.maxY + d)
  }

  /**
   * The points a figure adds to the scene bounds: a rectangle's two
   * opposite corners, a circle's bounding-square corners, a line's
   * endpoints. A text adds none.
   */
  function Extent(f: Figure): (pts: seq<(real, real)>)
  {
    var (x, y) := GetFigureXY(Some(f), 0.0, 0.0);
    match f
    case Rectangle(_, _, _, _, _, _, _) =>
      var (w, h) := GetRectangleWH(Some(f), 0.0, 0.0);
      [(x, y), (x + w, y + h)]
    case Circle(_, _, _, _, _, _) =>
      var r := GetCircleR(Some(f));
      [(x - r, y - r), (x + r, y + r)]
    case Line(_, _, _, _, _, _) =>
      var (x1, y1, x2, y2) := GetLineP(Some(f), 0.0, 0.0, 0.0, 0.0);
      [(x1, y1), (x2, y2)]
    case Text(_, _, _, _, _, _, _, _, _, _) => []
  }

  /** The extent points of all figures, in list order. */
  function ExtentPoints(figs: seq<Figure>): seq<(real, real)>
  {
    if figs == [] then [] else ExtentPoints(figs[..|figs| - 1]) + Extent(figs[|figs| - 1])
  }

  /** Widening a bounding box by one point gives the bounding box of the longer list. */
  lemma BoxExtend(b: Bounds, pts: seq<(real, real)>, p: (real, real))
    requires BoxOf(b, pts)
    ensures BoxOf(UpdateBounds(b, p.0, p.1), pts + [p])
  {
    var r := UpdateBounds(b, p.0, p.1);
    var q := pts + [p];
    assert q[|pts|] == p;
    forall k | 0 <= k < |q|
      ensures Inside(r, q[k])
    {
      if k < |pts| {
        assert q[k] == pts[k];
      }
    }
    if r.minX == b.minX {
      var k :| 0 <= k < |pts| && pts[k].0 == b.minX;
      assert q[k] == pts[k];
    }
    if r.maxX == b.maxX {
      var k :| 0 <= k < |pts| && pts[k].0 == b.maxX;
      assert q[k] == pts[k];
    }
    if r.minY == b.minY {
      var k :| 0 <= k < |pts| && pts[k].1 == b.minY;
      assert q[k] == pts[k];
    }
    if r.maxY == b.maxY {
      var k :| 0 <= k < |pts| && pts[k].1 == b.maxY;
      assert q[k] == pts[k];
    }
  }

  /** The two `updateBounds` calls for one figure. */
  function AddExtent(b: Bounds, f: Figure): (r: Bounds)
  {
    var e := Extent(f);
    if |e| == 2 then UpdateBounds(UpdateBounds(b, e[0].0, e[0].1), e[1].0, e[1].1) else b
  }

  /** Both `updateBounds` calls for a figure keep a bounding box a bounding box. */
  lemma {:induction false} AddExtentBox(b: Bounds, pts: seq<(real, real)>, f: Figure)
    requires BoxOf(b, pts)
    ensures BoxOf(AddExtent(b, f), pts + Extent(f))
  {
    var e := Extent(f);
    if |e| == 2 {
      BoxExtend(b, pts, e[0]);
      BoxExtend(UpdateBounds(b, e[0].0, e[0].1), pts + [e[0]], e[1]);
      assert pts + [e[0]] + [e[1]] == pts + e;
    } else {
      assert pts + e == pts;
    }
  }

  /** The bounding box of the observer and every figure's extent. */
  function {:induction false} Accumulate(ox: real, oy: real, figs: seq<Figure>): (b: Bounds)
    ensures BoxOf(b, [(ox, oy)] + ExtentPoints(figs))
    decreases |figs|
  {
    if figs == [] then
      var b := Bounds(ox, oy, ox, oy);
      assert ([(ox, oy)] + ExtentPoints(figs))[0] == (ox, oy);
      b
    else
      var init := figs[..|figs| - 1];
      var b0 := Accumulate(ox, oy, init);
      AddExtentBox(b0, [(ox, oy)] + ExtentPoints(init), figs[|figs| - 1]);
      ExtentPointsSnoc(ox, oy, figs);
      AddExtent(b0, figs[|figs| - 1])
  }

  lemma ExtentPointsSnoc(ox: real, oy: real, figs: seq<Figure>)
    requires figs != []
    ensures [(ox, oy)] + ExtentPoints(figs)
            == [(ox, oy)] + ExtentPoints(figs[..|figs| - 1]) + Extent(figs[|figs| - 1])
  {
  }

  /**
   * `calculateSceneBounds`: the box starts at the observer; with a NULL
   * figure list it stays there, without margin. Otherwise it is the
   * bounding box of the observer and every figure's extent, grown by
   * MARGIN on every side.
   */
  function SceneBounds(figures: Option<seq<Figure>>, ox: real, oy: real): (b: Bounds)
    ensures figures.None? ==> b == Bounds(ox, oy, ox, oy)
    ensures figures.Some? ==> BoxOf(Grow(b, -MARGIN), [(ox, oy)] + ExtentPoints(figures.value))
  {
    if figures.None? then Bounds(ox, oy, ox, oy)
    else
      var b := Accumulate(ox, oy, figures.value);
      assert Grow(Grow(b, MARGIN), -MARGIN) == b;
      Grow(b, MARGIN)
  }

  // ---------------------------------------------------------------------
  // Segments: `addSegment`, `parseFigures`
  // ---------------------------------------------------------------------

  /** The arguments of one `addSegment` call. */
  datatype Edge = Edge(x1: real, y1: real, x2: real, y2: real, id: int)

  function Max(a: real, b: real): real
  {
    if a > b then a else b
  }

  function Min(a: real, b: real): real
  {
    if a > b then b else a
  }

  /**
   * `addSegment`: when the endpoint angles are more than π apart, the edge
   * is not horizontal and it meets the horizontal line through the
   * observer at or to the right of the observer (the branch cut of the
   * angle), it is cut there into a piece ending at 2π and a piece starting
   * at 0. Otherwise it becomes one segment spanning the two endpoint
   * angles, smaller first.
   */
  function AddSegment(m: MathLib, c: Ctx, e: Edge): (segs: seq<Segment>)
    ensures 1 <= |segs| <= 2
    ensures forall k :: 0 <= k < |segs| ==> segs[k].originalId == e.id
  {
    var a1 := GetAngle(m, c, e.x1, e.y1);
    var a2 := GetAngle(m, c, e.x2, e.y2);
    var whole := Segment(Point(e.x1, e.y1), Point(e.x2, e.y2), e.id, Min(a1, a2), Max(a1, a2));
    if Abs(a1 - a2) > PI && Abs(e.y2 - e.y1) > VIS_TOLERANCE then
      var t := (c.oy - e.y1) / (e.y2 - e.y1);
      var ix := e.x1 + t * (e.x2 - e.x1);
      if ix >= c.ox then
        var cut := Point(ix, c.oy);
        [Segment(Point(e.x1, e.y1), cut, e.id, Max(a1, a2), TWO_PI),
         Segment(cut, Point(e.x2, e.y2), e.id, 0.0, Min(a1, a2))]
      else [whole]
    else [whole]
  }

  /**
   * The pieces `addSegment` produces. Unsplit, the segment runs between the
   * edge's endpoints with the smaller endpoint angle first. Split, the cut
   * point lies on the edge's line, on the horizontal through the observer
   * and not to its left; the first piece runs from the larger endpoint
   * angle to 2π and the second from 0 to the smaller one; and the endpoint
   * angles were more than π apart.
   */
  lemma AddSegmentPieces(m: MathLib, c: Ctx, e: Edge)
    ensures var segs := AddSegment(m, c, e);
            segs[0].p1 == Point(e.x1, e.y1) && segs[|segs| - 1].p2 == Point(e.x2, e.y2)
    ensures var segs, a1, a2 := AddSegment(m, c, e), GetAngle(m, c, e.x1, e.y1), GetAngle(m, c, e.x2, e.y2);
            |segs| == 1 ==>
              segs[0].angleStart <= segs[0].angleEnd
              && segs[0].angleStart == Min(a1, a2) && segs[0].angleEnd == Max(a1, a2)
    ensures var segs, a1, a2 := AddSegment(m, c, e), GetAngle(m, c, e.x1, e.y1), GetAngle(m, c, e.x2, e.y2);
            |segs| == 2 ==>
              Abs(a1 - a2) > PI
              && segs[0].p2 == segs[1].p1 && segs[0].p2.y == c.oy && segs[0].p2.x >= c.ox
              && Cross(Point(e.x1, e.y1), Point(e.x2, e.y2), segs[0].p2) == 0.0
              && segs[0].angleStart == Max(a1, a2) && segs[0].angleEnd == TWO_PI
              && segs[1].angleStart == 0.0 && segs[1].angleEnd == Min(a1, a2)
  {
    var a1 := GetAngle(m, c, e.x1, e.y1);
    var a2 := GetAngle(m, c, e.x2, e.y2);
    if Abs(a1 - a2) > PI && Abs(e.y2 - e.y1) > VIS_TOLERANCE {
      var t := (c.oy - e.y1) / (e.y2 - e.y1);
      CutOnLine(e.x1, e.y1, e.x2, e.y2, c.oy, t);
    }
  }

  /** The cut point computed by `addSegment` lies on the line through the edge. */
  lemma CutOnLine(x1: real, y1: real, x2: real, y2: real, oy: real, t: real)
    requires y2 - y1 != 0.0 && t == (oy - y1) / (y2 - y1)
    ensures Cross(Point(x1, y1), Point(x2, y2), Point(x1 + t * (x2 - x1), oy)) == 0.0
  {
    var dx, dy := x2 - x1, y2 - y1;
    assert t * dy == oy - y1;
    assert (x1 + t * dx) - x1 == t * dx;
    assert dx * (oy - y1) - dy * (t * dx) == dx * (t * dy) - dy * (t * dx);
  }

  /**
   * When both endpoint angles lie in [0, 2π), so does every piece:
   * 0 <= angleStart <= angleEnd <= 2π.
   */
  lemma AddSegmentAngles(m: MathLib, c: Ctx, e: Edge)
    requires AtanInRange(m, c, e.x1, e.y1) && AtanInRange(m, c, e.x2, e.y2)
    ensures forall k :: 0 <= k < |AddSegment(m, c, e)| ==>
              0.0 <= AddSegment(m, c, e)[k].angleStart <= AddSegment(m, c, e)[k].angleEnd <= TWO_PI
  {
    AddSegmentPieces(m, c, e);
  }

  /** The four world-box edges, ids -1 to -4: right, bottom, left, top. */
  function WorldEdges(b: Bounds): (es: seq<Edge>)
    ensures |es| == 4 && forall k :: 0 <= k < 4 ==> es[k].id == -(k + 1)
  {
    [Edge(b.maxX, b.minY, b.maxX, b.maxY, -1),
     Edge(b.maxX, b.maxY, b.minX, b.maxY, -2),
     Edge(b.minX, b.maxY, b.minX, b.minY, -3),
     Edge(b.minX, b.minY, b.maxX, b.minY, -4)]
  }

  /** The four edges of the axis-aligned box at (x, y) of size w by h. */
  function BoxEdges(x: real, y: real, w: real, h: real, id: int): seq<Edge>
  {
    [Edge(x, y, x + w, y, id), Edge(x + w, y, x + w, y + h, id),
     Edge(x + w, y + h, x, y + h, id), Edge(x, y + h, x, y, id)]
  }

  /** Each edge starts where the previous one ends, and the last closes the loop. */
  predicate ClosedOutline(es: seq<Edge>)
  {
    |es| > 0
    && (forall k :: 0 < k < |es| ==> es[k].x1 == es[k - 1].x2 && es[k].y1 == es[k - 1].y2)
    && es[0].x1 == es[|es| - 1].x2 && es[0].y1 == es[|es| - 1].y2
  }

  /** How many `addSegment` calls `parseFigures` makes for one figure. */
  function EdgeCount(f: Figure): nat
  {
    match f
    case Rectangle(_, _, _, _, _, _, _) => 4
    case Circle(_, _, _, _, _, _) => 4
    case Line(_, _, _, _, _, _) => 1
    case Text(_, _, _, _, _, _, _, _, _, _) => 0
  }

  /**
   * The `addSegment` calls for one figure, tagged with its id: a
   * rectangle's outline, the outline of a circle's bounding square, a
   * line's single edge; nothing for a text.
   */
  function FigureEdges(f: Figure): (es: seq<Edge>)
    ensures |es| == EdgeCount(f)
    ensures forall k :: 0 <= k < |es| ==> es[k].id == GetFigureId(Some(f))
    ensures (f.Rectangle? || f.Circle?) ==> ClosedOutline(es)
    ensures f.Line? ==> es == [Edge(f.x1, f.y1, f.x2, f.y2, f.id)]
  {
    var id := GetFigureId(Some(f));
    match f
    case Rectangle(_, _, _, _, _, _, _) =>
      var (x, y) := GetFigureXY(Some(f), 0.0, 0.0);
      var (w, h) := GetRectangleWH(Some(f), 0.0, 0.0);
      BoxEdges(x, y, w, h, id)
    case Line(_, _, _, _, _, _) =>
      var (x1, y1, x2, y2) := GetLineP(Some(f), 0.0, 0.0, 0.0, 0.0);
      [Edge(x1, y1, x2, y2, id)]
    case Circle(_, _, _, _, _, _) =>
      var (cx, cy) := GetFigureXY(Some(f), 0.0, 0.0);
      var r := GetCircleR(Some(f));
      BoxEdges(cx - r, cy - r, 2.0 * r, 2.0 * r, id)
    case Text(_, _, _, _, _, _, _, _, _, _) => []
  }

  function EdgeTotal(figs: seq<Figure>): nat
  {
    if figs == [] then 0 else EdgeCount(figs[0]) + EdgeTotal(figs[1..])
  }

  /** The ids of the figures of a list. */
  function FigIds(figs: seq<Figure>): set<int>
  {
    set j | 0 <= j < |figs| :: figs[j].id
  }

  /** The `addSegment` calls for all figures, in list order, each tagged with a figure's id. */
  function {:induction false} EdgesOf(figs: seq<Figure>): (es: seq<Edge>)
    ensures |es| == EdgeTotal(figs)
    ensures EdgeIds(es) <= FigIds(figs)
  {
    if figs == [] then []
    else
      var first := FigureEdges(figs[0]);
      var rest := EdgesOf(figs[1..]);
      EdgeIdsAppend(first, rest);
      FigIdsCons(figs);
      assert EdgeIds(first) <= {figs[0].id};
      first + rest
  }

  lemma FigIdsCons(figs: seq<Figure>)
    requires figs != []
    ensures FigIds(figs) == {figs[0].id} + FigIds(figs[1..])
  {
    forall x | x in FigIds(figs)
      ensures x in {figs[0].id} + FigIds(figs[1..])
    {
      var k :| 0 <= k < |figs| && figs[k].id == x;
      if k > 0 {
        assert figs[1..][k - 1] == figs[k];
      }
    }
    forall x | x in FigIds(figs[1..])
      ensures x in FigIds(figs)
    {
      var k :| 0 <= k < |figs[1..]| && figs[1..][k].id == x;
      assert figs[k + 1] == figs[1..][k];
    }
  }

  lemma EdgeIdsAppend(a: seq<Edge>, b: seq<Edge>)
    ensures EdgeIds(a + b) == EdgeIds(a) + EdgeIds(b)
  {
    var ab := a + b;
    forall x | x in EdgeIds(ab)
      ensures x in EdgeIds(a) + EdgeIds(b)
    {
      var k :| 0 <= k < |ab| && ab[k].id == x;
      if k < |a| {
        assert ab[k] == a[k];
      } else {
        assert ab[k] == b[k - |a|];
      }
    }
    forall x | x in EdgeIds(a)
      ensures x in EdgeIds(ab)
    {
      var k :| 0 <= k < |a| && a[k].id == x;
      assert ab[k] == a[k];
    }
    forall x | x in EdgeIds(b)
      ensures x in EdgeIds(ab)
    {
      var k :| 0 <= k < |b| && b[k].id == x;
      assert ab[k + |a|] == b[k];
    }
  }

  /** The segment list the calls build, in call order. */
  function {:induction false} SegmentsOf(m: MathLib, c: Ctx, es: seq<Edge>): (segs: seq<Segment>)
    ensures |es| <= |segs| <= 2 * |es|
  {
    if es == [] then [] else AddSegment(m, c, es[0]) + SegmentsOf(m, c, es[1..])
  }

  lemma {:induction false} SegmentsOfAppend(m: MathLib, c: Ctx, a: seq<Edge>, b: seq<Edge>)
    ensures SegmentsOf(m, c, a + b) == SegmentsOf(m, c, a) + SegmentsOf(m, c, b)
    decreases |a|
  {
    if a != [] {
      assert (a + b)[0] == a[0];
      assert (a + b)[1..] == a[1..] + b;
      SegmentsOfAppend(m, c, a[1..], b);
    } else {
      assert a + b == b;
    }
  }

  function SegIds(segs: seq<Segment>): set<int>
  {
    set k | 0 <= k < |segs| :: segs[k].originalId
  }

  function EdgeIds(es: seq<Edge>): set<int>
  {
    set k | 0 <= k < |es| :: es[k].id
  }

  lemma SegIdsCons(first: seq<Segment>, rest: seq<Segment>, id: int)
    requires |first| >= 1 && forall k :: 0 <= k < |first| ==> first[k].originalId == id
    ensures SegIds(first + rest) == {id} + SegIds(rest)
  {
    var all := first + rest;
    assert all[0].originalId == id;
    forall x | x in SegIds(all)
      ensures x in {id} + SegIds(rest)
    {
      var k :| 0 <= k < |all| && all[k].originalId == x;
      if k >= |first| {
        assert rest[k - |first|] == all[k];
      }
    }
    forall x | x in SegIds(rest)
      ensures x in SegIds(all)
    {
      var k :| 0 <= k < |rest| && rest[k].originalId == x;
      assert all[k + |first|] == rest[k];
    }
  }

  lemma EdgeIdsCons(es: seq<Edge>)
    requires es != []
    ensures EdgeIds(es) == {es[0].id} + EdgeIds(es[1..])
  {
    forall x | x in EdgeIds(es)
      ensures x in {es[0].id} + EdgeIds(es[1..])
    {
      var k :| 0 <= k < |es| && es[k].id == x;
      if k > 0 {
        assert es[1..][k - 1] == es[k];
      }
    }
    forall x | x in EdgeIds(es[1..])
      ensures x in EdgeIds(es)
    {
      var k :| 0 <= k < |es[1..]| && es[1..][k].id == x;
      assert es[k + 1] == es[1..][k];
    }
  }

  /** The segments carry exactly the ids of the calls that made them. */
  lemma {:induction false} SegmentIds(m: MathLib, c: Ctx, es: seq<Edge>)
    ensures SegIds(SegmentsOf(m, c, es)) == EdgeIds(es)
    decreases |es|
  {
    if es != [] {
      SegmentIds(m, c, es[1..]);
      SegIdsCons(AddSegment(m, c, es[0]), SegmentsOf(m, c, es[1..]), es[0].id);
      EdgeIdsCons(es);
    }
  }

  /** The world box's segments carry exactly the ids -1 to -4. */
  lemma WorldIds(m: MathLib, c: Ctx, b: Bounds)
    ensures var w := SegmentsOf(m, c, WorldEdges(b));
            4 <= |w| <= 8 && SegIds(w) == {-1, -2, -3, -4}
  {
    var es := WorldEdges(b);
    SegmentIds(m, c, es);
    assert es[0].id == -1 && es[1].id == -2 && es[2].id == -3 && es[3].id == -4;
    assert -1 in EdgeIds(es) && -2 in EdgeIds(es) && -3 in EdgeIds(es) && -4 in EdgeIds(es);
  }

  /**
   * `parseFigures`: the `addSegment` calls for the world box, then those
   * for every figure in list order.
   */
  function ParseFigures(m: MathLib, c: Ctx, figures: Option<seq<Figure>>, b: Bounds): (segs: seq<Segment>)
    ensures |segs| >= |SegmentsOf(m, c, WorldEdges(b))| >= 4
  {
    if figures.None? then SegmentsOf(m, c, WorldEdges(b))
    else
      SegmentsOfAppend(m, c, WorldEdges(b), EdgesOf(figures.value));
      SegmentsOf(m, c, WorldEdges(b) + EdgesOf(figures.value))
  }

  /**
   * The world box's segments come first, four to eight of them, and carry
   * exactly the ids -1 to -4; with a NULL figure list there is nothing else.
   */
  lemma ParseWorldFirst(m: MathLib, c: Ctx, figures: Option<seq<Figure>>, b: Bounds)
    ensures var w, segs := SegmentsOf(m, c, WorldEdges(b)), ParseFigures(m, c, figures, b);
            4 <= |w| <= 8 && |w| <= |segs| && segs[..|w|] == w && SegIds(w) == {-1, -2, -3, -4}
            && (figures.None? ==> segs == w)
  {
    var w := SegmentsOf(m, c, WorldEdges(b));
    WorldIds(m, c, b);
    if figures.None? {
      assert w[..|w|] == w;
    } else {
      SegmentsOfAppend(m, c, WorldEdges(b), EdgesOf(figures.value));
      var rest := SegmentsOf(m, c, EdgesOf(figures.value));
      assert (w + rest)[..|w|] == w;
    }
  }

  /**
   * After the world box, each figure's edges give one or two segments
   * each, and every one of them carries the id of a figure of the list.
   */
  lemma ParseFigureSegments(m: MathLib, c: Ctx, figs: seq<Figure>, b: Bounds)
    ensures var n, total, segs := |SegmentsOf(m, c, WorldEdges(b))|, EdgeTotal(figs), ParseFigures(m, c, Some(figs), b);
            n + total <= |segs| <= n + 2 * total && SegIds(segs[n..]) <= FigIds(figs)
  {
    var es := EdgesOf(figs);
    SegmentsOfAppend(m, c, WorldEdges(b), es);
    var w := SegmentsOf(m, c, WorldEdges(b));
    var rest := SegmentsOf(m, c, es);
    assert (w + rest)[|w|..] == rest;
    SegmentIds(m, c, es);
  }

  // ---------------------------------------------------------------------
  // Events of the sweep (`visDrawRegion`, event generation and sorting)
  // ---------------------------------------------------------------------

  /**
   * Two events per segment, in list order: START at its start angle, then
   * END at its end angle. An event names its segment by list position.
   */
  method MakeEvents(segs: seq<Segment>) returns (events: seq<Event>)
    ensures |events| == 2 * |segs|
    ensures forall k :: 0 <= k < |segs| ==>
              events[2 * k] == Event(segs[k].angleStart, Start, k)
              && events[2 * k + 1] == Event(segs[k].angleEnd, End, k)
  {
    events := [];
    var k := 0;
    while k < |segs|
      invariant 0 <= k <= |segs|
      invariant |events| == 2 * k
      invariant forall i :: 0 <= i < k ==>
                  events[2 * i] == Event(segs[i].angleStart, Start, i)
                  && events[2 * i + 1] == Event(segs[i].angleEnd, End, i)
    {
      events := events + [Event(segs[k].angleStart, Start, k), Event(segs[k].angleEnd, End, k)];
      k := k + 1;
    }
  }

  /**
   * The sort dispatch of `visDrawRegion`: 'm' selects the hybrid merge
   * sort; anything else the library `qsort`, which promises only a
   * permutation with every two neighbours in comparator order. The
   * insertion sort stands in for it as one such result.
   */
  method SortEvents(events: seq<Event>, sortType: char, threshold: int) returns (sorted: seq<Event>)
    ensures |sorted| == |events|
    ensures multiset(sorted) == multiset(events)
    ensures EventSortProofs.AdjSorted(sorted, VIS_TOLERANCE)
    ensures sortType == 'm' ==> sorted == EventSort.HybridRef(events, threshold, VIS_TOLERANCE)
  {
    if sortType == 'm' {
      sorted := EventSort.MergeSortHybrid(events, 0, |events| - 1, threshold, VIS_TOLERANCE);
      assert events[0..|events|] == events;
      assert sorted[0..|events|] == sorted;
      EventSortProofs.HybridPermAdj(events, threshold, VIS_TOLERANCE);
    } else {
      sorted := EventSort.InsertionSortEvents(events, 0, |events| - 1, VIS_TOLERANCE);
      assert events[0..|events|] == events;
      assert sorted[0..|events|] == sorted;
      EventSortProofs.ISortPermAdj(events, VIS_TOLERANCE);
    }
  }

  /**
   * The part of `visDrawRegion` before the polygon is traced: set the
   * context to the observer at angle 0 (it is not restored; the drawing
   * loop, which is not modelled, then moves the angle to each event's),
   * build the segments inside the scene bounds, generate their events and
   * sort them with the hybrid merge sort for 'm' or the library sort
   * otherwise. The segment list always holds the world box, so the early
   * return for an empty list never happens.
   */
  method SweepEvents(m: MathLib, g: Ctx, figures: Option<seq<Figure>>, ox: real, oy: real,
                     sortType: char, threshold: int)
    returns (segs: seq<Segment>, raw: seq<Event>, events: seq<Event>, g': Ctx)
    ensures g' == Ctx(ox, oy, 0.0)
    ensures segs == ParseFigures(m, g', figures, SceneBounds(figures, ox, oy))
    ensures |segs| >= 4 && |raw| == |events| == 2 * |segs|
    ensures forall k :: 0 <= k < |segs| ==>
              raw[2 * k] == Event(segs[k].angleStart, Start, k)
              && raw[2 * k + 1] == Event(segs[k].angleEnd, End, k)
    ensures multiset(events) == multiset(raw)
    ensures EventSortProofs.AdjSorted(events, VIS_TOLERANCE)
  {
    g' := Ctx(ox, oy, 0.0);
    var b := SceneBounds(figures, ox, oy);
    segs := ParseFigures(m, g', figures, b);
    raw := MakeEvents(segs);
    events := SortEvents(raw, sortType, threshold);
  }

  // ---------------------------------------------------------------------
  // Line of sight: `visIsVisible`
  // ---------------------------------------------------------------------

  /**
   * The loop of `visIsVisible`: walk the segments in order, skip the world
   * box, and stop at the first segment whose wall is more than SLACK
   * closer than the target. `corrected` picks the intended ray distance
   * over the program's.
   */
  method FindBlocker(corrected: bool, m: MathLib, c: Ctx, segs: seq<Segment>, angle: real, dist: real)
    returns (blocked: bool)
    ensures blocked <==> exists k :: 0 <= k < |segs| && Blocks(corrected, m, c, segs[k], angle, dist)
  {
    blocked := false;
    var i := 0;
    while i < |segs|
      invariant 0 <= i <= |segs|
      invariant forall k :: 0 <= k < i ==> !Blocks(corrected, m, c, segs[k], angle, dist)
    {
      var s := segs[i];
      i := i + 1;
      if s.originalId < 0 {
        continue;
      }
      var wallDist := if corrected then RaySegDistCorrected(m, c, Some(s), angle)
                      else RaySegDist(m, c, Some(s), angle);
      if wallDist < dist - SLACK {
        assert Blocks(corrected, m, c, segs[i - 1], angle, dist);
        blocked := true;
        break;
      }
    }
  }

  /** The distance from the observer to the target, through the library `sqrt`. */
  function TargetDistance(m: MathLib, ox: real, oy: real, tx: real, ty: real): real
  {
    m.sqrt(DistSq(tx, ty, ox, oy))
  }

  /**
   * The segments `visIsVisible` tests: the scene bounds are widened to
   * take in the target before the world box is built.
   */
  function SightSegments(m: MathLib, c: Ctx, figures: Option<seq<Figure>>, tx: real, ty: real): seq<Segment>
  {
    ParseFigures(m, c, figures, UpdateBounds(SceneBounds(figures, c.ox, c.oy), tx, ty))
  }

  /**
   * Visibility with the intended ray distance: the target is visible when it is
   * within VIS_TOLERANCE of the observer, or when no obstacle segment's
   * wall lies more than SLACK closer than the target along the ray to it.
   */
  predicate Visible(m: MathLib, c: Ctx, figures: Option<seq<Figure>>, tx: real, ty: real)
  {
    var dist := TargetDistance(m, c.ox, c.oy, tx, ty);
    var segs := SightSegments(m, c, figures, tx, ty);
    dist < VIS_TOLERANCE
    || forall k :: 0 <= k < |segs| ==> !Blocks(true, m, c, segs[k], GetAngle(m, c, tx, ty), dist)
  }

  /**
   * Visibility as `visIsVisible` decides it, with the program's ray
   * distance: a segment the ray misses reads as a wall at MAX_DIST_VAL.
   */
  predicate VisibleAsWritten(m: MathLib, c: Ctx, figures: Option<seq<Figure>>, tx: real, ty: real)
  {
    var dist := TargetDistance(m, c.ox, c.oy, tx, ty);
    var segs := SightSegments(m, c, figures, tx, ty);
    dist < VIS_TOLERANCE
    || forall k :: 0 <= k < |segs| ==> !Blocks(false, m, c, segs[k], GetAngle(m, c, tx, ty), dist)
  }

  /**
   * `visIsVisible`: a target within VIS_TOLERANCE of the observer is
   * visible; otherwise it is hidden exactly when some obstacle segment's
   * ray distance, as `getRaySegDist` reports it, lies more than SLACK
   * closer than the target. The caller's context is restored on both
   * returns.
   */
  method VisIsVisible(m: MathLib, g: Ctx, figures: Option<seq<Figure>>, ox: real, oy: real, tx: real, ty: real)
    returns (visible: bool, g': Ctx)
    ensures g' == g
    ensures TargetDistance(m, ox, oy, tx, ty) < VIS_TOLERANCE ==> visible
    ensures TargetDistance(m, ox, oy, tx, ty) >= VIS_TOLERANCE ==>
              var c := Ctx(ox, oy, g.angle);
              var segs := SightSegments(m, c, figures, tx, ty);
              var angle, dist := GetAngle(m, c, tx, ty), TargetDistance(m, ox, oy, tx, ty);
              (!visible <==> exists k :: 0 <= k < |segs| && Blocks(false, m, c, segs[k], angle, dist))
    ensures visible == VisibleAsWritten(m, Ctx(ox, oy, g.angle), figures, tx, ty)
  {
    var saved := g;
    var c := Ctx(ox, oy, g.angle);
    var distToTarget := TargetDistance(m, ox, oy, tx, ty);
    if distToTarget < VIS_TOLERANCE {
      return true, saved;
    }
    var angleToTarget := GetAngle(m, c, tx, ty);
    var segs := SightSegments(m, c, figures, tx, ty);
    var blocked := FindBlocker(false, m, c, segs, angleToTarget, distToTarget);
    visible, g' := !blocked, saved;
  }

  /** The segment list is built from the observer alone, never the sweep angle. */
  lemma {:induction false} SegmentsIgnoreAngle(m: MathLib, c: Ctx, d: Ctx, es: seq<Edge>)
    requires c.ox == d.ox && c.oy == d.oy
    ensures SegmentsOf(m, c, es) == SegmentsOf(m, d, es)
    decreases |es|
  {
    if es != [] {
      AddSegmentIgnoresAngle(m, c, d, es[0]);
      SegmentsIgnoreAngle(m, c, d, es[1..]);
    }
  }

  /** Each `addSegment` call reads the observer but not the sweep angle. */
  lemma AddSegmentIgnoresAngle(m: MathLib, c: Ctx, d: Ctx, e: Edge)
    requires c.ox == d.ox && c.oy == d.oy
    ensures AddSegment(m, c, e) == AddSegment(m, d, e)
  {
    AngleIgnoresAngle(m, c, d, e.x1, e.y1);
    AngleIgnoresAngle(m, c, d, e.x2, e.y2);
    var a1, a2 := GetAngle(m, c, e.x1, e.y1), GetAngle(m, c, e.x2, e.y2);
    var whole := Segment(Point(e.x1, e.y1), Point(e.x2, e.y2), e.id, Min(a1, a2), Max(a1, a2));
    if Abs(a1 - a2) > PI && Abs(e.y2 - e.y1) > VIS_TOLERANCE {
      var t := (c.oy - e.y1) / (e.y2 - e.y1);
      var ix := e.x1 + t * (e.x2 - e.x1);
      if ix >= c.ox {
        var cut := Point(ix, c.oy);
        var pieces := [Segment(Point(e.x1, e.y1), cut, e.id, Max(a1, a2), TWO_PI),
                       Segment(cut, Point(e.x2, e.y2), e.id, 0.0, Min(a1, a2))];
        assert |AddSegment(m, c, e)| == 2;
        assert AddSegment(m, c, e)[0] == pieces[0];
        assert AddSegment(m, c, e)[1] == pieces[1];
        assert AddSegment(m, c, e) == pieces;
        assert |AddSegment(m, d, e)| == 2;
        assert AddSegment(m, d, e)[0] == pieces[0];
        assert AddSegment(m, d, e)[1] == pieces[1];
        assert AddSegment(m, d, e) == pieces;
      } else {
        assert AddSegment(m, c, e) == [whole] == AddSegment(m, d, e);
      }
    } else {
      assert AddSegment(m, c, e) == [whole] == AddSegment(m, d, e);
    }
  }

  /** The segments on the sight line to a target depend only on the observer. */
  lemma SightIgnoresAngle(m: MathLib, c: Ctx, d: Ctx, figures: Option<seq<Figure>>, tx: real, ty: real)
    requires c.ox == d.ox && c.oy == d.oy
    ensures SightSegments(m, c, figures, tx, ty) == SightSegments(m, d, figures, tx, ty)
  {
    var b := UpdateBounds(SceneBounds(figures, c.ox, c.oy), tx, ty);
    if figures.None? {
      SegmentsIgnoreAngle(m, c, d, WorldEdges(b));
    } else {
      SegmentsIgnoreAngle(m, c, d, WorldEdges(b) + EdgesOf(figures.value));
    }
  }

  /** Whether a segment hides the target does not depend on the sweep angle. */
  lemma BlocksIgnoreAngle(corrected: bool, m: MathLib, c: Ctx, d: Ctx, s: Segment, angle: real, dist: real)
    requires c.ox == d.ox && c.oy == d.oy
    ensures Blocks(corrected, m, c, s, angle, dist) == Blocks(corrected, m, d, s, angle, dist)
  {
    assert Hit(m, c, s, angle) == Hit(m, d, s, angle);
  }

  /**
   * The corrected visibility test does not read the sweep angle: it gives
   * the same answer whatever angle the context holds.
   */
  lemma VisibleIgnoresAngle(m: MathLib, c: Ctx, d: Ctx, figures: Option<seq<Figure>>, tx: real, ty: real)
    requires c.ox == d.ox && c.oy == d.oy
    ensures Visible(m, c, figures, tx, ty) == Visible(m, d, figures, tx, ty)
  {
    var segs, angle, dist := SightFacts(m, c, d, figures, tx, ty);
    ClearIgnoresAngle(true, m, c, d, segs, angle, dist);
    VisibleUnfold(m, c, figures, tx, ty, segs, angle, dist);
    VisibleUnfold(m, d, figures, tx, ty, segs, angle, dist);
  }

  /**
   * Neither does `visIsVisible`: whatever angle the last sweep of
   * `visDrawRegion` left in the global, the answer is the same.
   */
  lemma AsWrittenIgnoresAngle(m: MathLib, c: Ctx, d: Ctx, figures: Option<seq<Figure>>, tx: real, ty: real)
    requires c.ox == d.ox && c.oy == d.oy
    ensures VisibleAsWritten(m, c, figures, tx, ty) == VisibleAsWritten(m, d, figures, tx, ty)
  {
    var segs, angle, dist := SightFacts(m, c, d, figures, tx, ty);
    ClearIgnoresAngle(false, m, c, d, segs, angle, dist);
    VisibleUnfold(m, c, figures, tx, ty, segs, angle, dist);
    VisibleUnfold(m, d, figures, tx, ty, segs, angle, dist);
  }

  /** The sight line's segments, direction and length, the same from both contexts. */
  lemma SightFacts(m: MathLib, c: Ctx, d: Ctx, figures: Option<seq<Figure>>, tx: real, ty: real)
    returns (segs: seq<Segment>, angle: real, dist: real)
    requires c.ox == d.ox && c.oy == d.oy
    ensures segs == SightSegments(m, c, figures, tx, ty) == SightSegments(m, d, figures, tx, ty)
    ensures angle == GetAngle(m, c, tx, ty) == GetAngle(m, d, tx, ty)
    ensures dist == TargetDistance(m, c.ox, c.oy, tx, ty) == TargetDistance(m, d.ox, d.oy, tx, ty)
  {
    SightIgnoresAngle(m, c, d, figures, tx, ty);
    segs := SightSegments(m, c, figures, tx, ty);
    angle := GetAngle(m, c, tx, ty);
    AngleIgnoresAngle(m, c, d, tx, ty);
    dist := TargetDistance(m, c.ox, c.oy, tx, ty);
  }

  /** The direction to the target depends only on the observer. */
  lemma AngleIgnoresAngle(m: MathLib, c: Ctx, d: Ctx, tx: real, ty: real)
    requires c.ox == d.ox && c.oy == d.oy
    ensures GetAngle(m, c, tx, ty) == GetAngle(m, d, tx, ty)
  {
  }

  /** Visibility in terms of the sight line: near enough, or nothing blocks. */
  lemma VisibleUnfold(m: MathLib, c: Ctx, figures: Option<seq<Figure>>, tx: real, ty: real,
                      segs: seq<Segment>, angle: real, dist: real)
    requires segs == SightSegments(m, c, figures, tx, ty) && angle == GetAngle(m, c, tx, ty)
    requires dist == TargetDistance(m, c.ox, c.oy, tx, ty)
    ensures Visible(m, c, figures, tx, ty) == (dist < VIS_TOLERANCE || Clear(true, m, c, segs, angle, dist))
    ensures VisibleAsWritten(m, c, figures, tx, ty) == (dist < VIS_TOLERANCE || Clear(false, m, c, segs, angle, dist))
  {
  }

  /** No segment of `segs` hides the target. */
  predicate Clear(corrected: bool, m: MathLib, c: Ctx, segs: seq<Segment>, angle: real, dist: real)
  {
    forall k :: 0 <= k < |segs| ==> !Blocks(corrected, m, c, segs[k], angle, dist)
  }

  /** Nor whether all of them let the ray through. */
  lemma ClearIgnoresAngle(corrected: bool, m: MathLib, c: Ctx, d: Ctx, segs: seq<Segment>, angle: real, dist: real)
    requires c.ox == d.ox && c.oy == d.oy
    ensures Clear(corrected, m, c, segs, angle, dist) == Clear(corrected, m, d, segs, angle, dist)
  {
    forall k | 0 <= k < |segs|
      ensures Blocks(corrected, m, c, segs[k], angle, dist) == Blocks(corrected, m, d, segs[k], angle, dist)
    {
      BlocksIgnoreAngle(corrected, m, c, d, segs[k], angle, dist);
    }
  }

  /**
   * For a target no farther than MAX_DIST_VAL + SLACK, the program's ray
   * distance and the intended one block exactly the same segments.
   */
  lemma NearTargetBlocksAgree(m: MathLib, c: Ctx, s: Segment, angle: real, dist: real)
    requires dist <= MAX_DIST_VAL + SLACK
    ensures Blocks(false, m, c, s, angle, dist) <==> Blocks(true, m, c, s, angle, dist)
  {
    var h := Hit(m, c, s, angle);
    if h == MAX_DIST_VAL {
      assert !(RaySegDist(m, c, Some(s), angle) < dist - SLACK);
    }
  }

  /**
   * The defect of `getRaySegDist` shows only beyond MAX_DIST_VAL + SLACK:
   * up to there `visIsVisible` as written agrees with `Visible`.
   */
  lemma VisibleAgreesNearby(m: MathLib, c: Ctx, figures: Option<seq<Figure>>, tx: real, ty: real)
    requires TargetDistance(m, c.ox, c.oy, tx, ty) <= MAX_DIST_VAL + SLACK
    ensures VisibleAsWritten(m, c, figures, tx, ty) == Visible(m, c, figures, tx, ty)
  {
    var dist := TargetDistance(m, c.ox, c.oy, tx, ty);
    var segs := SightSegments(m, c, figures, tx, ty);
    var angle := GetAngle(m, c, tx, ty);
    forall k | 0 <= k < |segs|
      ensures Blocks(false, m, c, segs[k], angle, dist) == Blocks(true, m, c, segs[k], angle, dist)
    {
      NearTargetBlocksAgree(m, c, segs[k], angle, dist);
    }
  }

  /** The world box never hides anything: its ids are negative. */
  lemma WorldNeverBlocks(corrected: bool, m: MathLib, c: Ctx, figures: Option<seq<Figure>>, b: Bounds,
                         k: nat, angle: real, dist: real)
    requires k < |SegmentsOf(m, c, WorldEdges(b))|
    ensures !Blocks(corrected, m, c, ParseFigures(m, c, figures, b)[k], angle, dist)
  {
    var w := SegmentsOf(m, c, WorldEdges(b));
    var segs := ParseFigures(m, c, figures, b);
    ParseWorldFirst(m, c, figures, b);
    assert segs[..|w|][k] == w[k];
    assert w[k].originalId in SegIds(w);
  }

  // ---------------------------------------------------------------------
  // What the sweep reads of a figure
  // ---------------------------------------------------------------------

  /** Two figures the scene bounds and the segment extraction cannot tell apart. */
  predicate SameShape(a: Figure, b: Figure)
  {
    Extent(a) == Extent(b) && FigureEdges(a) == FigureEdges(b)
  }

  /** Two lists whose figures have, position by position, the same shape. */
  predicate SameShapes(a: seq<Figure>, b: seq<Figure>)
  {
    |a| == |b| && forall k :: 0 <= k < |a| ==> SameShape(a[k], b[k])
  }

  /** Repainting a figure keeps its shape. */
  lemma PaintKeepsShape(f: Figure, colorB: string, colorF: string)
    ensures SameShape(PutFigureColor(Some(f), colorB, colorF).value, f)
  {
  }

  lemma {:induction false} SameShapesAccumulate(ox: real, oy: real, a: seq<Figure>, b: seq<Figure>)
    requires SameShapes(a, b)
    ensures Accumulate(ox, oy, a) == Accumulate(ox, oy, b)
    decreases |a|
  {
    if a != [] {
      var n := |a| - 1;
      assert SameShapes(a[..n], b[..n]) by {
        forall k | 0 <= k < n
          ensures SameShape(a[..n][k], b[..n][k])
        {
          assert a[..n][k] == a[k] && b[..n][k] == b[k];
        }
      }
      SameShapesAccumulate(ox, oy, a[..n], b[..n]);
      assert SameShape(a[n], b[n]);
    }
  }

  lemma {:induction false} SameShapesEdges(a: seq<Figure>, b: seq<Figure>)
    requires SameShapes(a, b)
    ensures EdgesOf(a) == EdgesOf(b)
    decreases |a|
  {
    if a != [] {
      assert SameShapes(a[1..], b[1..]) by {
        forall k | 0 <= k < |a| - 1
          ensures SameShape(a[1..][k], b[1..][k])
        {
          assert a[1..][k] == a[k + 1] && b[1..][k] == b[k + 1];
        }
      }
      SameShapesEdges(a[1..], b[1..]);
      assert SameShape(a[0], b[0]);
    }
  }

  /** Whatever the sweep cannot see of a figure cannot change what is visible. */
  lemma SameShapesVisible(m: MathLib, c: Ctx, a: seq<Figure>, b: seq<Figure>, tx: real, ty: real)
    requires SameShapes(a, b)
    ensures Visible(m, c, Some(a), tx, ty) == Visible(m, c, Some(b), tx, ty)
    ensures VisibleAsWritten(m, c, Some(a), tx, ty) == VisibleAsWritten(m, c, Some(b), tx, ty)
  {
    SameShapesAccumulate(c.ox, c.oy, a, b);
    SameShapesEdges(a, b);
    assert SceneBounds(Some(a), c.ox, c.oy) == SceneBounds(Some(b), c.ox, c.oy);
    assert SightSegments(m, c, Some(a), tx, ty) == SightSegments(m, c, Some(b), tx, ty);
  }
}
